=== FILE: README.md ===
# Expense tracker bookkeeping, modelled in Dafny

This project models the bookkeeping core of a browser-based expense tracker:
- financial transactions and the loans that produce them;
- the dashboard, reports page and PDF figures computed from them;
- the CRUD handlers and form validators of the transactions, users, settings and additional-info pages;
- the browser-side account store (users and session);
- the per-user local-storage layer with its voucher numbering;
- the currency table;
- the "amount in words" of vouchers.

All state is immutable. The stored lists are `seq`s of datatypes and local storage is a `map<string, string>`. Every handler is a pure function from the old state to a new state, or to a `Result` carrying the error the original throws or displays. The ambient inputs of the original become parameters:
- the ids drawn from `Date.now()`;
- the voucher id;
- the category colour drawn from `Math.random()`;
- the current instant and the current month;
- the answer to `confirm()`;
- the value `parseFloat` gives for a typed amount, passed next to the raw text the handlers test for emptiness.

Amounts are exact `real`s. Every claim about sums, percentages and balances therefore holds for exact arithmetic, not for IEEE doubles.

Modules, following the source files:

| module | file(s) | what it holds |
|---|---|---|
| `Wrappers`, `Text`, `Seqs` | — | Option/Result; JavaScript string operations (`trim`, `toLowerCase`, `includes`, `split`/`join`, `padStart`, number to decimal text); filter, find, sum, slice, a generic sort and top-k with their specifications |
| `Types` | components/types/index.ts | the records |
| `Ledger` | components/pages/Index.tsx and every page that sums by type | per-type totals and the balance, in which loan-tagged transactions count for nothing |
| `Loans` | components/LoansManager.tsx | create and repay a loan over the pair (transactions, loans); summary; listing order |
| `Dashboard` | components/pages/Index.tsx | the dashboard figures |
| `CategoryStats` | ReportsPage.tsx and categoryBreakdownPDF.ts | per-category statistics with percentages |
| `Reports` | components/ReportsPage.tsx | month summary, savings rate, 12-month trend, pie lists, top-10 categories, loan summary, active users |
| `CategoryPdf` | lib/lib/categoryBreakdownPDF.ts | the table body with its TOTAL row, and the net label |
| `Statement` | lib/monthlyStatementPDF.ts | statement totals and rows |
| `Transactions` | components/TransactionManager.tsx | upsert, delete, filter, pagination |
| `UsersTab` | components/UsersTab.tsx | financial users and account users |
| `Settings` | components/SettingsPage.tsx | categories and settings defaults |
| `AdditionalInfo` | components/AdditionalInfoTab.tsx | history and rent lists |
| `Auth` | lib/auth.ts | the account store |
| `LoginPage`, `UserHeader` | components/LoginPage.tsx, components/UserHeader.tsx | registration and password-change forms |
| `UserStorage` | lib/lib/userStorage.ts | per-user keys, voucher ids, reset, import, the all-users listing |
| `Currency` | lib/lib/currencyUtils.ts | the currency table |
| `NumberWords` | lib/voucherGenerator.ts | `numberToWords` |

Two behaviours of the code are worth stating:
- **Repaying a loan that is already repaid is not rejected.** `handleRepayLoan` checks only that the loan and its originating transaction exist, so `Loans.RepayLoan` models that. `Loans.RepayIgnoresStatus` shows that such a call adds a second repayment transaction. `Loans.RepayPendingLoan` states the variant guarded by the page, which offers the button only for pending loans.
- **The savings rate is a percentage.** It is `(net / income) * 100`, not a fraction.

All paths in the table below are relative to the repository root. The app's sources live under `expense_tracker_project_with_backend/expensee/src/`, so every path starts with that directory.

## Model

| member | source | states |
|---|---|---|
| Types.ParseTxType | expense_tracker_project_with_backend/expensee/src/components/types/index.ts:21 | exactly the four stored names `income`, `expense`, `loan_given` and `loan_taken` are transaction types, and each parses to the type whose stored name it is |
| Ledger.FilteredSumIsKindTotal | expense_tracker_project_with_backend/expensee/src/components/pages/Index.tsx:56-62 | filtering by type and then summing amounts, as the pages write it, equals the per-type reference total |
| Ledger.BalanceIsSignedTotal | expense_tracker_project_with_backend/expensee/src/components/pages/Index.tsx:64 | income minus expenses equals one signed pass over the list: income +, expense −, loan tags 0 |
| Ledger.Balance | expense_tracker_project_with_backend/expensee/src/components/pages/Index.tsx:64 | the dashboard balance equals the one-pass signed reference total |
| Ledger.LoanTagIgnored | expense_tracker_project_with_backend/expensee/src/components/pages/Index.tsx:56-64 | a loan-tagged transaction inserted anywhere changes neither total nor the balance |
| Ledger.MonthTxs | expense_tracker_project_with_backend/expensee/src/components/pages/Index.tsx:66-71 | the month's list is an order-preserving subsequence that keeps every transaction dated in that month and year exactly as often as the list holds it, and no other transaction |
| Dashboard.OutstandingIsPendingTotal | expense_tracker_project_with_backend/expensee/src/components/pages/Index.tsx:82-90 | the dashboard's outstanding figure of a loan type (filter pending, filter type, sum) equals the loans page's pending total of that type |
| Dashboard.GoalsPartition | expense_tracker_project_with_backend/expensee/src/components/pages/Index.tsx:94-95 | every goal is either completed (current ≥ target) or active (current < target), never both, so the two counts add up to the number of goals |
| Dashboard.GoalCounts | expense_tracker_project_with_backend/expensee/src/components/pages/Index.tsx:94-95 | the completed count is the number of goals whose current amount reached the target, the active count the number below it, and the two add up to the number of goals |
| Dashboard.RecentTransactions | expense_tracker_project_with_backend/expensee/src/components/pages/Index.tsx:97-99 | the recent list has min(5, n) transactions, drawn from the list without repeating any more often than it occurs there, newest first; every transaction left out is no newer than the last one shown |
| Dashboard.DashboardFigures | expense_tracker_project_with_backend/expensee/src/components/pages/Index.tsx:56-99 | the dashboard figures are: the type totals; the signed balance; the current month's type totals; the loans page's pending summary; the number of goals that reached their target and the number that did not; and a recent list of min(5, n) transactions drawn from the list |
| Dashboard.MonthWithinTotal | expense_tracker_project_with_backend/expensee/src/components/pages/Index.tsx:66-79 | with non-negative amounts a month's total of a type never exceeds the all-time total |
| Loans.RepaymentCancelsOrigin | expense_tracker_project_with_backend/expensee/src/components/LoansManager.tsx:90 | the repayment kind is the inverse of the originating kind (given: expense then income; taken: income then expense), so the two signed amounts cancel |
| Loans.DefaultLoanCategory | expense_tracker_project_with_backend/expensee/src/components/LoansManager.tsx:65-69 | the result is never empty and is always a category's id or 'default-category'. It is the id of the first category whose lower-cased name contains "loan" when that id is non-empty. With no such category it is the first category's non-empty id, and with no categories it is 'default-category' |
| Loans.CreateLoan | expense_tracker_project_with_backend/expensee/src/components/LoansManager.tsx:71-121 | a form missing its user, amount or title changes nothing. Otherwise one transaction and one pending loan are prepended and the old entries are kept. They are linked by the transaction id and carry the same amount and user; the transaction's kind is expense for a loan given and income for a loan taken, with the default loan category |
| Loans.CreateLoanEffect | expense_tracker_project_with_backend/expensee/src/components/LoansManager.tsx:80-111 | creating a loan moves the balance by its amount (down when given, up when taken) and raises only the matching pending total by that amount |
| Loans.FindLoan | expense_tracker_project_with_backend/expensee/src/components/LoansManager.tsx:124-125 | a loan found is the first loan with the id asked for; none is found only when no loan has that id |
| Loans.FindTransaction | expense_tracker_project_with_backend/expensee/src/components/LoansManager.tsx:127-128 | a transaction found is the first transaction with the id asked for; none is found only when no transaction has that id |
| Loans.FindUniqueLoan | expense_tracker_project_with_backend/expensee/src/components/LoansManager.tsx:124 | with unique ids, finding a loan's id returns that loan |
| Loans.MarkRepaid | expense_tracker_project_with_backend/expensee/src/components/LoansManager.tsx:151-155 | the list keeps its length; the loans with the id become repaid with the repayment date; every other loan is unchanged |
| Loans.MarkRepaidUnique | expense_tracker_project_with_backend/expensee/src/components/LoansManager.tsx:151-155 | marking the one loan with a unique id repaid lowers its type's pending total by exactly its amount if it was pending, and by nothing otherwise |
| Loans.RepayLoan | expense_tracker_project_with_backend/expensee/src/components/LoansManager.tsx:123-166 | without confirmation, or with an unknown loan or a missing originating transaction, nothing changes. Otherwise one transaction is prepended with: the loan's amount and user; income for a loan given, expense for a loan taken; the origin's category. Only the loans with that id are marked repaid |
| Loans.RepayPendingLoan | expense_tracker_project_with_backend/expensee/src/components/LoansManager.tsx:123-166 | for a pending loan with a unique id (the only case the page offers), a repayment adds one transaction and leaves the loan repaid. It moves the balance back by the loan amount and removes the amount from that type's pending total only |
| Loans.RepayIgnoresStatus | expense_tracker_project_with_backend/expensee/src/components/LoansManager.tsx:123-158 | the handler itself accepts a loan that is already repaid and adds a second repayment transaction |
| Loans.CreateThenRepay | expense_tracker_project_with_backend/expensee/src/components/LoansManager.tsx:71-166 | creating a loan and then repaying it adds two transactions and restores both the balance and the pending summary |
| Loans.Summary | expense_tracker_project_with_backend/expensee/src/components/LoansManager.tsx:168-182 | the net position is the total given minus the total taken (that only pending loans count is `Loans.SummaryIgnoresRepaid`) |
| Loans.SummaryIgnoresRepaid | expense_tracker_project_with_backend/expensee/src/components/LoansManager.tsx:168-182 | repaid loans contribute nothing: the summary of the list equals the summary of its pending loans |
| Loans.ListedBeforeOrders | expense_tracker_project_with_backend/expensee/src/components/LoansManager.tsx:189-195 | the listing comparator (pending before repaid, then newer first) is a total preorder, so sorting by it is well defined |
| Loans.Views | expense_tracker_project_with_backend/expensee/src/components/LoansManager.tsx:185-188 | one view per loan, in order, each joined with its user and its transaction |
| Loans.LoansWithUserInfo | expense_tracker_project_with_backend/expensee/src/components/LoansManager.tsx:184-196 | a permutation of the joined views in which all pending loans precede all repaid ones, and loans of the same status are newest first |
| Reports.Summarize | expense_tracker_project_with_backend/expensee/src/components/ReportsPage.tsx:53-59 | the net is income minus expenses. With positive income, rate × income = net × 100, and the rate is at most 100 when expenses are non-negative. Without income the rate is 0 |
| Reports.MonthData | expense_tracker_project_with_backend/expensee/src/components/ReportsPage.tsx:44-59 | the month summary's income and expenses are the type totals of that month's transactions, with the rate rules above |
| Reports.RateBounds | expense_tracker_project_with_backend/expensee/src/components/ReportsPage.tsx:57 | the savings-rate formula scales back to the net, is 0 without income, and is at most 100 for non-negative expenses |
| Reports.EmptyMonth | expense_tracker_project_with_backend/expensee/src/components/ReportsPage.tsx:53-59 | a month with no transactions has an all-zero summary |
| Reports.ThreeTransactionMonth | expense_tracker_project_with_backend/expensee/src/components/ReportsPage.tsx:53-59 | income 1000 with expenses 400 and 100 gives net 500 and a savings rate of 50 |
| Reports.MonthsBefore | expense_tracker_project_with_backend/expensee/src/components/ReportsPage.tsx:66 | `new Date(y, m - i, 1)` lands in a valid month exactly i months before (y, m) |
| Reports.MonthlyTrend | expense_tracker_project_with_backend/expensee/src/components/ReportsPage.tsx:61-84 | exactly 12 entries, oldest first, the k-th being 11 − k months back and the last the current month; each holds that month's income and expense totals and their difference |
| Reports.PieBreakdown | expense_tracker_project_with_backend/expensee/src/components/ReportsPage.tsx:124-139 | a pie list has one entry per row with a strictly positive value on its side, in the rows' order (an order-preserving subsequence of all rows' entries), every such row's entry appears, and every value is positive |
| Reports.PieSumsToColumn | expense_tracker_project_with_backend/expensee/src/components/ReportsPage.tsx:124-139 | with non-negative figures a pie list adds up to the column total of the statistics it was drawn from |
| Reports.PerformanceOf | expense_tracker_project_with_backend/expensee/src/components/ReportsPage.tsx:143-148 | a category's monthly performance carries its name and colour and the income and expense of its own transactions only |
| Reports.TopTenByExpense | expense_tracker_project_with_backend/expensee/src/components/ReportsPage.tsx:153-154 | min(10, n) rows drawn from the input without repeating any more often than it occurs there, expense never increasing; a row left out has no larger expense than the tenth |
| Reports.CategoryPerformanceMonthly | expense_tracker_project_with_backend/expensee/src/components/ReportsPage.tsx:142-155 | min(10, m) rows, m being the number of categories with income or expense in the month; the rows are drawn from those categories' performances without repetition beyond their multiplicity, largest expense first. A moving category left out means ten are shown, none with a smaller expense than it |
| Reports.ReportsLoanSummary | expense_tracker_project_with_backend/expensee/src/components/ReportsPage.tsx:181-186 | the reports page's one-pass filter gives the same summary as the loans page, with net = given − taken |
| Reports.ActiveUsers | expense_tracker_project_with_backend/expensee/src/components/ReportsPage.tsx:194 | the count is the number of users with at least one transaction; so it is at most the number of users, equals it exactly when every user has a transaction, and is 0 exactly when none has |
| CategoryStats.CategoryTotalIsFiltered | expense_tracker_project_with_backend/expensee/src/components/ReportsPage.tsx:89-92 | filtering by category then type and summing equals the per-category reference total; the filtered length is the category's transaction count |
| CategoryStats.RawStat | expense_tracker_project_with_backend/expensee/src/components/ReportsPage.tsx:88-102 | a category's row carries its id, name and colour; the income, expense and count of its own transactions; net = income − expense; non-negative sums for non-negative amounts |
| CategoryStats.Percent | expense_tracker_project_with_backend/expensee/src/components/ReportsPage.tsx:108-109 | a percentage scales back to its part (r × total = part × 100) when the total is positive, and is 0 otherwise |
| CategoryStats.WithPercents | expense_tracker_project_with_backend/expensee/src/components/ReportsPage.tsx:106-110 | each row keeps its figures and gains its income and expense percentages of the given totals |
| CategoryStats.Compute | expense_tracker_project_with_backend/expensee/src/components/ReportsPage.tsx:87-114 | one row per category with income or expense, in category order (the row ids are an order-preserving subsequence of the category ids); every row kept has activity, its own category's sums and count, and percentages against the grand totals |
| CategoryStats.GrandTotalsCategorized | expense_tracker_project_with_backend/expensee/src/components/ReportsPage.tsx:104-105 | with distinct category ids, the grand totals are the totals of the transactions whose category exists; exactly the uncategorized ones are left out |
| CategoryStats.ShownTotalsAreGrandTotals | expense_tracker_project_with_backend/expensee/src/components/ReportsPage.tsx:117-121 | with non-negative amounts, the totals of the rows shown equal the grand totals, because dropped rows are zero |
| CategoryStats.PercentagesSumTo100 | expense_tracker_project_with_backend/expensee/src/components/ReportsPage.tsx:104-114 | with non-negative amounts the income percentages of the rows shown sum to exactly 100 when there is income, and likewise for expenses |
| CategoryPdf.RowOf | expense_tracker_project_with_backend/expensee/src/lib/lib/categoryBreakdownPDF.ts:149-158 | a row shows the statistic's figures and the magnitude of its net; its status is Surplus exactly when the net is non-negative |
| CategoryPdf.ByExpense | expense_tracker_project_with_backend/expensee/src/lib/lib/categoryBreakdownPDF.ts:146 | the sorted statistics are a permutation of the input with expense never increasing |
| CategoryPdf.TableBody | expense_tracker_project_with_backend/expensee/src/lib/lib/categoryBreakdownPDF.ts:149-170 | one row per statistic in descending expense order, then exactly one TOTAL row, last, with the grand totals |
| CategoryPdf.CategoryTable | expense_tracker_project_with_backend/expensee/src/lib/lib/categoryBreakdownPDF.ts:120-170 | every row but the last shows a category with income or expense, named after one of the categories; the last is the TOTAL row |
| CategoryPdf.TotalRowIsColumnSum | expense_tracker_project_with_backend/expensee/src/lib/lib/categoryBreakdownPDF.ts:136-170 | with non-negative amounts, the TOTAL row is the column sum of the category rows above it |
| CategoryPdf.NetLabel | expense_tracker_project_with_backend/expensee/src/lib/lib/categoryBreakdownPDF.ts:320-322 | the label is one of the two, and it is the Surplus label exactly when expenses do not exceed income |
| CategoryPdf.NetLabelMatchesBalance | expense_tracker_project_with_backend/expensee/src/lib/lib/categoryBreakdownPDF.ts:320-322 | when every transaction belongs to a category, the summary says Surplus exactly when the ledger balance is non-negative |
| Statement.StatementTotals | expense_tracker_project_with_backend/expensee/src/lib/monthlyStatementPDF.ts:148-150 | the totals are the income and expense type totals, and the net is the signed total in which loan tags count for nothing |
| Statement.NameOr | expense_tracker_project_with_backend/expensee/src/lib/monthlyStatementPDF.ts:197-198 | a found, non-empty name is shown as is; a missing record or an empty name shows N/A |
| Statement.CategoryName | expense_tracker_project_with_backend/expensee/src/lib/monthlyStatementPDF.ts:190-197 | the cell is the name of the first category with that id when that name is non-empty, and N/A when no category has the id or the first one's name is empty |
| Statement.UserName | expense_tracker_project_with_backend/expensee/src/lib/monthlyStatementPDF.ts:189-198 | the cell is the name of the first user with that id when that name is non-empty, and N/A when no user has the id or the first one's name is empty |
| Statement.RowFor | expense_tracker_project_with_backend/expensee/src/lib/monthlyStatementPDF.ts:188-202 | the income cell is filled exactly for income, the expense cell exactly for expense, each with the amount; the label is INCOME exactly for income, so loan-tagged rows read EXPENSE with both cells empty |
| Statement.Chronological | expense_tracker_project_with_backend/expensee/src/lib/monthlyStatementPDF.ts:187 | a permutation of the transactions in non-decreasing date order |
| Statement.StatementTable | expense_tracker_project_with_backend/expensee/src/lib/monthlyStatementPDF.ts:186-203 | exactly one row per transaction, the rows of the chronologically sorted list, with dates non-decreasing |
| Statement.ColumnsAddUpToTotals | expense_tracker_project_with_backend/expensee/src/lib/monthlyStatementPDF.ts:148-203 | the table's income column adds up to the statement's total income and its expense column to the total expenses |
| Transactions.KeptOr | expense_tracker_project_with_backend/expensee/src/components/TransactionManager.tsx:91-100 | a kept non-empty value wins; a missing or empty one falls back |
| Transactions.FormTransaction | expense_tracker_project_with_backend/expensee/src/components/TransactionManager.tsx:89-102 | the record carries the form's fields. When editing it keeps the edited record's non-empty id, its non-empty voucher id and its creation time; when adding it takes the fresh ones |
| Transactions.ReplaceById | expense_tracker_project_with_backend/expensee/src/components/TransactionManager.tsx:104-105 | the list keeps its length; entries with the id are replaced and every other entry is unchanged |
| Transactions.Submit | expense_tracker_project_with_backend/expensee/src/components/TransactionManager.tsx:82-114 | an incomplete form changes nothing; an edit replaces in place exactly the entries with the edited id; an addition prepends one record and keeps the rest |
| Transactions.EditKeepsIdentity | expense_tracker_project_with_backend/expensee/src/components/TransactionManager.tsx:91-100 | editing a record keeps its id, voucher id and creation time, and takes the form's title and amount |
| Transactions.Delete | expense_tracker_project_with_backend/expensee/src/components/TransactionManager.tsx:130-137 | without confirmation nothing changes; with it, the result is an order-preserving subsequence holding every transaction with another id exactly as often as before, and none with the id |
| Transactions.DeleteAbsent | expense_tracker_project_with_backend/expensee/src/components/TransactionManager.tsx:132 | deleting an id no entry carries leaves the list as it was |
| Transactions.FilteredTransactions | expense_tracker_project_with_backend/expensee/src/components/TransactionManager.tsx:166-181 | the result is an order-preserving subsequence holding every transaction that passes search, type, category, user and date bounds exactly as often as the list holds it, and no other |
| Transactions.UnfilteredShowsAll | expense_tracker_project_with_backend/expensee/src/components/TransactionManager.tsx:166-181 | with the panel as the page opens it, every transaction is shown |
| Transactions.TotalPages | expense_tracker_project_with_backend/expensee/src/components/TransactionManager.tsx:186 | the page count is the least number of ten-row pages that holds every item, and it is 0 exactly for no items |
| Transactions.PageItems | expense_tracker_project_with_backend/expensee/src/components/TransactionManager.tsx:187-189 | page p shows at most ten items, exactly items [(p−1)·10, p·10) clipped to the list |
| Transactions.ItemOnItsPage | expense_tracker_project_with_backend/expensee/src/components/TransactionManager.tsx:186-189 | every item appears on the page its position gives, and that page is between 1 and the page count |
| Transactions.PagesPastTheEndEmpty | expense_tracker_project_with_backend/expensee/src/components/TransactionManager.tsx:186-189 | pages past the last one show nothing |
| Transactions.PreviousPage | expense_tracker_project_with_backend/expensee/src/components/TransactionManager.tsx:200-204 | previous goes back one page unless already at page 1 |
| Transactions.NextPage | expense_tracker_project_with_backend/expensee/src/components/TransactionManager.tsx:206-210 | next goes forward one page unless already at the last |
| Transactions.PagingStaysInRange | expense_tracker_project_with_backend/expensee/src/components/TransactionManager.tsx:200-210 | from a page in [1, max(1, pages)], previous and next stay in that range |
| Transactions.PageWindow | expense_tracker_project_with_backend/expensee/src/components/TransactionManager.tsx:215-227 | with at most five pages the window is all of them; otherwise it is five consecutive pages within range and contains the current page |
| Transactions.PageNumbers | expense_tracker_project_with_backend/expensee/src/components/TransactionManager.tsx:213-235 | min(pages, 5) consecutive ascending page numbers in [1, pages]; 1..pages when there are at most five; the current page among them when it is a real page |
| Text.Initials | expense_tracker_project_with_backend/expensee/src/components/UsersTab.tsx:256-258 | at most two characters: the upper-cased first characters of the space-separated words, in order, with no lower-case letter |
| UsersTab.MergeById | expense_tracker_project_with_backend/expensee/src/components/UsersTab.tsx:115-119 | the list keeps its length; the users with the id take the form's fields and keep their id; the others are unchanged |
| UsersTab.SubmitUser | expense_tracker_project_with_backend/expensee/src/components/UsersTab.tsx:102-139 | the submission is refused exactly when the name is blank. An edit changes only the users with the edited id; an addition appends one user at the end |
| UsersTab.DeleteUser | expense_tracker_project_with_backend/expensee/src/components/UsersTab.tsx:207-220 | the deletion is refused exactly when some transaction refers to the user; otherwise the result keeps, in order, every user with another id exactly as often as before, and none with the id |
| UsersTab.DeleteRefusedIffCounted | expense_tracker_project_with_backend/expensee/src/components/UsersTab.tsx:244-247 | the deletion is refused exactly for the users whose displayed transaction count is non-zero |
| UsersTab.TransactionCount | expense_tracker_project_with_backend/expensee/src/components/UsersTab.tsx:244-247 | the count is the number of positions in the list whose transaction belongs to the user, never more than the list's length |
| UsersTab.TransactionTotal | expense_tracker_project_with_backend/expensee/src/components/UsersTab.tsx:249-254 | filtering by user and summing with the page's sign rule equals a one-pass signed total over the user's transactions |
| UsersTab.UserSignedSumByKind | expense_tracker_project_with_backend/expensee/src/components/UsersTab.tsx:249-254 | the users tab's sign rule (income +, every other type −) equals the ledger balance minus both loan-tag totals |
| UsersTab.TotalCountsLoansAsOutgoing | expense_tracker_project_with_backend/expensee/src/components/UsersTab.tsx:249-254 | a user's displayed total is the ledger balance of their transactions minus their loan-tagged amounts |
| UsersTab.ValidateAccount | expense_tracker_project_with_backend/expensee/src/components/UsersTab.tsx:141-173 | the checks run in order: admin, username, email, password present, confirmation, length ≥ 6; the first failure is reported, and none is reported exactly when all pass |
| UsersTab.CreateAccount | expense_tracker_project_with_backend/expensee/src/components/UsersTab.tsx:141-196 | an invalid form leaves the store alone with its error. A valid form creates the account exactly when neither the username nor the email is taken, refusing a taken username first; a created account carries the given id, verifies with the chosen password, has the chosen name and role, and is appended |
| UsersTab.DeleteAccount | expense_tracker_project_with_backend/expensee/src/components/UsersTab.tsx:222-242 | non-admins and self-deletion are refused with nothing changed, and so is an unconfirmed deletion. A confirmed admin deletion of another account succeeds, keeps the session, and keeps every account with another id exactly as often as before while removing those with the id |
| Settings.NewCategory | expense_tracker_project_with_backend/expensee/src/components/SettingsPage.tsx:102-107 | the new category stores the trimmed name, the drawn id and colour, and no kind |
| Settings.AddCategoryAsWritten | expense_tracker_project_with_backend/expensee/src/components/SettingsPage.tsx:90-115 | as written: a blank name is refused, then a name equal to an existing one up to case as typed; otherwise exactly one category is appended |
| Settings.AsWrittenAdmitsTrimmedDuplicate | expense_tracker_project_with_backend/expensee/src/components/SettingsPage.tsx:97-104 | a typed name that differs from an existing name but trims to it is accepted, and the list then holds that name twice |
| Settings.PaddedNameDuplicates | expense_tracker_project_with_backend/expensee/src/components/SettingsPage.tsx:97-104 | " Food" is accepted next to "Food", and both stored names are "Food" |
| Settings.AddCategory | expense_tracker_project_with_backend/expensee/src/components/SettingsPage.tsx:90-115 | corrected: the duplicate check uses the trimmed name that is stored, so an accepted addition keeps names distinct up to case |
| Settings.RenameById | expense_tracker_project_with_backend/expensee/src/components/SettingsPage.tsx:131-135 | only the category with the edited id gets the new name; the list keeps its length and every other entry |
| Settings.RenameCategory | expense_tracker_project_with_backend/expensee/src/components/SettingsPage.tsx:125-143 | the rename is refused exactly for a blank name. Otherwise only the edited category's name changes, to the trimmed text, keeping its id, colour and kind |
| Settings.RenameAdmitsDuplicate | expense_tracker_project_with_backend/expensee/src/components/SettingsPage.tsx:125-135 | renaming a category to another's name is accepted, because the rename makes no duplicate check |
| Settings.DeleteCategory | expense_tracker_project_with_backend/expensee/src/components/SettingsPage.tsx:145-150 | the result is an order-preserving subsequence keeping every category with another id exactly as often as before and none with the id; transactions are not consulted |
| Settings.LoadSettings | expense_tracker_project_with_backend/expensee/src/components/SettingsPage.tsx:70-76 | every setting but the name is kept. A missing or empty name becomes 'Expense Tracker' and a non-empty one is kept, so the result always has a non-empty name |
| Settings.LoadSettingsIdempotent | expense_tracker_project_with_backend/expensee/src/components/SettingsPage.tsx:70-76 | loading twice is loading once |
| AdditionalInfo.AddHistoryItem | expense_tracker_project_with_backend/expensee/src/components/AdditionalInfoTab.tsx:38-50 | an empty name or amount text leaves the list alone; otherwise exactly one item is appended |
| AdditionalInfo.PatchHistory | expense_tracker_project_with_backend/expensee/src/components/AdditionalInfoTab.tsx:53 | a patched item keeps its id, and each field the patch carries replaces the item's |
| AdditionalInfo.UpdateHistoryItem | expense_tracker_project_with_backend/expensee/src/components/AdditionalInfoTab.tsx:52-56 | only the items with the id are patched; the list keeps its length and every other item |
| AdditionalInfo.RemoveHistoryItem | expense_tracker_project_with_backend/expensee/src/components/AdditionalInfoTab.tsx:58-62 | the result is an order-preserving subsequence keeping every item with another id exactly as often as before and none with the id |
| AdditionalInfo.AddRentItem | expense_tracker_project_with_backend/expensee/src/components/AdditionalInfoTab.tsx:64-80 | an empty month, amount or date leaves the list alone; otherwise one item is appended, with a missing deed note stored as '' |
| AdditionalInfo.PatchRent | expense_tracker_project_with_backend/expensee/src/components/AdditionalInfoTab.tsx:83 | a patched rent item keeps its id, and each field the patch carries replaces the item's |
| AdditionalInfo.UpdateRentItem | expense_tracker_project_with_backend/expensee/src/components/AdditionalInfoTab.tsx:82-86 | only the rent items with the id are patched; the list keeps its length and every other item |
| AdditionalInfo.RemoveRentItem | expense_tracker_project_with_backend/expensee/src/components/AdditionalInfoTab.tsx:88-92 | the result is an order-preserving subsequence keeping every rent item with another id exactly as often as before and none with the id |
| AdditionalInfo.AddRaisesTotal | expense_tracker_project_with_backend/expensee/src/components/AdditionalInfoTab.tsx:94 | a successful history add raises the grand total by exactly the amount added |
| AdditionalInfo.AddRentRaisesTotal | expense_tracker_project_with_backend/expensee/src/components/AdditionalInfoTab.tsx:94 | a successful rent add raises the grand total by exactly the amount added |
| AdditionalInfo.RenameKeepsTotal | expense_tracker_project_with_backend/expensee/src/components/AdditionalInfoTab.tsx:52-56 | a patch without an amount leaves the history total unchanged |
| AdditionalInfo.RemoveLowersTotal | expense_tracker_project_with_backend/expensee/src/components/AdditionalInfoTab.tsx:58-62 | removing the items with an id lowers the history total by exactly their amounts |
| Auth.HashPassword | expense_tracker_project_with_backend/expensee/src/lib/auth.ts:24-26 | the digest is the password followed by the fixed salt, so the password can be read back from it |
| Auth.VerifyOnlyOwnPassword | expense_tracker_project_with_backend/expensee/src/lib/auth.ts:28-30 | a password verifies against its own digest, and only the hashed password does |
| Auth.Seed | expense_tracker_project_with_backend/expensee/src/lib/auth.ts:7-21 | the default administrator is written only when the users key is absent; otherwise nothing changes, and the session never does |
| Auth.Register | expense_tracker_project_with_backend/expensee/src/lib/auth.ts:32-66 | a taken username is refused first, then a taken email, and registration succeeds exactly when neither is taken. The new account has the given id, name, email and role and a digest its password verifies against, and is appended with the session unchanged |
| Auth.RegisterKeepsUnique | expense_tracker_project_with_backend/expensee/src/lib/auth.ts:42-62 | registration keeps usernames unique |
| Auth.Login | expense_tracker_project_with_backend/expensee/src/lib/auth.ts:68-88 | login succeeds exactly when the first account with the username exists and the password verifies. The stored session carries that account's id, name, email and role; a failure changes nothing but the seeding |
| Auth.Logout | expense_tracker_project_with_backend/expensee/src/lib/auth.ts:99-101 | only the session is removed |
| Auth.LogoutEndsSession | expense_tracker_project_with_backend/expensee/src/lib/auth.ts:99-138 | after logout nobody is authenticated and nobody is an administrator |
| Auth.IsAuthenticated | expense_tracker_project_with_backend/expensee/src/lib/auth.ts:131-133 | somebody is logged in exactly when logging out would change the store |
| Auth.IsAdmin | expense_tracker_project_with_backend/expensee/src/lib/auth.ts:135-138 | only a logged-in user can be an administrator; any other logged-in user has the plain user role |
| Auth.LoginAfterRegister | expense_tracker_project_with_backend/expensee/src/lib/auth.ts:32-88 | a freshly registered account can log in with its password, getting a session with its own id and role |
| Auth.DeleteUser | expense_tracker_project_with_backend/expensee/src/lib/auth.ts:116-129 | non-admins and self-deletion are refused with nothing changed, and the deletion succeeds exactly otherwise. Then every account with another id stays, in order and as often as before, those with the id are removed, and the session stays |
| Auth.Patched | expense_tracker_project_with_backend/expensee/src/lib/auth.ts:158-162 | a patched account keeps its id, digest and creation time; the patch's fields replace the account's, and the update time is now |
| Auth.UpdateProfile | expense_tracker_project_with_backend/expensee/src/lib/auth.ts:140-178 | errors in order: no session, someone else's profile for a non-admin, unknown id. Otherwise the first account with the id is patched in place, and the session follows only when callers edit themselves |
| Auth.ChangePassword | expense_tracker_project_with_backend/expensee/src/lib/auth.ts:180-217 | the checks run in order: session, permission, existence, current password, new length ≥ 6; a permitted change of an existing account with the right current password and a long enough new one succeeds. On success only that account's digest and update time change, and the session stays |
| Auth.ChangedPasswordVerifies | expense_tracker_project_with_backend/expensee/src/lib/auth.ts:198-214 | after a change exactly the new password verifies for that account, and every other account is untouched |
| LoginPage.FormCheck | expense_tracker_project_with_backend/expensee/src/components/LoginPage.tsx:57-79 | the checks run in order: confirmation, length ≥ 6, username, email. Each error is reported exactly when the earlier checks pass and its own fails, and none when all pass |
| LoginPage.HandleRegister | expense_tracker_project_with_backend/expensee/src/components/LoginPage.tsx:50-97 | a failed check changes nothing. Success, exactly when the checks pass and registration succeeds, creates an ordinary user with the typed name, email and password and clears the form; a refusal keeps the form |
| LoginPage.MismatchReportedFirst | expense_tracker_project_with_backend/expensee/src/components/LoginPage.tsx:57-61 | a mismatched confirmation is reported before anything else, with the store unchanged |
| LoginPage.RegisteredCanLogIn | expense_tracker_project_with_backend/expensee/src/components/LoginPage.tsx:81-94 | whoever registers through the page can then log in with that username and password as an ordinary user |
| UserHeader.HandlePasswordSubmit | expense_tracker_project_with_backend/expensee/src/components/UserHeader.tsx:76-101 | a mismatched confirmation, then a new password shorter than six characters, is refused with the store unchanged. The store is consulted exactly when both checks pass, and then for the session's own account |
| UserHeader.OwnPasswordChange | expense_tracker_project_with_backend/expensee/src/components/UserHeader.tsx:76-101 | with both checks passed and the right current password, the change succeeds and afterwards exactly the new password verifies |
| UserHeader.HandleProfileSubmit | expense_tracker_project_with_backend/expensee/src/components/UserHeader.tsx:56-74 | the session's own account (the first with its id) is replaced in the stored list by the patched account: the typed name and email, with its own id, role, password digest and creation time kept, every other account unchanged; the session follows; an unknown account fails, leaving only the seeded store |
| Currency.CurrencyConfigOf | expense_tracker_project_with_backend/expensee/src/lib/lib/currencyUtils.ts:19-21 | the result is always a table entry: the one with the code when the code is supported, US Dollar otherwise |
| Currency.DistinctCodes | expense_tracker_project_with_backend/expensee/src/lib/lib/currencyUtils.ts:8-17 | the table has eight currencies with pairwise distinct codes |
| Currency.LookupOfEntry | expense_tracker_project_with_backend/expensee/src/lib/lib/currencyUtils.ts:8-21 | looking up any entry's code yields that entry |
| UserStorage.CurrentUser | expense_tracker_project_with_backend/expensee/src/lib/lib/userStorage.ts:7 | an explicit non-empty id wins, otherwise the session's. There is no user exactly when neither is present and non-empty |
| UserStorage.StorageKey | expense_tracker_project_with_backend/expensee/src/lib/lib/userStorage.ts:5-14 | without a user the key is an error; otherwise it is the base, '_' and the current user |
| UserStorage.KeyDeterminesOwner | expense_tracker_project_with_backend/expensee/src/lib/lib/userStorage.ts:5-14 | for the seven bases, a key names its base and user: no two (base, user) pairs share a key |
| UserStorage.GetUserData | expense_tracker_project_with_backend/expensee/src/lib/lib/userStorage.ts:17-26 | the default without a user, without an item or with an item that does not parse; the decoded item otherwise |
| UserStorage.SaveUserData | expense_tracker_project_with_backend/expensee/src/lib/lib/userStorage.ts:28-35 | without a user nothing is written; otherwise only the user's key for the base changes, to the encoded data |
| UserStorage.SaveThenGet | expense_tracker_project_with_backend/expensee/src/lib/lib/userStorage.ts:17-35 | with a user and a round-tripping codec, reading a section after saving it gives back what was saved |
| UserStorage.SaveKeepsOtherSections | expense_tracker_project_with_backend/expensee/src/lib/lib/userStorage.ts:28-35 | saving a section leaves every other section of every user reading as before |
| UserStorage.Counters | expense_tracker_project_with_backend/expensee/src/lib/lib/userStorage.ts:125 | an absent or empty counter item reads as the empty object; otherwise it is parsed |
| UserStorage.VoucherId | expense_tracker_project_with_backend/expensee/src/lib/lib/userStorage.ts:113-133 | no user and an unparsable counter are errors, and the call succeeds exactly otherwise. Then the day's count is raised by one, other dates' counts and other keys are untouched, and the id is the date, '-' and the new count padded to four digits |
| UserStorage.VoucherTextReadsBack | expense_tracker_project_with_backend/expensee/src/lib/lib/userStorage.ts:132 | a voucher id reads back as its date, a dash and digits whose value is its serial |
| UserStorage.VoucherTextInjective | expense_tracker_project_with_backend/expensee/src/lib/lib/userStorage.ts:132 | distinct serials of one day give distinct ids |
| UserStorage.SameDayVouchersDiffer | expense_tracker_project_with_backend/expensee/src/lib/lib/userStorage.ts:126-132 | with a counter codec that round-trips, a second id drawn on the same day for the same user also succeeds, and it differs from the first |
| UserStorage.ResetUserData | expense_tracker_project_with_backend/expensee/src/lib/lib/userStorage.ts:189-209 | without a user it is an error; otherwise exactly the user's seven keys are removed and every other key is kept |
| UserStorage.ResetRestoresDefaults | expense_tracker_project_with_backend/expensee/src/lib/lib/userStorage.ts:189-209 | after a reset every section of the user reads as its default |
| UserStorage.ResetRestartsVouchers | expense_tracker_project_with_backend/expensee/src/lib/lib/userStorage.ts:189-209 | after a reset the user's first voucher of any day is number 0001 |
| UserStorage.FreshCounterStartsAtOne | expense_tracker_project_with_backend/expensee/src/lib/lib/userStorage.ts:125-132 | without a stored counter, the first voucher of any day is number 0001 |
| UserStorage.ImportUserData | expense_tracker_project_with_backend/expensee/src/lib/lib/userStorage.ts:165-186 | a file that does not parse is rejected with nothing written; otherwise the import succeeds |
| UserStorage.SaveSectionsEffect | expense_tracker_project_with_backend/expensee/src/lib/lib/userStorage.ts:172-177 | each saved section's key holds the backup's text when the backup carries it, and is as it was otherwise |
| UserStorage.SaveSectionsKeepOthers | expense_tracker_project_with_backend/expensee/src/lib/lib/userStorage.ts:172-177 | a key that is none of the user's section keys is untouched by the saves |
| UserStorage.ImportEffect | expense_tracker_project_with_backend/expensee/src/lib/lib/userStorage.ts:165-186 | an import stores each section the backup carries under the user's key for it and touches nothing else; without a user nothing is written |
| UserStorage.EntryFor | expense_tracker_project_with_backend/expensee/src/lib/lib/userStorage.ts:102-104 | the entry's user id is the key without the transactions prefix, so the key is that user's transactions key |
| UserStorage.AllUsersTransactions | expense_tracker_project_with_backend/expensee/src/lib/lib/userStorage.ts:92-110 | a non-admin is refused, and only a non-admin; otherwise there is one entry per key with the transactions prefix, in key order, each with the key's user and that user's transactions |
| UserStorage.CollectMatchesKeys | expense_tracker_project_with_backend/expensee/src/lib/lib/userStorage.ts:99-106 | walking the keys and keeping an entry for each transactions key gives exactly one entry per key of the filtered key list, in the same order, each key carrying the prefix |
| NumberWords.Below1000IsJoin | expense_tracker_project_with_backend/expensee/src/lib/voucherGenerator.ts:58-64 | below a thousand, the spelled group is its list of words joined by single spaces, and the list is empty exactly for zero |
| NumberWords.ReadBelow1000 | expense_tracker_project_with_backend/expensee/src/lib/voucherGenerator.ts:58-64 | read by an independent Indian-system reader, the words of a group below a thousand give back the group |
| NumberWords.Decomposition | expense_tracker_project_with_backend/expensee/src/lib/voucherGenerator.ts:66-69 | for a non-negative amount: crore·10^7 + lakh·10^5 + thousand·10^3 + remainder = ⌊num⌋, with lakh < 100, thousand < 100 and remainder < 1000 |
| NumberWords.SpelledIsJoin | expense_tracker_project_with_backend/expensee/src/lib/voucherGenerator.ts:73-76 | the text before trimming is the words of the non-zero groups, each followed by its scale word in the order Crore, Lakh, Thousand, joined by single spaces, with at most one trailing space |
| NumberWords.NumberToWords | expense_tracker_project_with_backend/expensee/src/lib/voucherGenerator.ts:51-79 | every result ends with " Taka Only", and zero gives "Zero Taka Only" |
| NumberWords.WordsReadBack | expense_tracker_project_with_backend/expensee/src/lib/voucherGenerator.ts:51-79 | from 1 up to 10^10, the text before " Taka Only" is the groups' words single-spaced, and those words read back as the whole part of the amount |
| NumberWords.GroupsInRange | expense_tracker_project_with_backend/expensee/src/lib/voucherGenerator.ts:66-69 | from 1 up to 10^10 the crore, lakh, thousand and remainder groups are each below a thousand, at least one is positive, and they recombine to the whole part |
| NumberWords.HalfTakaUnnamed | expense_tracker_project_with_backend/expensee/src/lib/voucherGenerator.ts:52 | as written, 0.5 is spelled " Taka Only", with no amount before it |
| NumberWords.NumberToWordsCorrected | expense_tracker_project_with_backend/expensee/src/lib/voucherGenerator.ts:51-79 | corrected: an amount whose whole part is zero gives "Zero Taka Only"; from 1 on, the original's text |
| NumberWords.CorrectedAlwaysNamesAmount | expense_tracker_project_with_backend/expensee/src/lib/voucherGenerator.ts:51-79 | with the correction, every amount from 0 up to 10^10 is a non-empty single-spaced list of words that reads back as its whole part, followed by " Taka Only" |

## Left out

- **User interface.** All rendering, React state and effects, dialogs, messages, timers and `window.location.reload` are left out. The handlers are modelled by the state change they make and the error they display.
- **Drawing and formatting.** PDF drawing, barcodes, layout, `toFixed`, `toLocaleString`, `toLocaleDateString` and `Intl` formatting (including `formatCurrencyWithSettings`) are left out. Tables are modelled as rows of values, and an empty amount cell ('-') is `None`.
- **Floating point.** Amounts are exact reals, so IEEE rounding, NaN from `parseFloat` and `Infinity` are not modelled. The model takes `parseFloat`'s value as a parameter next to the text the handlers test for emptiness.
- **Calendar arithmetic.** Dates are calendar fields in local time. Time zones, ISO-string parsing and the clock are not modelled. "Now", the current month and the voucher's `YYYYMMDD` date text are parameters.
- **Daily spending trend.** `getDailySpendingTrend` and `avgDailySpending` (ReportsPage.tsx:157-179, 192) are not modelled. They need day arithmetic with `setDate` and `toDateString`, which the calendar abstraction above does not model.
- **JSON.** `JSON.parse` and `JSON.stringify` are codec parameters of the storage functions, and properties that need a round trip assume one. A malformed voucher counter, which throws in the original, is the error `MalformedCounter`. The import file arrives already parsed into its six optional sections: a truthy section is its JSON text, and an unparsable file is `None`.
- **Export.** `exportUserData` builds a download (Blob, object URL, anchor click), so it is I/O only. Its data is what `GetUserData` reads for each section.
- **Listing storage keys.** `localStorage.key(i)` for the all-users listing is the sequence of keys in the order given, and each entry's transactions are decoded by a parameter.
- **Password digests.** `btoa` of the salted password becomes the salted text itself, which is injective. The failure of `btoa` on characters outside Latin-1 is not modelled, and no security property is claimed.
- **Handlers that only call the store.** `handleLogin` (LoginPage.tsx:35-48) is `Auth.Login` with its error shown. `handleLogout` is `Auth.Logout`.
- UserHeader.HandlePasswordSubmit and UserHeader.HandleProfileSubmit: both require a session. The header is rendered only while one exists, and the handlers dereference `session.userId` without a check.
- **Case mapping and whitespace.** Case mapping is ASCII only, and `trim` knows space, tab, LF, VT, FF, CR, no-break space and BOM. Other Unicode white space and non-ASCII case pairs are not modelled. String length and indexing count characters, not UTF-16 code units: a password of three astral characters (such as emoji) has JavaScript length 6 and passes the six-character minimum in the source, but has length 3 in the model and is refused by `UsersTab.ValidateAccount`, `LoginPage.FormCheck`, `UserHeader.HandlePasswordSubmit` and `Auth.ChangePassword`; and `Text.Initials` takes a whole first character where `n[0]` takes a lone surrogate.
- **Timestamps and extra fields.** The users tab's `updatedAt` and the financial user's `type` are not modelled. Neither is the category's creation time, which the settings page stamps.
- AdditionalInfo.PatchHistory and AdditionalInfo.PatchRent: a patch carries only the editable fields. A `Partial` object that also carries an `id` would rewrite the id in the original.
- NumberWords.WordsReadBack: stated only below 10^10. From there on the crore group reaches a thousand, and `ones[n / 100]` is out of range: JavaScript prints "undefined", and the model spells it the same way.
- **Negative amounts in words.** The model computes the groups of a negative amount as the source does, but states no property for them.
- **Sorting.** The generic sort is proved to produce a sorted permutation. Whether it keeps equal elements in their original order, as `Array.prototype.sort` does, is not stated.
- Dashboard.RecentTransactions and Statement.Chronological: the source sorts the caller's array in place (Index.tsx:97-98 sorts the page's transaction state, monthlyStatementPDF.ts:187 the month's list), so later readers of that array see it reordered. The model returns a sorted copy and leaves every input list in its original order.
- **Storage.** Local storage is one map. Quotas and storage events are not modelled, and neither are the exceptions `saveUserData` swallows besides a missing user.
- **Server and plumbing.** The Express server, its routes and database, the fetch client, the session helpers, the sample-data seeding, theme handling and the sidebar are not part of this model.

## Findings

| source | as written | input that shows it | evidently intended | confidence | as-written member | corrected member |
|---|---|---|---|---|---|---|
| expense_tracker_project_with_backend/expensee/src/components/SettingsPage.tsx:97-104 | the duplicate check compares the name as typed (lower-cased, untrimmed), but the name stored is trimmed | a category "Food" exists, and " Food" is added: the check sees " food" ≠ "food" and stores a second "Food" | the check compares the trimmed name that is stored, so category names stay distinct up to case | not executed | Settings.PaddedNameDuplicates | Settings.AddCategory |
| expense_tracker_project_with_backend/expensee/src/lib/voucherGenerator.ts:52 | only an amount of exactly 0 is spelled "Zero"; any other amount whose whole part is 0 has no non-zero group | 0.5 is spelled " Taka Only" | an amount with a zero whole part is spelled "Zero Taka Only" | not executed | NumberWords.HalfTakaUnnamed | NumberWords.CorrectedAlwaysNamesAmount |

=== FILE: additional_info.dfy ===
/** The additional-info tab (AdditionalInfoTab.tsx): a free-form history of
    transactions and a history of rent payments, each with quick add,
    patch-by-id and remove-by-id, and a grand total over both lists. The
    parsed amount arrives with the raw text it was parsed from; the id is
    drawn by the caller. */
module AdditionalInfo {
  import opened Wrappers
  import opened Seqs

  datatype HistoryItem = HistoryItem(id: string, name: string, amount: real)

  datatype RentItem = RentItem(id: string, month: string, amount: real, date: string, deedNote: string)

  /** `Partial<TransactionHistoryItem>` restricted to the editable fields. */
  datatype HistoryPatch = HistoryPatch(name: Option<string>, amount: Option<real>)

  /** `Partial<RentHistoryItem>` restricted to the editable fields. */
  datatype RentPatch = RentPatch(month: Option<string>, amount: Option<real>, date: Option<string>,
                                 deedNote: Option<string>)

  // ---------------------------------------------------------------------------
  // History of transactions
  // ---------------------------------------------------------------------------

  /** `addTxItem`: an empty name or amount text leaves the list alone;
      otherwise one item is appended. */
  function AddHistoryItem(items: seq<HistoryItem>, name: string, amountText: string, amount: real, id: string)
    : (r: seq<HistoryItem>)
    ensures name == "" || amountText == "" ==> r == items
    ensures name != "" && amountText != "" ==> r == items + [HistoryItem(id, name, amount)]
  {
    if name == "" || amountText == "" then items else items + [HistoryItem(id, name, amount)]
  }

  /** `{ ...t, ...patch }`: a field the patch carries replaces the item's. */
  function PatchHistory(t: HistoryItem, p: HistoryPatch): (r: HistoryItem)
    ensures r.id == t.id
    ensures r.name == p.name.GetOr(t.name) && r.amount == p.amount.GetOr(t.amount)
  {
    HistoryItem(t.id, p.name.GetOr(t.name), p.amount.GetOr(t.amount))
  }

  /** `updateTxItem`: only the items with the given id are patched. */
  function UpdateHistoryItem(items: seq<HistoryItem>, id: string, p: HistoryPatch): (r: seq<HistoryItem>)
    ensures |r| == |items|
    ensures forall i :: 0 <= i < |items| && items[i].id != id ==> r[i] == items[i]
    ensures forall i :: 0 <= i < |items| && items[i].id == id ==> r[i] == PatchHistory(items[i], p)
  {
    if |items| == 0 then []
    else [if items[0].id == id then PatchHistory(items[0], p) else items[0]] + UpdateHistoryItem(items[1..], id, p)
  }

  function NotHistory(id: string): HistoryItem -> bool {
    (t: HistoryItem) => t.id != id
  }

  function WithHistoryId(id: string): HistoryItem -> bool {
    (t: HistoryItem) => t.id == id
  }

  /** `removeTxItem`: exactly the items with that id go, the rest keep
      their order. */
  function RemoveHistoryItem(items: seq<HistoryItem>, id: string): (r: seq<HistoryItem>)
    ensures Subsequence(r, items)
    ensures forall i :: 0 <= i < |r| ==> r[i].id != id
    ensures forall i :: 0 <= i < |items| && items[i].id != id ==> items[i] in r
    ensures forall x :: multiset(r)[x] == if x.id != id then multiset(items)[x] else 0
  {
    FilterMultiset(items, NotHistory(id));
    Filter(items, NotHistory(id))
  }

  // ---------------------------------------------------------------------------
  // History of rent
  // ---------------------------------------------------------------------------

  /** `addRentItem`: month, amount and date must all be non-empty; a
      missing deed note is stored as the empty string. */
  function AddRentItem(items: seq<RentItem>, month: string, amountText: string, amount: real, date: string,
                       note: Option<string>, id: string)
    : (r: seq<RentItem>)
    ensures month == "" || amountText == "" || date == "" ==> r == items
    ensures month != "" && amountText != "" && date != "" ==>
      r == items + [RentItem(id, month, amount, date, note.GetOr(""))]
  {
    if month == "" || amountText == "" || date == "" then items
    else items + [RentItem(id, month, amount, date, note.GetOr(""))]
  }

  function PatchRent(t: RentItem, p: RentPatch): (r: RentItem)
    ensures r.id == t.id
    ensures r.month == p.month.GetOr(t.month) && r.amount == p.amount.GetOr(t.amount)
    ensures r.date == p.date.GetOr(t.date) && r.deedNote == p.deedNote.GetOr(t.deedNote)
  {
    RentItem(t.id, p.month.GetOr(t.month), p.amount.GetOr(t.amount), p.date.GetOr(t.date),
             p.deedNote.GetOr(t.deedNote))
  }

  /** `updateRentItem`: only the items with the given id are patched. */
  function UpdateRentItem(items: seq<RentItem>, id: string, p: RentPatch): (r: seq<RentItem>)
    ensures |r| == |items|
    ensures forall i :: 0 <= i < |items| && items[i].id != id ==> r[i] == items[i]
    ensures forall i :: 0 <= i < |items| && items[i].id == id ==> r[i] == PatchRent(items[i], p)
  {
    if |items| == 0 then []
    else [if items[0].id == id then PatchRent(items[0], p) else items[0]] + UpdateRentItem(items[1..], id, p)
  }

  function NotRent(id: string): RentItem -> bool {
    (t: RentItem) => t.id != id
  }

  /** `removeRentItem`. */
  function RemoveRentItem(items: seq<RentItem>, id: string): (r: seq<RentItem>)
    ensures Subsequence(r, items)
    ensures forall i :: 0 <= i < |r| ==> r[i].id != id
    ensures forall i :: 0 <= i < |items| && items[i].id != id ==> items[i] in r
    ensures forall x :: multiset(r)[x] == if x.id != id then multiset(items)[x] else 0
  {
    FilterMultiset(items, NotRent(id));
    Filter(items, NotRent(id))
  }

  // ---------------------------------------------------------------------------
  // Totals
  // ---------------------------------------------------------------------------

  function HistoryAmount(): HistoryItem -> real {
    (t: HistoryItem) => t.amount
  }

  function RentAmount(): RentItem -> real {
    (t: RentItem) => t.amount
  }

  /** `totalAll`: both lists' amounts together. */
  function TotalAll(history: seq<HistoryItem>, rent: seq<RentItem>): real {
    SumOf(history, HistoryAmount()) + SumOf(rent, RentAmount())
  }

  lemma {:induction false} SumOfAppend<T>(s: seq<T>, x: T, f: T -> real)
    ensures SumOf(s + [x], f) == SumOf(s, f) + f(x)
  {
    if |s| == 0 {
      assert s + [x] == [x];
    } else {
      assert (s + [x])[1..] == s[1..] + [x];
      SumOfAppend(s[1..], x, f);
    }
  }

  /** A successful quick add raises the grand total by exactly the amount
      added, to either list. */
  lemma AddRaisesTotal(history: seq<HistoryItem>, rent: seq<RentItem>, name: string, amountText: string,
                       amount: real, id: string)
    requires name != "" && amountText != ""
    ensures TotalAll(AddHistoryItem(history, name, amountText, amount, id), rent)
         == TotalAll(history, rent) + amount
  {
    SumOfAppend(history, HistoryItem(id, name, amount), HistoryAmount());
  }

  lemma AddRentRaisesTotal(history: seq<HistoryItem>, rent: seq<RentItem>, month: string, amountText: string,
                           amount: real, date: string, note: Option<string>, id: string)
    requires month != "" && amountText != "" && date != ""
    ensures TotalAll(history, AddRentItem(rent, month, amountText, amount, date, note, id))
         == TotalAll(history, rent) + amount
  {
    SumOfAppend(rent, RentItem(id, month, amount, date, note.GetOr("")), RentAmount());
  }

  /** A patch that does not carry an amount leaves every total unchanged. */
  lemma {:induction false} RenameKeepsTotal(items: seq<HistoryItem>, id: string, p: HistoryPatch)
    requires p.amount.None?
    ensures SumOf(UpdateHistoryItem(items, id, p), HistoryAmount()) == SumOf(items, HistoryAmount())
  {
    if |items| > 0 {
      RenameKeepsTotal(items[1..], id, p);
      assert UpdateHistoryItem(items, id, p)[1..] == UpdateHistoryItem(items[1..], id, p);
    }
  }

  /** Removing the items with an id lowers the total by exactly their
      amounts. */
  lemma {:induction false} RemoveLowersTotal(items: seq<HistoryItem>, id: string)
    ensures SumOf(items, HistoryAmount())
         == SumOf(RemoveHistoryItem(items, id), HistoryAmount())
          + SumOf(Filter(items, WithHistoryId(id)), HistoryAmount())
  {
    if |items| > 0 {
      RemoveLowersTotal(items[1..], id);
    }
  }
}

=== FILE: auth.dfy ===
/** The browser-side account store (lib/auth.ts): the list of account
    users and the current session, both kept in local storage. The user
    list is seeded with a default administrator the first time it is read;
    registration, login, logout, account deletion, profile updates and
    password changes are pure functions from the store to a new store and
    a result or the error the original throws. */
module Auth {
  import opened Wrappers
  import opened Seqs
  import opened Types

  // ---------------------------------------------------------------------------
  // Password digests
  // ---------------------------------------------------------------------------

  const Salt := "expense_tracker_salt"

  /** `btoa(password + salt)`. Base64 is a bijection on the strings it
      accepts, so the digest is represented by the salted text itself. */
  datatype Digest = Digest(salted: string)

  function HashPassword(password: string): (r: Digest)
    ensures |r.salted| == |password| + |Salt| && r.salted[..|password|] == password
  {
    Digest(password + Salt)
  }

  predicate VerifyPassword(password: string, hash: Digest) {
    HashPassword(password) == hash
  }

  /** Only the password that was hashed verifies against its digest. */
  lemma VerifyOnlyOwnPassword(p: string, q: string)
    ensures VerifyPassword(p, HashPassword(p))
    ensures VerifyPassword(q, HashPassword(p)) <==> p == q
  {
    if VerifyPassword(q, HashPassword(p)) {
      assert q == (q + Salt)[..|q|] == (p + Salt)[..|p|] == p;
    }
  }

  // ---------------------------------------------------------------------------
  // The store
  // ---------------------------------------------------------------------------

  datatype Role = Admin | User

  datatype AuthUser = AuthUser(
    id: string,
    username: string,
    email: string,
    passwordHash: Digest,
    role: Role,
    createdAt: Instant,
    updatedAt: Instant)

  datatype Session = Session(userId: string, username: string, email: string, role: Role, loginTime: Instant)

  /** The two storage keys: `users` is `None` while the users key is
      absent, `session` while the session key is. */
  datatype AuthStore = AuthStore(users: Option<seq<AuthUser>>, session: Option<Session>)

  datatype AuthError =
    | UsernameTaken        // 'Username already exists'
    | EmailTaken           // 'Email already exists'
    | InvalidCredentials   // 'Invalid username or password'
    | AdminRequired        // 'Admin privileges required'
    | CannotDeleteSelf     // 'Cannot delete your own account'
    | NotAuthenticated     // 'Not authenticated'
    | PermissionDenied     // 'Permission denied'
    | UserNotFound         // 'User not found'
    | WrongPassword        // 'Current password is incorrect'
    | PasswordTooShort     // 'New password must be at least 6 characters'

  /** The store after a call, and what the call returned or threw. */
  datatype Outcome<T> = Outcome(store: AuthStore, result: Result<T, AuthError>)

  const MinPasswordLength := 6

  function DefaultAdmin(now: Instant): AuthUser {
    AuthUser("admin-1", "admin", "admin@example.com", HashPassword("admin123"), Admin, now, now)
  }

  /** `initializeDefaultUser`: the default administrator is written only
      when the users key is absent; otherwise nothing changes. */
  function Seed(s: AuthStore, now: Instant): (r: AuthStore)
    ensures r.users.Some? && r.session == s.session
    ensures s.users.None? ==> r.users.value == [DefaultAdmin(now)]
    ensures s.users.Some? ==> r == s
  {
    if s.users.None? then s.(users := Some([DefaultAdmin(now)])) else s
  }

  /** `getAllUsers`, which seeds first. */
  function AllUsers(s: AuthStore, now: Instant): seq<AuthUser> {
    Seed(s, now).users.value
  }

  function WithUsername(name: string): AuthUser -> bool {
    (u: AuthUser) => u.username == name
  }

  function WithEmail(email: string): AuthUser -> bool {
    (u: AuthUser) => u.email == email
  }

  function WithId(id: string): AuthUser -> bool {
    (u: AuthUser) => u.id == id
  }

  function WithoutId(id: string): AuthUser -> bool {
    (u: AuthUser) => u.id != id
  }

  predicate UsernameTakenIn(users: seq<AuthUser>, name: string) {
    exists i :: 0 <= i < |users| && users[i].username == name
  }

  predicate EmailTakenIn(users: seq<AuthUser>, email: string) {
    exists i :: 0 <= i < |users| && users[i].email == email
  }

  // ---------------------------------------------------------------------------
  // registerUser
  // ---------------------------------------------------------------------------

  /** A taken username is refused first, then a taken email; otherwise the
      new account is appended after the (seeded) list. */
  function Register(s: AuthStore, username: string, email: string, password: string, role: Role,
                    id: string, now: Instant): (r: Outcome<AuthUser>)
    ensures UsernameTakenIn(AllUsers(s, now), username) ==>
      r.result == Err(UsernameTaken) && r.store == Seed(s, now)
    ensures !UsernameTakenIn(AllUsers(s, now), username) && EmailTakenIn(AllUsers(s, now), email) ==>
      r.result == Err(EmailTaken) && r.store == Seed(s, now)
    ensures r.result.Ok? <==>
      !UsernameTakenIn(AllUsers(s, now), username) && !EmailTakenIn(AllUsers(s, now), email)
    ensures r.result.Ok? ==>
      var u := r.result.value;
      && u.id == id && u.username == username && u.email == email && u.role == role
      && VerifyPassword(password, u.passwordHash)
      && r.store == AuthStore(Some(AllUsers(s, now) + [u]), s.session)
  {
    var users := AllUsers(s, now);
    if Find(users, WithUsername(username)).Some? then
      Outcome(Seed(s, now), Err(UsernameTaken))
    else if Find(users, WithEmail(email)).Some? then
      Outcome(Seed(s, now), Err(EmailTaken))
    else
      var u := AuthUser(id, username, email, HashPassword(password), role, now, now);
      Outcome(AuthStore(Some(users + [u]), s.session), Ok(u))
  }

  predicate UniqueUsernames(users: seq<AuthUser>) {
    forall i, j :: 0 <= i < j < |users| ==> users[i].username != users[j].username
  }

  /** Registration keeps usernames unique. */
  lemma RegisterKeepsUnique(s: AuthStore, username: string, email: string, password: string, role: Role,
                            id: string, now: Instant, later: Instant)
    requires UniqueUsernames(AllUsers(s, now))
    ensures UniqueUsernames(AllUsers(Register(s, username, email, password, role, id, now).store, later))
  {
  }

  // ---------------------------------------------------------------------------
  // loginUser, logout, isAuthenticated, isAdmin
  // ---------------------------------------------------------------------------

  /** Login succeeds exactly when the first account with that username
      exists and the password verifies against its digest; the session
      written carries that account's id, name, email and role. A failure
      changes nothing but the seeding. */
  function Login(s: AuthStore, username: string, password: string, now: Instant): (r: Outcome<Session>)
    ensures var k := FindIndex(AllUsers(s, now), WithUsername(username));
      r.result.Ok? <==> k.Some? && VerifyPassword(password, AllUsers(s, now)[k.value].passwordHash)
    ensures r.result.Ok? ==>
      var u := AllUsers(s, now)[FindIndex(AllUsers(s, now), WithUsername(username)).value];
      && r.result.value == Session(u.id, u.username, u.email, u.role, now)
      && r.store == AuthStore(Seed(s, now).users, Some(r.result.value))
    ensures r.result.Err? ==> r.result.error == InvalidCredentials && r.store == Seed(s, now)
  {
    var users := AllUsers(s, now);
    var k := FindIndex(users, WithUsername(username));
    if k.None? || !VerifyPassword(password, users[k.value].passwordHash) then
      Outcome(Seed(s, now), Err(InvalidCredentials))
    else
      var u := users[k.value];
      var session := Session(u.id, u.username, u.email, u.role, now);
      Outcome(AuthStore(Seed(s, now).users, Some(session)), Ok(session))
  }

  /** `logout`: only the session is removed. */
  function Logout(s: AuthStore): (r: AuthStore)
    ensures r.session.None? && r.users == s.users
  {
    s.(session := None)
  }

  /** Somebody is logged in exactly when logging out would change the store. */
  function IsAuthenticated(s: AuthStore): (r: bool)
    ensures r <==> Logout(s) != s
  {
    s.session.Some?
  }

  /** Only a logged-in user can be an administrator; every other logged-in
      user has the plain user role. */
  function IsAdmin(s: AuthStore): (r: bool)
    ensures r ==> IsAuthenticated(s)
    ensures IsAuthenticated(s) && !r ==> s.session.value.role == User
  {
    s.session.Some? && s.session.value.role == Admin
  }

  /** A freshly registered account can log in with its password, and the
      session is its own. */
  lemma {:induction false} LoginAfterRegister(s: AuthStore, username: string, email: string, password: string,
                                              role: Role, id: string, now: Instant, later: Instant)
    requires Register(s, username, email, password, role, id, now).result.Ok?
    ensures var reg := Register(s, username, email, password, role, id, now);
      var login := Login(reg.store, username, password, later);
      && login.result.Ok?
      && login.result.value.userId == id && login.result.value.role == role
      && IsAuthenticated(login.store)
  {
    var reg := Register(s, username, email, password, role, id, now);
    var users := AllUsers(s, now);
    var after := AllUsers(reg.store, later);
    assert after == users + [reg.result.value];
    var k := FindIndex(after, WithUsername(username));
    assert WithUsername(username)(after[|users|]);
    assert k.Some?;
    assert k.value == |users|;
  }

  /** After logging out nobody is authenticated, and nobody is an
      administrator. */
  lemma LogoutEndsSession(s: AuthStore)
    ensures !IsAuthenticated(Logout(s)) && !IsAdmin(Logout(s))
  {
  }

  // ---------------------------------------------------------------------------
  // deleteUser
  // ---------------------------------------------------------------------------

  /** Only an administrator may delete, and never their own account; the
      accounts with that id are removed and nothing else changes. */
  function DeleteUser(s: AuthStore, userId: string, now: Instant): (r: Outcome<()>)
    ensures !IsAdmin(s) ==> r == Outcome(s, Err(AdminRequired))
    ensures IsAdmin(s) && userId == s.session.value.userId ==> r == Outcome(s, Err(CannotDeleteSelf))
    ensures r.result.Ok? <==> IsAdmin(s) && userId != s.session.value.userId
    ensures r.result.Ok? ==>
      && r.store.session == s.session && r.store.users.Some?
      && Subsequence(r.store.users.value, AllUsers(s, now))
      && (forall i :: 0 <= i < |r.store.users.value| ==> r.store.users.value[i].id != userId)
      && (forall i :: 0 <= i < |AllUsers(s, now)| && AllUsers(s, now)[i].id != userId ==>
            AllUsers(s, now)[i] in r.store.users.value)
      && (forall u :: multiset(r.store.users.value)[u] == if u.id != userId then multiset(AllUsers(s, now))[u] else 0)
  {
    FilterMultiset(AllUsers(s, now), WithoutId(userId));
    if !IsAdmin(s) then Outcome(s, Err(AdminRequired))
    else if userId == s.session.value.userId then Outcome(s, Err(CannotDeleteSelf))
    else Outcome(AuthStore(Some(Filter(AllUsers(s, now), WithoutId(userId))), s.session), Ok(()))
  }

  // ---------------------------------------------------------------------------
  // updateUserProfile
  // ---------------------------------------------------------------------------

  /** The fields of an account a caller may pass in `updates`. */
  datatype ProfilePatch = ProfilePatch(username: Option<string>, email: Option<string>, role: Option<Role>)

  function Patched(u: AuthUser, p: ProfilePatch, now: Instant): (r: AuthUser)
    ensures r.id == u.id && r.passwordHash == u.passwordHash && r.createdAt == u.createdAt
    ensures r.username == p.username.GetOr(u.username)
    ensures r.email == p.email.GetOr(u.email)
    ensures r.role == p.role.GetOr(u.role)
    ensures r.updatedAt == now
  {
    u.(username := p.username.GetOr(u.username), email := p.email.GetOr(u.email),
       role := p.role.GetOr(u.role), updatedAt := now)
  }

  /** Errors in the order the original raises them: no session, then
      someone else's profile without being an administrator, then an
      unknown id. Only the first account with the id changes, and the
      session follows the change when callers edit themselves. */
  function UpdateProfile(s: AuthStore, userId: string, patch: ProfilePatch, now: Instant): (r: Outcome<AuthUser>)
    ensures s.session.None? ==> r == Outcome(s, Err(NotAuthenticated))
    ensures s.session.Some? && s.session.value.userId != userId && s.session.value.role != Admin ==>
      r == Outcome(s, Err(PermissionDenied))
    ensures s.session.Some? && (s.session.value.userId == userId || s.session.value.role == Admin) ==>
      var users := AllUsers(s, now);
      var k := FindIndex(users, WithId(userId));
      && (k.None? ==> r == Outcome(Seed(s, now), Err(UserNotFound)))
      && (k.Some? ==>
            && r.result == Ok(Patched(users[k.value], patch, now))
            && r.store.users == Some(users[k.value := r.result.value])
            && (s.session.value.userId == userId ==>
                  r.store.session == Some(s.session.value.(username := r.result.value.username,
                                                           email := r.result.value.email)))
            && (s.session.value.userId != userId ==> r.store.session == s.session))
  {
    if s.session.None? then Outcome(s, Err(NotAuthenticated))
    else
      var session := s.session.value;
      if session.userId != userId && session.role != Admin then Outcome(s, Err(PermissionDenied))
      else
        var users := AllUsers(s, now);
        var k := FindIndex(users, WithId(userId));
        if k.None? then Outcome(Seed(s, now), Err(UserNotFound))
        else
          var updated := Patched(users[k.value], patch, now);
          var session' := if session.userId == userId
                          then Some(session.(username := updated.username, email := updated.email))
                          else s.session;
          Outcome(AuthStore(Some(users[k.value := updated]), session'), Ok(updated))
  }

  // ---------------------------------------------------------------------------
  // changePassword
  // ---------------------------------------------------------------------------

  /** Checks, in order: a session, permission, existence, the current
      password, the new password's length; on success only that account's
      digest (and update time) changes. */
  function ChangePassword(s: AuthStore, userId: string, current: string, newPassword: string, now: Instant)
    : (r: Outcome<()>)
    ensures s.session.None? ==> r == Outcome(s, Err(NotAuthenticated))
    ensures s.session.Some? && s.session.value.userId != userId && s.session.value.role != Admin ==>
      r == Outcome(s, Err(PermissionDenied))
    ensures s.session.Some? && (s.session.value.userId == userId || s.session.value.role == Admin) ==>
      var users := AllUsers(s, now);
      var k := FindIndex(users, WithId(userId));
      && (k.None? ==> r == Outcome(Seed(s, now), Err(UserNotFound)))
      && (k.Some? && !VerifyPassword(current, users[k.value].passwordHash) ==>
            r == Outcome(Seed(s, now), Err(WrongPassword)))
      && (k.Some? && VerifyPassword(current, users[k.value].passwordHash) && |newPassword| < MinPasswordLength ==>
            r == Outcome(Seed(s, now), Err(PasswordTooShort)))
      && (k.Some? && VerifyPassword(current, users[k.value].passwordHash) && |newPassword| >= MinPasswordLength ==>
            r.result.Ok?)
    ensures r.result.Ok? ==>
      var users := AllUsers(s, now);
      var k := FindIndex(users, WithId(userId)).value;
      && |newPassword| >= MinPasswordLength
      && r.store == AuthStore(Some(users[k := users[k].(passwordHash := HashPassword(newPassword),
                                                           updatedAt := now)]), s.session)
  {
    if s.session.None? then Outcome(s, Err(NotAuthenticated))
    else
      var session := s.session.value;
      if session.userId != userId && session.role != Admin then Outcome(s, Err(PermissionDenied))
      else
        var users := AllUsers(s, now);
        var k := FindIndex(users, WithId(userId));
        if k.None? then Outcome(Seed(s, now), Err(UserNotFound))
        else if !VerifyPassword(current, users[k.value].passwordHash) then Outcome(Seed(s, now), Err(WrongPassword))
        else if |newPassword| < MinPasswordLength then Outcome(Seed(s, now), Err(PasswordTooShort))
        else
          var u := users[k.value].(passwordHash := HashPassword(newPassword), updatedAt := now);
          Outcome(AuthStore(Some(users[k.value := u]), s.session), Ok(()))
  }

  /** After a successful change the new password verifies for that account
      and every other password, the old one included unless it is the same,
      is refused; the other accounts are untouched. */
  lemma ChangedPasswordVerifies(s: AuthStore, userId: string, current: string, newPassword: string,
                                now: Instant, p: string)
    requires ChangePassword(s, userId, current, newPassword, now).result.Ok?
    ensures var users := AllUsers(s, now);
      var k := FindIndex(users, WithId(userId)).value;
      var after := ChangePassword(s, userId, current, newPassword, now).store.users.value;
      && |after| == |users|
      && (VerifyPassword(p, after[k].passwordHash) <==> p == newPassword)
      && (forall j :: 0 <= j < |users| && j != k ==> after[j] == users[j])
  {
    VerifyOnlyOwnPassword(newPassword, p);
  }
}

=== FILE: category_pdf.dfy ===
/** The table and the summary box of the category breakdown document
    (categoryBreakdownPDF.ts): one row per category with income or expense,
    largest expense first, each showing the magnitude of its net with a
    Surplus/Deficit status, then a single TOTAL row; the summary labels the
    overall net the same way. Drawing and number formatting are not part of
    the model. */
module CategoryPdf {
  import opened Seqs
  import opened Types
  import opened Ledger
  import opened CategoryStats

  datatype Status = Surplus | Deficit

  datatype Row =
    | CategoryRow(name: string, income: real, expense: real, netMagnitude: real, status: Status,
                  pctIncome: real, pctExpense: real, count: nat)
    | TotalRow(income: real, expense: real)

  function Abs(x: real): real {
    if x >= 0.0 then x else -x
  }

  /** `[name, income, expense, |net|, net >= 0 ? 'Surplus' : 'Deficit',
      pctIncome, pctExpense, count]`. */
  function RowOf(s: CategoryStat): (r: Row)
    ensures r.CategoryRow?
    ensures r.name == s.name && r.income == s.income && r.expense == s.expense && r.count == s.count
    ensures r.pctIncome == s.pctIncome && r.pctExpense == s.pctExpense
    ensures r.netMagnitude >= 0.0 && (r.netMagnitude == s.net || r.netMagnitude == -s.net)
    ensures r.status == Surplus <==> s.net >= 0.0
  {
    CategoryRow(s.name, s.income, s.expense, Abs(s.net), if s.net >= 0.0 then Surplus else Deficit,
                s.pctIncome, s.pctExpense, s.count)
  }

  function Rows(stats: seq<CategoryStat>): (r: seq<Row>)
    ensures |r| == |stats|
    ensures forall i :: 0 <= i < |stats| ==> r[i] == RowOf(stats[i])
  {
    if |stats| == 0 then [] else [RowOf(stats[0])] + Rows(stats[1..])
  }

  /** The comparator `b.expense - a.expense`. */
  predicate LargerExpenseFirst(a: CategoryStat, b: CategoryStat) {
    a.expense >= b.expense
  }

  lemma LargerExpenseFirstOrders()
    ensures TotalPreorder(LargerExpenseFirst)
  {
  }

  /** `.sort((a, b) => b.expense - a.expense)`: the same statistics,
      expense never increasing. */
  function ByExpense(stats: seq<CategoryStat>): (r: seq<CategoryStat>)
    ensures multiset(r) == multiset(stats)
    ensures |r| == |stats|
    ensures forall i, j :: 0 <= i < j < |r| ==> r[i].expense >= r[j].expense
  {
    LargerExpenseFirstOrders();
    SortBy(stats, LargerExpenseFirst)
  }

  /** The table body for the statistics of a breakdown: one row per
      statistic in expense order, then exactly one TOTAL row carrying the
      grand totals. */
  function TableBody(b: Breakdown): (r: seq<Row>)
    ensures |r| == |b.stats| + 1
    ensures r[|r| - 1] == TotalRow(b.totalIncome, b.totalExpense)
    ensures forall i :: 0 <= i < |r| - 1 ==> r[i] == RowOf(ByExpense(b.stats)[i])
    ensures forall i, j :: 0 <= i < j < |r| - 1 ==> r[i].expense >= r[j].expense
  {
    Rows(ByExpense(b.stats)) + [TotalRow(b.totalIncome, b.totalExpense)]
  }

  /** The document's table for the given categories and transactions:
      every row but the last shows a category with income or expense, and
      the last is the TOTAL row. */
  function CategoryTable(cats: seq<Category>, txs: seq<Transaction>): (r: seq<Row>)
    ensures |r| >= 1 && r[|r| - 1].TotalRow?
    ensures forall i :: 0 <= i < |r| - 1 ==> r[i].CategoryRow? && (r[i].income > 0.0 || r[i].expense > 0.0)
    ensures forall i :: 0 <= i < |r| - 1 ==> exists j :: 0 <= j < |cats| && r[i].name == cats[j].name
  {
    var b := Compute(cats, txs);
    ComputeNamesFromCategories(cats, txs);
    SortedRowsFrom(b.stats, cats);
    TableBody(b)
  }

  /** A row of the sorted statistics shows one of them. */
  lemma SortedRowsFrom(stats: seq<CategoryStat>, cats: seq<Category>)
    requires forall k :: 0 <= k < |stats| ==> HasActivity(stats[k])
    requires forall k :: 0 <= k < |stats| ==> exists j :: 0 <= j < |cats| && stats[k].name == cats[j].name
    ensures forall i :: 0 <= i < |stats| ==>
      && (ByExpense(stats)[i].income > 0.0 || ByExpense(stats)[i].expense > 0.0)
      && exists j :: 0 <= j < |cats| && ByExpense(stats)[i].name == cats[j].name
  {
    var sorted := ByExpense(stats);
    forall i | 0 <= i < |stats|
      ensures && (sorted[i].income > 0.0 || sorted[i].expense > 0.0)
              && exists j :: 0 <= j < |cats| && sorted[i].name == cats[j].name
    {
      assert sorted[i] in multiset(stats);
      var k :| 0 <= k < |stats| && stats[k] == sorted[i];
    }
  }

  /** Every statistic carries the name of one of the categories. */
  lemma ComputeNamesFromCategories(cats: seq<Category>, txs: seq<Transaction>)
    ensures forall k :: 0 <= k < |Compute(cats, txs).stats| ==>
      exists j :: 0 <= j < |cats| && Compute(cats, txs).stats[k].name == cats[j].name
  {
    var raw := RawStats(cats, txs);
    var ti := SumOf(raw, StatIncome());
    var te := SumOf(raw, StatExpense());
    KeptNames(cats, txs, ti, te);
    assert Compute(cats, txs).stats == Filter(WithPercents(raw, ti, te), IsActive());
  }

  /** Every kept row carries the name of one of the categories. */
  lemma KeptNames(cats: seq<Category>, txs: seq<Transaction>, ti: real, te: real)
    ensures var kept := Filter(WithPercents(RawStats(cats, txs), ti, te), IsActive());
      forall k :: 0 <= k < |kept| ==> exists j :: 0 <= j < |cats| && kept[k].name == cats[j].name
  {
    var kept := Filter(WithPercents(RawStats(cats, txs), ti, te), IsActive());
    forall k | 0 <= k < |kept| ensures exists j :: 0 <= j < |cats| && kept[k].name == cats[j].name {
      var j := KeptRowSource(cats, txs, ti, te, k);
      RowOfCategory(cats, txs, ti, te, j);
    }
  }

  function RowIncome(): Row -> real {
    (r: Row) => r.income
  }

  function RowExpense(): Row -> real {
    (r: Row) => r.expense
  }

  lemma {:induction false} RowSums(stats: seq<CategoryStat>)
    ensures SumOf(Rows(stats), RowIncome()) == SumOf(stats, StatIncome())
    ensures SumOf(Rows(stats), RowExpense()) == SumOf(stats, StatExpense())
  {
    if |stats| > 0 {
      RowSums(stats[1..]);
      assert Rows(stats)[1..] == Rows(stats[1..]);
    }
  }

  /** With non-negative amounts the TOTAL row is the column sum of the
      category rows above it. */
  lemma TotalRowIsColumnSum(cats: seq<Category>, txs: seq<Transaction>)
    requires NonNegativeAmounts(txs)
    ensures var r := TableBody(Compute(cats, txs));
      && SumOf(r[..|r| - 1], RowIncome()) == r[|r| - 1].income
      && SumOf(r[..|r| - 1], RowExpense()) == r[|r| - 1].expense
  {
    var b := Compute(cats, txs);
    var r := TableBody(b);
    var sorted := ByExpense(b.stats);
    assert r[..|r| - 1] == Rows(sorted);
    RowSums(sorted);
    SumOfPermutation(sorted, b.stats, StatIncome());
    SumOfPermutation(sorted, b.stats, StatExpense());
    ShownTotalsAreGrandTotals(cats, txs);
  }

  // ---------------------------------------------------------------------------
  // The summary box
  // ---------------------------------------------------------------------------

  const SurplusLabel := "Net Balance (Surplus)"
  const DeficitLabel := "Net Balance (Deficit)"

  /** The label of the net balance box. */
  function NetLabel(totalIncome: real, totalExpense: real): (r: string)
    ensures r == SurplusLabel || r == DeficitLabel
    ensures r == SurplusLabel <==> totalExpense <= totalIncome
  {
    if totalIncome - totalExpense >= 0.0 then SurplusLabel else DeficitLabel
  }

  lemma {:induction false} UncategorizedNone(txs: seq<Transaction>, k: TxType, ids: set<string>)
    requires forall i :: 0 <= i < |txs| ==> txs[i].categoryId in ids
    ensures UncategorizedTotal(txs, k, ids) == 0.0
  {
    if |txs| > 0 {
      UncategorizedNone(txs[1..], k, ids);
    }
  }

  /** When every transaction belongs to one of the (distinctly
      identified) categories, the summary says Surplus exactly when the
      ledger balance is not negative. */
  lemma NetLabelMatchesBalance(cats: seq<Category>, txs: seq<Transaction>)
    requires DistinctIds(cats)
    requires forall i :: 0 <= i < |txs| ==> txs[i].categoryId in CategoryIds(cats)
    ensures var b := Compute(cats, txs);
      NetLabel(b.totalIncome, b.totalExpense) == SurplusLabel <==> Balance(txs) >= 0.0
  {
    GrandTotalsCategorized(cats, txs);
    UncategorizedNone(txs, Income, CategoryIds(cats));
    UncategorizedNone(txs, Expense, CategoryIds(cats));
    CategorizedSplitsTotal(txs, Expense, CategoryIds(cats));
  }
}

=== FILE: category_stats.dfy ===
/** The per-category statistics the reports page (ReportsPage.tsx,
    `categoryStats`) and the category breakdown document
    (categoryBreakdownPDF.ts) both compute: for every category, the income,
    expense, net and count of its transactions; grand totals over the
    categories; percentages against those totals; rows with neither income
    nor expense dropped. */
module CategoryStats {
  import opened Seqs
  import opened Types
  import opened Ledger

  // ---------------------------------------------------------------------------
  // Reference sums over the transaction list
  // ---------------------------------------------------------------------------

  function InCategory(id: string): Transaction -> bool {
    (t: Transaction) => t.categoryId == id
  }

  /** Σ amount over the transactions of type `k` in category `id`. */
  function CategoryTotal(txs: seq<Transaction>, id: string, k: TxType): real {
    if |txs| == 0 then 0.0
    else (if txs[0].categoryId == id && txs[0].kind == k then txs[0].amount else 0.0)
         + CategoryTotal(txs[1..], id, k)
  }

  /** The number of transactions in category `id`. */
  function CategoryCount(txs: seq<Transaction>, id: string): nat {
    if |txs| == 0 then 0 else (if txs[0].categoryId == id then 1 else 0) + CategoryCount(txs[1..], id)
  }

  /** Σ amount over the transactions of type `k` whose category is one of
      `ids`, and over those whose category is none of them. */
  function CategorizedTotal(txs: seq<Transaction>, k: TxType, ids: set<string>): real {
    if |txs| == 0 then 0.0
    else (if txs[0].categoryId in ids && txs[0].kind == k then txs[0].amount else 0.0)
         + CategorizedTotal(txs[1..], k, ids)
  }

  function UncategorizedTotal(txs: seq<Transaction>, k: TxType, ids: set<string>): real {
    if |txs| == 0 then 0.0
    else (if txs[0].categoryId !in ids && txs[0].kind == k then txs[0].amount else 0.0)
         + UncategorizedTotal(txs[1..], k, ids)
  }

  lemma {:induction false} CategoryTotalIsFiltered(txs: seq<Transaction>, id: string, k: TxType)
    ensures KindTotal(Filter(txs, InCategory(id)), k) == CategoryTotal(txs, id, k)
    ensures |Filter(txs, InCategory(id))| == CategoryCount(txs, id)
  {
    if |txs| > 0 {
      CategoryTotalIsFiltered(txs[1..], id, k);
    }
  }

  /** Every transaction of type `k` is counted once: either under a listed
      category or not at all by the per-category figures. */
  lemma {:induction false} CategorizedSplitsTotal(txs: seq<Transaction>, k: TxType, ids: set<string>)
    ensures CategorizedTotal(txs, k, ids) + UncategorizedTotal(txs, k, ids) == KindTotal(txs, k)
  {
    if |txs| > 0 {
      CategorizedSplitsTotal(txs[1..], k, ids);
    }
  }

  lemma {:induction false} CategorizedAddId(txs: seq<Transaction>, k: TxType, id: string, ids: set<string>)
    requires id !in ids
    ensures CategorizedTotal(txs, k, ids + {id}) == CategoryTotal(txs, id, k) + CategorizedTotal(txs, k, ids)
  {
    if |txs| > 0 {
      CategorizedAddId(txs[1..], k, id, ids);
    }
  }

  // ---------------------------------------------------------------------------
  // Statistics per category
  // ---------------------------------------------------------------------------

  datatype CategoryStat = CategoryStat(
    id: string,
    name: string,
    color: string,
    income: real,
    expense: real,
    net: real,
    count: nat,
    pctIncome: real,
    pctExpense: real)

  /** One category's figures, before percentages: its transactions are
      filtered by `categoryId`, then summed by type. */
  function RawStat(c: Category, txs: seq<Transaction>): (r: CategoryStat)
    ensures r.id == c.id && r.name == c.name && r.color == c.color
    ensures r.income == CategoryTotal(txs, c.id, Income)
    ensures r.expense == CategoryTotal(txs, c.id, Expense)
    ensures r.net == r.income - r.expense
    ensures r.count == CategoryCount(txs, c.id)
    ensures NonNegativeAmounts(txs) ==> r.income >= 0.0 && r.expense >= 0.0
  {
    var catTxs := Filter(txs, InCategory(c.id));
    var income := AmountSum(Filter(catTxs, OfKind(Income)));
    var expense := AmountSum(Filter(catTxs, OfKind(Expense)));
    FilteredSumIsKindTotal(catTxs, Income);
    FilteredSumIsKindTotal(catTxs, Expense);
    CategoryTotalIsFiltered(txs, c.id, Income);
    CategoryTotalIsFiltered(txs, c.id, Expense);
    assert NonNegativeAmounts(txs) ==> income >= 0.0 && expense >= 0.0 by {
      if NonNegativeAmounts(txs) {
        KindTotalNonNegative(catTxs, Income);
        KindTotalNonNegative(catTxs, Expense);
      }
    }
    CategoryStat(c.id, c.name, c.color, income, expense, income - expense, |catTxs|, 0.0, 0.0)
  }

  function RawStats(cats: seq<Category>, txs: seq<Transaction>): (r: seq<CategoryStat>)
    ensures |r| == |cats|
    ensures forall i :: 0 <= i < |cats| ==> r[i] == RawStat(cats[i], txs)
  {
    if |cats| == 0 then [] else [RawStat(cats[0], txs)] + RawStats(cats[1..], txs)
  }

  /** The income column for `Income`, the expense column otherwise. */
  function StatOf(k: TxType): CategoryStat -> real {
    (s: CategoryStat) => if k == Income then s.income else s.expense
  }

  function StatIncome(): CategoryStat -> real {
    StatOf(Income)
  }

  function StatExpense(): CategoryStat -> real {
    StatOf(Expense)
  }

  function StatPctIncome(): CategoryStat -> real {
    (s: CategoryStat) => s.pctIncome
  }

  function StatPctExpense(): CategoryStat -> real {
    (s: CategoryStat) => s.pctExpense
  }

  /** `total > 0 ? (part / total) * 100 : 0`. */
  function Percent(part: real, total: real): (r: real)
    ensures total > 0.0 ==> r * total == part * 100.0
    ensures total <= 0.0 ==> r == 0.0
  {
    if total > 0.0 then part / total * 100.0 else 0.0
  }

  function WithPercents(stats: seq<CategoryStat>, totalIncome: real, totalExpense: real): (r: seq<CategoryStat>)
    ensures |r| == |stats|
    ensures forall i :: 0 <= i < |stats| ==>
      r[i] == stats[i].(pctIncome := Percent(stats[i].income, totalIncome),
                        pctExpense := Percent(stats[i].expense, totalExpense))
  {
    if |stats| == 0 then []
    else [stats[0].(pctIncome := Percent(stats[0].income, totalIncome),
                    pctExpense := Percent(stats[0].expense, totalExpense))]
         + WithPercents(stats[1..], totalIncome, totalExpense)
  }

  predicate HasActivity(s: CategoryStat) {
    s.income > 0.0 || s.expense > 0.0
  }

  function IsActive(): CategoryStat -> bool {
    (s: CategoryStat) => HasActivity(s)
  }

  /** The statistics together with the grand totals they were measured
      against. */
  datatype Breakdown = Breakdown(stats: seq<CategoryStat>, totalIncome: real, totalExpense: real)

  /** The category statistics in category order. Every row kept has income
      or expense, carries its category's own sums, and its percentages are
      taken against the grand totals; every category with income or expense
      has a row. */
  function Compute(cats: seq<Category>, txs: seq<Transaction>): (r: Breakdown)
    ensures forall i :: 0 <= i < |r.stats| ==> HasActivity(r.stats[i])
    ensures forall i :: 0 <= i < |r.stats| ==>
      && r.stats[i].income == CategoryTotal(txs, r.stats[i].id, Income)
      && r.stats[i].expense == CategoryTotal(txs, r.stats[i].id, Expense)
      && r.stats[i].net == r.stats[i].income - r.stats[i].expense
      && r.stats[i].count == CategoryCount(txs, r.stats[i].id)
      && r.stats[i].pctIncome == Percent(r.stats[i].income, r.totalIncome)
      && r.stats[i].pctExpense == Percent(r.stats[i].expense, r.totalExpense)
    ensures forall j :: 0 <= j < |cats| && HasActivity(RawStat(cats[j], txs)) ==>
      exists i :: 0 <= i < |r.stats| && r.stats[i].id == cats[j].id
    ensures |r.stats| <= |cats|
    ensures |r.stats| == |set j | 0 <= j < |cats| && HasActivity(RawStat(cats[j], txs))|
    ensures Subsequence(Map(r.stats, StatId()), Map(cats, CategoryId()))
  {
    var raw := RawStats(cats, txs);
    var totalIncome := SumOf(raw, StatIncome());
    var totalExpense := SumOf(raw, StatExpense());
    KeptRows(cats, txs, totalIncome, totalExpense);
    KeptCount(cats, txs, totalIncome, totalExpense);
    KeptInCategoryOrder(cats, txs, totalIncome, totalExpense);
    Breakdown(Filter(WithPercents(raw, totalIncome, totalExpense), IsActive()), totalIncome, totalExpense)
  }

  /** The rows kept from the statistics with percentages against any pair
      of totals: active, with their own category's figures, and one for
      every active category. */
  lemma KeptRows(cats: seq<Category>, txs: seq<Transaction>, ti: real, te: real)
    ensures var kept := Filter(WithPercents(RawStats(cats, txs), ti, te), IsActive());
      && |kept| <= |cats|
      && (forall i :: 0 <= i < |kept| ==> HasActivity(kept[i]))
      && (forall i :: 0 <= i < |kept| ==>
            && kept[i].income == CategoryTotal(txs, kept[i].id, Income)
            && kept[i].expense == CategoryTotal(txs, kept[i].id, Expense)
            && kept[i].net == kept[i].income - kept[i].expense
            && kept[i].count == CategoryCount(txs, kept[i].id)
            && kept[i].pctIncome == Percent(kept[i].income, ti)
            && kept[i].pctExpense == Percent(kept[i].expense, te))
      && (forall j :: 0 <= j < |cats| && HasActivity(RawStat(cats[j], txs)) ==>
            exists i :: 0 <= i < |kept| && kept[i].id == cats[j].id)
  {
    var all := WithPercents(RawStats(cats, txs), ti, te);
    var kept := Filter(all, IsActive());
    forall i | 0 <= i < |kept|
      ensures && kept[i].income == CategoryTotal(txs, kept[i].id, Income)
              && kept[i].expense == CategoryTotal(txs, kept[i].id, Expense)
              && kept[i].net == kept[i].income - kept[i].expense
              && kept[i].count == CategoryCount(txs, kept[i].id)
              && kept[i].pctIncome == Percent(kept[i].income, ti)
              && kept[i].pctExpense == Percent(kept[i].expense, te)
    {
      var j := KeptRowSource(cats, txs, ti, te, i);
      RowOfCategory(cats, txs, ti, te, j);
    }
    forall j | 0 <= j < |cats| && HasActivity(RawStat(cats[j], txs))
      ensures exists i :: 0 <= i < |kept| && kept[i].id == cats[j].id
    {
      RowOfCategory(cats, txs, ti, te, j);
      assert IsActive()(all[j]);
      assert all[j] in kept;
      var i :| 0 <= i < |kept| && kept[i] == all[j];
    }
  }

  function StatId(): CategoryStat -> string {
    (s: CategoryStat) => s.id
  }

  function CategoryId(): Category -> string {
    (c: Category) => c.id
  }

  /** One row is kept per active category. */
  lemma KeptCount(cats: seq<Category>, txs: seq<Transaction>, ti: real, te: real)
    ensures |Filter(WithPercents(RawStats(cats, txs), ti, te), IsActive())|
         == |set j | 0 <= j < |cats| && HasActivity(RawStat(cats[j], txs))|
  {
    var all := WithPercents(RawStats(cats, txs), ti, te);
    RowIdsAndActivity(cats, txs, ti, te);
    FilterCount(all, IsActive());
    assert Positions(all, IsActive()) == set j | 0 <= j < |cats| && HasActivity(RawStat(cats[j], txs));
  }

  /** The kept rows' ids follow the category order. */
  lemma KeptInCategoryOrder(cats: seq<Category>, txs: seq<Transaction>, ti: real, te: real)
    ensures Subsequence(Map(Filter(WithPercents(RawStats(cats, txs), ti, te), IsActive()), StatId()),
                        Map(cats, CategoryId()))
  {
    var all := WithPercents(RawStats(cats, txs), ti, te);
    var kept := Filter(all, IsActive());
    RowIdsAndActivity(cats, txs, ti, te);
    SubsequenceMap(kept, all, StatId());
    assert Map(all, StatId()) == Map(cats, CategoryId());
  }

  /** Row `j` carries category `j`'s id, and is active exactly when the
      category has activity. */
  lemma RowIdsAndActivity(cats: seq<Category>, txs: seq<Transaction>, ti: real, te: real)
    ensures |WithPercents(RawStats(cats, txs), ti, te)| == |cats|
    ensures forall j :: 0 <= j < |cats| ==>
      && WithPercents(RawStats(cats, txs), ti, te)[j].id == cats[j].id
      && (IsActive()(WithPercents(RawStats(cats, txs), ti, te)[j]) <==> HasActivity(RawStat(cats[j], txs)))
  {
    var all := WithPercents(RawStats(cats, txs), ti, te);
    forall j | 0 <= j < |cats| ensures all[j].id == cats[j].id && (IsActive()(all[j]) <==> HasActivity(RawStat(cats[j], txs))) {
      RowOfCategory(cats, txs, ti, te, j);
    }
  }

  /** Each kept row is the row of some category. */
  lemma KeptRowSource(cats: seq<Category>, txs: seq<Transaction>, ti: real, te: real, i: nat)
    returns (j: nat)
    requires i < |Filter(WithPercents(RawStats(cats, txs), ti, te), IsActive())|
    ensures j < |cats|
    ensures Filter(WithPercents(RawStats(cats, txs), ti, te), IsActive())[i]
         == WithPercents(RawStats(cats, txs), ti, te)[j]
  {
    var all := WithPercents(RawStats(cats, txs), ti, te);
    var kept := Filter(all, IsActive());
    assert kept[i] in all;
    j :| 0 <= j < |all| && all[j] == kept[i];
  }

  /** Row `j` of the statistics with percentages is category `j`'s. */
  lemma RowOfCategory(cats: seq<Category>, txs: seq<Transaction>, ti: real, te: real, j: nat)
    requires j < |cats|
    ensures var row := WithPercents(RawStats(cats, txs), ti, te)[j];
      && |WithPercents(RawStats(cats, txs), ti, te)| == |cats|
      && row.id == cats[j].id && row.name == cats[j].name
      && row.income == CategoryTotal(txs, cats[j].id, Income)
      && row.expense == CategoryTotal(txs, cats[j].id, Expense)
      && row.net == row.income - row.expense
      && row.count == CategoryCount(txs, cats[j].id)
      && row.pctIncome == Percent(row.income, ti)
      && row.pctExpense == Percent(row.expense, te)
      && (HasActivity(RawStat(cats[j], txs)) <==> HasActivity(row))
  {
  }

  // ---------------------------------------------------------------------------
  // Properties of the totals and percentages
  // ---------------------------------------------------------------------------

  function CategoryIds(cats: seq<Category>): set<string> {
    set i | 0 <= i < |cats| :: cats[i].id
  }

  predicate DistinctIds(cats: seq<Category>) {
    forall i, j :: 0 <= i < j < |cats| ==> cats[i].id != cats[j].id
  }

  lemma {:induction false} CategorizedNone(txs: seq<Transaction>, k: TxType)
    ensures CategorizedTotal(txs, k, {}) == 0.0
  {
    if |txs| > 0 {
      CategorizedNone(txs[1..], k);
    }
  }

  lemma CategoryIdsCons(cats: seq<Category>)
    requires |cats| > 0
    requires DistinctIds(cats)
    ensures CategoryIds(cats) == CategoryIds(cats[1..]) + {cats[0].id}
    ensures cats[0].id !in CategoryIds(cats[1..])
    ensures DistinctIds(cats[1..])
  {
    forall x | x in CategoryIds(cats) ensures x in CategoryIds(cats[1..]) + {cats[0].id} {
      var i :| 0 <= i < |cats| && cats[i].id == x;
      if i > 0 {
        assert cats[1..][i - 1].id == x;
      }
    }
    forall x | x in CategoryIds(cats[1..]) ensures x in CategoryIds(cats) {
      var i :| 0 <= i < |cats[1..]| && cats[1..][i].id == x;
      assert cats[i + 1].id == x;
    }
  }

  lemma {:induction false} RawTotalsCategorized(cats: seq<Category>, txs: seq<Transaction>, k: TxType)
    requires DistinctIds(cats)
    requires k == Income || k == Expense
    ensures SumOf(RawStats(cats, txs), StatOf(k)) == CategorizedTotal(txs, k, CategoryIds(cats))
  {
    if |cats| == 0 {
      CategorizedNone(txs, k);
      assert CategoryIds(cats) == {};
    } else {
      CategoryIdsCons(cats);
      RawTotalsCategorized(cats[1..], txs, k);
      var raw := RawStats(cats, txs);
      assert raw[1..] == RawStats(cats[1..], txs);
      CategorizedAddId(txs, k, cats[0].id, CategoryIds(cats[1..]));
      assert StatOf(k)(raw[0]) == CategoryTotal(txs, cats[0].id, k);
    }
  }

  /** With distinct category ids the grand totals are the totals of the
      transactions whose category exists; transactions whose `categoryId`
      matches no category are left out, and nothing else is. */
  lemma GrandTotalsCategorized(cats: seq<Category>, txs: seq<Transaction>)
    requires DistinctIds(cats)
    ensures Compute(cats, txs).totalIncome == CategorizedTotal(txs, Income, CategoryIds(cats))
    ensures Compute(cats, txs).totalExpense == CategorizedTotal(txs, Expense, CategoryIds(cats))
    ensures Compute(cats, txs).totalIncome
            == KindTotal(txs, Income) - UncategorizedTotal(txs, Income, CategoryIds(cats))
  {
    RawTotalsCategorized(cats, txs, Income);
    RawTotalsCategorized(cats, txs, Expense);
    CategorizedSplitsTotal(txs, Income, CategoryIds(cats));
  }

  lemma {:induction false} PercentsScale(stats: seq<CategoryStat>, totalIncome: real, totalExpense: real)
    ensures totalIncome > 0.0 ==>
      SumOf(WithPercents(stats, totalIncome, totalExpense), StatPctIncome()) * totalIncome
      == SumOf(stats, StatIncome()) * 100.0
    ensures totalExpense > 0.0 ==>
      SumOf(WithPercents(stats, totalIncome, totalExpense), StatPctExpense()) * totalExpense
      == SumOf(stats, StatExpense()) * 100.0
  {
    if |stats| > 0 {
      PercentsScale(stats[1..], totalIncome, totalExpense);
      assert WithPercents(stats, totalIncome, totalExpense)[1..] == WithPercents(stats[1..], totalIncome, totalExpense);
    }
  }

  predicate NonNegativeStats(stats: seq<CategoryStat>) {
    forall i :: 0 <= i < |stats| ==> stats[i].income >= 0.0 && stats[i].expense >= 0.0
  }

  lemma RawStatsNonNegative(cats: seq<Category>, txs: seq<Transaction>)
    requires NonNegativeAmounts(txs)
    ensures NonNegativeStats(RawStats(cats, txs))
  {
    var raw := RawStats(cats, txs);
    forall i | 0 <= i < |raw| ensures raw[i].income >= 0.0 && raw[i].expense >= 0.0 {
      assert raw[i] == RawStat(cats[i], txs);
    }
  }

  /** A row with no positive figure among non-negative ones has zero
      income, zero expense and zero percentages. */
  lemma DroppedRowsAreZero(stats: seq<CategoryStat>, totalIncome: real, totalExpense: real)
    requires NonNegativeStats(stats)
    ensures forall i :: 0 <= i < |stats| && !IsActive()(WithPercents(stats, totalIncome, totalExpense)[i]) ==>
      && WithPercents(stats, totalIncome, totalExpense)[i].income == 0.0
      && WithPercents(stats, totalIncome, totalExpense)[i].expense == 0.0
      && WithPercents(stats, totalIncome, totalExpense)[i].pctIncome == 0.0
      && WithPercents(stats, totalIncome, totalExpense)[i].pctExpense == 0.0
  {
  }

  /** The totals of the rows shown (`totalsAllTime` on the reports page)
      equal the grand totals: the rows dropped contribute nothing. */
  lemma ShownTotalsAreGrandTotals(cats: seq<Category>, txs: seq<Transaction>)
    requires NonNegativeAmounts(txs)
    ensures SumOf(Compute(cats, txs).stats, StatIncome()) == Compute(cats, txs).totalIncome
    ensures SumOf(Compute(cats, txs).stats, StatExpense()) == Compute(cats, txs).totalExpense
  {
    var raw := RawStats(cats, txs);
    var all := WithPercents(raw, SumOf(raw, StatIncome()), SumOf(raw, StatExpense()));
    RawStatsNonNegative(cats, txs);
    DroppedRowsAreZero(raw, SumOf(raw, StatIncome()), SumOf(raw, StatExpense()));
    SumOfFilter(all, IsActive(), StatIncome());
    SumOfFilter(all, IsActive(), StatExpense());
    SameSums(raw, SumOf(raw, StatIncome()), SumOf(raw, StatExpense()));
  }

  lemma {:induction false} SameSums(stats: seq<CategoryStat>, totalIncome: real, totalExpense: real)
    ensures SumOf(WithPercents(stats, totalIncome, totalExpense), StatIncome()) == SumOf(stats, StatIncome())
    ensures SumOf(WithPercents(stats, totalIncome, totalExpense), StatExpense()) == SumOf(stats, StatExpense())
  {
    if |stats| > 0 {
      SameSums(stats[1..], totalIncome, totalExpense);
      assert WithPercents(stats, totalIncome, totalExpense)[1..] == WithPercents(stats[1..], totalIncome, totalExpense);
    }
  }

  lemma CancelPositive(x: real, t: real)
    requires t > 0.0 && x * t == t * 100.0
    ensures x == 100.0
  {
  }

  lemma ComputeUnfold(cats: seq<Category>, txs: seq<Transaction>)
    ensures var raw := RawStats(cats, txs);
      var ti := SumOf(raw, StatIncome());
      var te := SumOf(raw, StatExpense());
      Compute(cats, txs) == Breakdown(Filter(WithPercents(raw, ti, te), IsActive()), ti, te)
  {
  }

  /** The percentages of the rows kept add up to the percentages of all
      rows, which add up to 100 once scaled back by the grand total. */
  lemma IncomePercentagesSum(stats: seq<CategoryStat>, ti: real, te: real)
    requires NonNegativeStats(stats)
    requires ti == SumOf(stats, StatIncome()) && ti > 0.0
    ensures SumOf(Filter(WithPercents(stats, ti, te), IsActive()), StatPctIncome()) == 100.0
  {
    var all := WithPercents(stats, ti, te);
    DroppedRowsAreZero(stats, ti, te);
    SumOfFilter(all, IsActive(), StatPctIncome());
    PercentsScale(stats, ti, te);
    CancelPositive(SumOf(all, StatPctIncome()), ti);
  }

  lemma ExpensePercentagesSum(stats: seq<CategoryStat>, ti: real, te: real)
    requires NonNegativeStats(stats)
    requires te == SumOf(stats, StatExpense()) && te > 0.0
    ensures SumOf(Filter(WithPercents(stats, ti, te), IsActive()), StatPctExpense()) == 100.0
  {
    var all := WithPercents(stats, ti, te);
    DroppedRowsAreZero(stats, ti, te);
    SumOfFilter(all, IsActive(), StatPctExpense());
    PercentsScale(stats, ti, te);
    CancelPositive(SumOf(all, StatPctExpense()), te);
  }

  /** With non-negative amounts the income percentages of the rows shown
      add up to exactly 100 whenever there is income, and likewise the
      expense percentages. */
  lemma PercentagesSumTo100(cats: seq<Category>, txs: seq<Transaction>)
    requires NonNegativeAmounts(txs)
    ensures Compute(cats, txs).totalIncome > 0.0 ==> SumOf(Compute(cats, txs).stats, StatPctIncome()) == 100.0
    ensures Compute(cats, txs).totalExpense > 0.0 ==> SumOf(Compute(cats, txs).stats, StatPctExpense()) == 100.0
  {
    var raw := RawStats(cats, txs);
    var ti := SumOf(raw, StatIncome());
    var te := SumOf(raw, StatExpense());
    ComputeUnfold(cats, txs);
    RawStatsNonNegative(cats, txs);
    if ti > 0.0 {
      IncomePercentagesSum(raw, ti, te);
    }
    if te > 0.0 {
      ExpensePercentagesSum(raw, ti, te);
    }
  }
}

=== FILE: currency.dfy ===
/** The supported currencies and the lookup of a currency's display
    configuration (currencyUtils.ts). */
module Currency {
  import opened Wrappers
  import opened Seqs

  datatype CurrencyConfig = CurrencyConfig(code: string, symbol: string, name: string)

  /** `SUPPORTED_CURRENCIES`, in table order; US Dollar first. */
  const Supported: seq<CurrencyConfig> := [
    CurrencyConfig("USD", "$", "US Dollar"),
    CurrencyConfig("BDT", "\U{09F3}", "Bangladeshi Taka"),
    CurrencyConfig("EUR", "\U{20AC}", "Euro"),
    CurrencyConfig("GBP", "\U{00A3}", "British Pound"),
    CurrencyConfig("INR", "\U{20B9}", "Indian Rupee"),
    CurrencyConfig("JPY", "\U{00A5}", "Japanese Yen"),
    CurrencyConfig("CAD", "C$", "Canadian Dollar"),
    CurrencyConfig("AUD", "A$", "Australian Dollar")
  ]

  function WithCode(code: string): CurrencyConfig -> bool {
    (c: CurrencyConfig) => c.code == code
  }

  predicate IsSupported(code: string) {
    exists i :: 0 <= i < |Supported| && Supported[i].code == code
  }

  /** `getCurrencyConfig`: the entry with that code, else the first entry
      (US Dollar); never anything outside the table. */
  function CurrencyConfigOf(code: string): (r: CurrencyConfig)
    ensures r in Supported
    ensures IsSupported(code) ==> r.code == code
    ensures !IsSupported(code) ==> r == Supported[0] && r.code == "USD"
  {
    Find(Supported, WithCode(code)).GetOr(Supported[0])
  }

  /** The table holds eight currencies, no two with the same code. */
  lemma DistinctCodes()
    ensures |Supported| == 8
    ensures forall i, j :: 0 <= i < j < |Supported| ==> Supported[i].code != Supported[j].code
  {
    var codes := ["USD", "BDT", "EUR", "GBP", "INR", "JPY", "CAD", "AUD"];
    assert forall i :: 0 <= i < |Supported| ==> Supported[i].code == codes[i];
    assert forall i, j :: 0 <= i < j < |codes| ==> codes[i][0] != codes[j][0] || codes[i][1] != codes[j][1];
  }

  /** Looking up any entry's code yields that very entry. */
  lemma LookupOfEntry(c: CurrencyConfig)
    requires c in Supported
    ensures CurrencyConfigOf(c.code) == c
  {
    DistinctCodes();
    var i :| 0 <= i < |Supported| && Supported[i] == c;
    var r := CurrencyConfigOf(c.code);
    var j :| 0 <= j < |Supported| && Supported[j] == r;
    assert Supported[i].code == Supported[j].code;
  }
}

=== FILE: dashboard.dfy ===
/** The figures of the dashboard (pages/Index.tsx): all-time and
    current-month income and expenses, the balance, outstanding loans,
    goal progress and the five most recent transactions. Each figure is
    computed as the page writes it (filter, then sum) and related to the
    shared ledger and loan definitions. */
module Dashboard {
  import opened Text
  import opened Seqs
  import opened Types
  import opened Ledger
  import opened Loans

  // ---------------------------------------------------------------------------
  // Outstanding loans
  // ---------------------------------------------------------------------------

  function IsPendingLoan(): Loan -> bool {
    (l: Loan) => l.status == Pending
  }

  function OfLoanType(k: LoanType): Loan -> bool {
    (l: Loan) => l.kind == k
  }

  function LoanAmountSum(loans: seq<Loan>): real {
    if |loans| == 0 then 0.0 else loans[0].amount + LoanAmountSum(loans[1..])
  }

  /** `pendingLoans.filter(l => l.type === k).reduce(...)`. */
  function Outstanding(loans: seq<Loan>, k: LoanType): real {
    LoanAmountSum(Filter(Filter(loans, IsPendingLoan()), OfLoanType(k)))
  }

  /** The dashboard's outstanding figures agree with the loans page's
      summary: both count only pending loans of the type. */
  lemma {:induction false} OutstandingIsPendingTotal(loans: seq<Loan>, k: LoanType)
    ensures Outstanding(loans, k) == PendingTotal(loans, k)
  {
    if |loans| > 0 {
      OutstandingIsPendingTotal(loans[1..], k);
    }
  }

  // ---------------------------------------------------------------------------
  // Goals
  // ---------------------------------------------------------------------------

  function IsCompletedGoal(): Goal -> bool {
    (g: Goal) => g.currentAmount >= g.targetAmount
  }

  function IsActiveGoal(): Goal -> bool {
    (g: Goal) => g.currentAmount < g.targetAmount
  }

  /** Completed goals (current at least the target) and active goals
      (current below it) split the goal list: every goal is in exactly one
      of the two, so the two counts add up to the number of goals. */
  lemma {:induction false} GoalsPartition(goals: seq<Goal>)
    ensures |Filter(goals, IsCompletedGoal())| + |Filter(goals, IsActiveGoal())| == |goals|
    ensures forall i :: 0 <= i < |goals| ==> IsCompletedGoal()(goals[i]) != IsActiveGoal()(goals[i])
  {
    if |goals| > 0 {
      GoalsPartition(goals[1..]);
    }
  }

  // ---------------------------------------------------------------------------
  // Recent transactions
  // ---------------------------------------------------------------------------

  /** The comparator `new Date(b.date) - new Date(a.date)`: newer first. */
  predicate NewerFirst(a: Transaction, b: Transaction) {
    AtOrBefore(b.date, a.date)
  }

  lemma NewerFirstOrders()
    ensures TotalPreorder(NewerFirst)
  {
    forall x: Transaction, y: Transaction ensures NewerFirst(x, y) || NewerFirst(y, x) {
      AtOrBeforeOrders(x.date, y.date, x.date);
    }
    forall x: Transaction, y: Transaction, z: Transaction | NewerFirst(x, y) && NewerFirst(y, z)
      ensures NewerFirst(x, z)
    {
      AtOrBeforeOrders(z.date, y.date, x.date);
    }
  }

  /** The five newest transactions, newest first: at most five, all taken
      from the list, and every transaction left out is no newer than the
      last one shown. */
  function RecentTransactions(txs: seq<Transaction>): (r: seq<Transaction>)
    ensures |r| == Min(5, |txs|)
    ensures multiset(r) <= multiset(txs)
    ensures forall i :: 0 <= i < |r| ==> r[i] in txs
    ensures forall i, j :: 0 <= i < j < |r| ==> AtOrBefore(r[j].date, r[i].date)
    ensures forall t :: t in txs && t !in r ==> AtOrBefore(t.date, r[|r| - 1].date)
  {
    NewerFirstOrders();
    Top(txs, NewerFirst, 5)
  }

  // ---------------------------------------------------------------------------
  // The figures together
  // ---------------------------------------------------------------------------

  datatype Figures = Figures(
    totalIncome: real,
    totalExpenses: real,
    balance: real,
    monthlyIncome: real,
    monthlyExpenses: real,
    outstandingGiven: real,
    outstandingTaken: real,
    netPosition: real,
    completedGoals: nat,
    activeGoals: nat,
    recent: seq<Transaction>)

  /** The dashboard for the current month `month` (0-based) of `year`. The
      balance is the signed total with loan tags counting for nothing; the
      monthly figures are the totals of that month's transactions; the loan
      figures equal the loans page's summary; the goal counts add up to the
      number of goals, each counting the goals on its side of the target;
      the recent list is at most five of the transactions, newest first. */
  function DashboardFigures(txs: seq<Transaction>, loans: seq<Loan>, goals: seq<Goal>, year: int, month: int)
    : (r: Figures)
    ensures r.totalIncome == KindTotal(txs, Income) && r.totalExpenses == KindTotal(txs, Expense)
    ensures r.balance == SignedTotal(txs)
    ensures r.monthlyIncome == KindTotal(MonthTxs(txs, year, month), Income)
    ensures r.monthlyExpenses == KindTotal(MonthTxs(txs, year, month), Expense)
    ensures r.outstandingGiven == Summary(loans).totalGiven
    ensures r.outstandingTaken == Summary(loans).totalTaken
    ensures r.netPosition == Summary(loans).netPosition
    ensures r.completedGoals == |set i | 0 <= i < |goals| && goals[i].currentAmount >= goals[i].targetAmount|
    ensures r.activeGoals == |set i | 0 <= i < |goals| && goals[i].currentAmount < goals[i].targetAmount|
    ensures r.completedGoals + r.activeGoals == |goals|
    ensures r.recent == RecentTransactions(txs)
    ensures |r.recent| == Min(5, |txs|) && multiset(r.recent) <= multiset(txs)
  {
    var all := TypeTotals(txs);
    var current := TypeTotals(MonthTxs(txs, year, month));
    var owed := LoanFigures(loans);
    var counts := GoalCounts(goals);
    BalanceIsSignedTotal(txs);
    Figures(all.0, all.1, all.0 - all.1, current.0, current.1,
            owed.totalGiven, owed.totalTaken, owed.netPosition,
            counts.0, counts.1, RecentTransactions(txs))
  }

  /** The income and expense figures as the dashboard filters and sums. */
  function TypeTotals(txs: seq<Transaction>): (r: (real, real))
    ensures r == (KindTotal(txs, Income), KindTotal(txs, Expense))
  {
    FilteredSumIsKindTotal(txs, Income);
    FilteredSumIsKindTotal(txs, Expense);
    (AmountSum(Filter(txs, OfKind(Income))), AmountSum(Filter(txs, OfKind(Expense))))
  }

  /** The outstanding loan figures as the dashboard filters and sums. */
  function LoanFigures(loans: seq<Loan>): (r: LoanSummary)
    ensures r == Summary(loans)
  {
    OutstandingIsPendingTotal(loans, Given);
    OutstandingIsPendingTotal(loans, Taken);
    var given := Outstanding(loans, Given);
    var taken := Outstanding(loans, Taken);
    LoanSummary(given, taken, given - taken)
  }

  /** The completed and active goal counts: the positions whose goal has
      reached its target, and those whose goal has not. */
  function GoalCounts(goals: seq<Goal>): (r: (nat, nat))
    ensures r.0 == |set i | 0 <= i < |goals| && goals[i].currentAmount >= goals[i].targetAmount|
    ensures r.1 == |set i | 0 <= i < |goals| && goals[i].currentAmount < goals[i].targetAmount|
    ensures r.0 + r.1 == |goals|
  {
    GoalsPartition(goals);
    GoalPositions(goals);
    (|Filter(goals, IsCompletedGoal())|, |Filter(goals, IsActiveGoal())|)
  }

  lemma GoalPositions(goals: seq<Goal>)
    ensures |Filter(goals, IsCompletedGoal())|
         == |set i | 0 <= i < |goals| && goals[i].currentAmount >= goals[i].targetAmount|
    ensures |Filter(goals, IsActiveGoal())|
         == |set i | 0 <= i < |goals| && goals[i].currentAmount < goals[i].targetAmount|
  {
    FilterCount(goals, IsCompletedGoal());
    FilterCount(goals, IsActiveGoal());
    assert Positions(goals, IsCompletedGoal())
        == set i | 0 <= i < |goals| && goals[i].currentAmount >= goals[i].targetAmount;
    assert Positions(goals, IsActiveGoal())
        == set i | 0 <= i < |goals| && goals[i].currentAmount < goals[i].targetAmount;
  }

  /** With non-negative amounts the month's figures never exceed the
      all-time ones. */
  lemma MonthWithinTotal(txs: seq<Transaction>, year: int, month: int, k: TxType)
    requires NonNegativeAmounts(txs)
    ensures KindTotal(MonthTxs(txs, year, month), k) <= KindTotal(txs, k)
  {
    var p := InMonthOf(year, month);
    KindTotalPartition(txs, p, k);
    KindTotalNonNegative(Filter(txs, t => !p(t)), k);
  }
}

=== FILE: ledger.dfy ===
/** The sums every report of the application is built from. The dashboard
    (pages/Index.tsx), the reports page and the monthly statement all add up
    `amount` over the transactions of one type; a transaction tagged
    `loan_given` or `loan_taken` is neither income nor expense for them.
    The users tab applies a different sign rule, kept in its own module. */
module Ledger {
  import opened Types
  import opened Seqs

  /** `txs.filter(t => t.type === k).reduce((sum, t) => sum + t.amount, 0)`. */
  function KindTotal(txs: seq<Transaction>, k: TxType): real {
    if |txs| == 0 then 0.0
    else (if txs[0].kind == k then txs[0].amount else 0.0) + KindTotal(txs[1..], k)
  }

  /** The filter `t => t.type === k`, named so every use denotes the same
      function. */
  function OfKind(k: TxType): Transaction -> bool {
    (t: Transaction) => t.kind == k
  }

  /** `txs.reduce((sum, t) => sum + t.amount, 0)`. */
  function AmountSum(txs: seq<Transaction>): real {
    if |txs| == 0 then 0.0 else txs[0].amount + AmountSum(txs[1..])
  }

  /** Filtering by type and then summing, as the pages write it, is the
      per-type total. */
  lemma {:induction false} FilteredSumIsKindTotal(txs: seq<Transaction>, k: TxType)
    ensures AmountSum(Filter(txs, OfKind(k))) == KindTotal(txs, k)
  {
    if |txs| > 0 {
      FilteredSumIsKindTotal(txs[1..], k);
    }
  }

  /** The sign a transaction's amount takes in the balance of the dashboard
      and the reports: loan tags count for nothing. */
  function LedgerSign(k: TxType): real {
    match k
    case Income => 1.0
    case Expense => -1.0
    case LoanGiven => 0.0
    case LoanTaken => 0.0
  }

  /** Reference definition of the balance as one signed pass. */
  function SignedTotal(txs: seq<Transaction>): real {
    if |txs| == 0 then 0.0 else LedgerSign(txs[0].kind) * txs[0].amount + SignedTotal(txs[1..])
  }

  /** `totalIncome - totalExpenses`: the same figure as one signed pass. */
  function Balance(txs: seq<Transaction>): (r: real)
    ensures r == SignedTotal(txs)
  {
    BalanceIsSignedTotal(txs);
    KindTotal(txs, Income) - KindTotal(txs, Expense)
  }

  predicate NonNegativeAmounts(txs: seq<Transaction>) {
    forall i :: 0 <= i < |txs| ==> txs[i].amount >= 0.0
  }

  lemma {:induction false} BalanceIsSignedTotal(txs: seq<Transaction>)
    ensures KindTotal(txs, Income) - KindTotal(txs, Expense) == SignedTotal(txs)
  {
    if |txs| > 0 {
      BalanceIsSignedTotal(txs[1..]);
    }
  }

  lemma {:induction false} KindTotalConcat(a: seq<Transaction>, b: seq<Transaction>, k: TxType)
    ensures KindTotal(a + b, k) == KindTotal(a, k) + KindTotal(b, k)
  {
    if |a| == 0 {
      assert a + b == b;
    } else {
      KindTotalConcat(a[1..], b, k);
      assert (a + b)[1..] == a[1..] + b;
    }
  }

  lemma {:induction false} KindTotalNonNegative(txs: seq<Transaction>, k: TxType)
    requires NonNegativeAmounts(txs)
    ensures KindTotal(txs, k) >= 0.0
  {
    if |txs| > 0 {
      KindTotalNonNegative(txs[1..], k);
    }
  }

  /** A predicate splits every total into the part it keeps and the part it
      drops. */
  lemma {:induction false} KindTotalPartition(txs: seq<Transaction>, p: Transaction -> bool, k: TxType)
    ensures KindTotal(txs, k) == KindTotal(Filter(txs, p), k) + KindTotal(Filter(txs, t => !p(t)), k)
  {
    if |txs| > 0 {
      KindTotalPartition(txs[1..], p, k);
    }
  }

  /** A transaction carrying a loan tag changes neither total, wherever it is
      added. */
  lemma LoanTagIgnored(a: seq<Transaction>, t: Transaction, b: seq<Transaction>)
    requires t.kind == LoanGiven || t.kind == LoanTaken
    ensures KindTotal(a + [t] + b, Income) == KindTotal(a + b, Income)
    ensures KindTotal(a + [t] + b, Expense) == KindTotal(a + b, Expense)
    ensures Balance(a + [t] + b) == Balance(a + b)
  {
    KindTotalConcat(a + [t], b, Income);
    KindTotalConcat(a, [t], Income);
    KindTotalConcat(a, b, Income);
    KindTotalConcat(a + [t], b, Expense);
    KindTotalConcat(a, [t], Expense);
    KindTotalConcat(a, b, Expense);
  }

  /** The calendar-month test of the dashboard and the reports:
      `getMonth()` and `getFullYear()` of the date equal the given ones. */
  predicate InMonth(t: Transaction, year: int, month: int) {
    t.date.year == year && t.date.month == month
  }

  function InMonthOf(year: int, month: int): Transaction -> bool {
    (t: Transaction) => InMonth(t, year, month)
  }

  function MonthTxs(txs: seq<Transaction>, year: int, month: int): (r: seq<Transaction>)
    ensures forall i :: 0 <= i < |r| ==> r[i] in txs && InMonth(r[i], year, month)
    ensures forall i :: 0 <= i < |txs| && InMonth(txs[i], year, month) ==> txs[i] in r
    ensures Subsequence(r, txs)
    ensures forall t :: multiset(r)[t] == if InMonth(t, year, month) then multiset(txs)[t] else 0
  {
    FilterMultiset(txs, InMonthOf(year, month));
    Filter(txs, InMonthOf(year, month))
  }
}

=== FILE: loans.dfy ===
/** The loan lifecycle of LoansManager.tsx over the pair (transactions,
    loans). Creating a loan prepends its originating transaction and a
    pending loan together; repaying prepends one repayment transaction of the
    inverse kind and marks the loan repaid. Summaries count pending loans
    only. */
module Loans {
  import opened Wrappers
  import opened Text
  import opened Seqs
  import opened Types
  import opened Ledger

  /** The two stored lists the loans page reads and writes together. */
  datatype Book = Book(transactions: seq<Transaction>, loans: seq<Loan>)

  // ---------------------------------------------------------------------------
  // Direction to transaction kind
  // ---------------------------------------------------------------------------

  /** A loan given is money leaving now; a loan taken is money coming in. */
  function OriginKind(k: LoanType): TxType {
    if k == Given then Expense else Income
  }

  /** Repayment moves the money back the other way. */
  function RepaymentKind(k: LoanType): TxType {
    if k == Given then Income else Expense
  }

  /** The repayment kind is the inverse of the originating kind: the two
      signed amounts cancel. */
  lemma RepaymentCancelsOrigin(k: LoanType)
    ensures LedgerSign(RepaymentKind(k)) == -LedgerSign(OriginKind(k))
    ensures LedgerSign(OriginKind(k)) != 0.0
    ensures OriginKind(k) != RepaymentKind(k)
  {
  }

  // ---------------------------------------------------------------------------
  // getDefaultLoanCategory
  // ---------------------------------------------------------------------------

  predicate IsLoanCategory(c: Category) {
    Contains(Lower(c.name), "loan")
  }

  /** The first category whose lower-cased name contains "loan"; failing
      that (or when its id is empty, which `||` skips) the first category;
      failing that 'default-category'. */
  function DefaultLoanCategory(cats: seq<Category>): (r: string)
    ensures r != ""
    ensures |cats| == 0 ==> r == "default-category"
    ensures forall i :: (0 <= i < |cats| && IsLoanCategory(cats[i]) && cats[i].id != "" &&
                         (forall j :: 0 <= j < i ==> !IsLoanCategory(cats[j]))) ==> r == cats[i].id
    ensures ((forall i :: 0 <= i < |cats| ==> !IsLoanCategory(cats[i])) && |cats| > 0 && cats[0].id != "") ==>
              r == cats[0].id
    ensures r == "default-category" || exists i :: 0 <= i < |cats| && r == cats[i].id
  {
    var found := Find(cats, IsLoanCategory);
    var first := if |cats| > 0 then cats[0].id else "";
    if found.Some? && found.value.id != "" then found.value.id
    else if first != "" then first
    else "default-category"
  }

  // ---------------------------------------------------------------------------
  // handleSubmit: create a loan
  // ---------------------------------------------------------------------------

  /** The loan form: `amountText` is what the user typed and `amount` the
      value `parseFloat` gives for it; `dueDate` is absent when left empty. */
  datatype LoanForm = LoanForm(
    userId: string,
    amountText: string,
    amount: real,
    kind: LoanType,
    dueDate: Option<Instant>,
    title: string,
    description: string)

  /** Ids the handler draws from `Date.now()` and the voucher counter. */
  datatype CreateIds = CreateIds(transactionId: string, loanId: string, voucherId: string)

  predicate FormComplete(form: LoanForm) {
    form.userId != "" && form.amountText != "" && form.title != ""
  }

  function OriginTransaction(form: LoanForm, cats: seq<Category>, ids: CreateIds, now: Instant): Transaction {
    Transaction(ids.transactionId, ids.voucherId, form.title, form.description, form.amount,
                OriginKind(form.kind), DefaultLoanCategory(cats), form.userId, now, now, now)
  }

  function NewLoan(form: LoanForm, ids: CreateIds, now: Instant): Loan {
    Loan(ids.loanId, ids.transactionId, form.userId, form.amount, form.kind, Pending,
         form.dueDate, None, now)
  }

  /** Creates a loan and its originating transaction together, or neither
      when a required field is empty. */
  function CreateLoan(b: Book, form: LoanForm, cats: seq<Category>, ids: CreateIds, now: Instant): (r: Book)
    ensures !FormComplete(form) ==> r == b
    ensures FormComplete(form) ==>
      && |r.transactions| == |b.transactions| + 1 && r.transactions[1..] == b.transactions
      && |r.loans| == |b.loans| + 1 && r.loans[1..] == b.loans
    ensures FormComplete(form) ==>
      var t := r.transactions[0];
      var l := r.loans[0];
      && l.transactionId == t.id
      && t.amount == l.amount == form.amount
      && t.kind == (if form.kind == Given then Expense else Income)
      && l.kind == form.kind && l.status == Pending && l.repaidDate.None?
      && t.userId == l.userId == form.userId
      && t.categoryId == DefaultLoanCategory(cats)
  {
    if !FormComplete(form) then b
    else Book([OriginTransaction(form, cats, ids, now)] + b.transactions,
              [NewLoan(form, ids, now)] + b.loans)
  }

  // ---------------------------------------------------------------------------
  // handleRepayLoan
  // ---------------------------------------------------------------------------

  /** `loans.find(l => l.id === loanId)`: the first loan with the id. */
  function FindLoan(loans: seq<Loan>, loanId: string): (r: Option<Loan>)
    ensures r.Some? ==> r.value in loans && r.value.id == loanId
    ensures r.Some? ==> exists i :: 0 <= i < |loans| && loans[i] == r.value
                                  && forall j :: 0 <= j < i ==> loans[j].id != loanId
    ensures r.None? ==> forall i :: 0 <= i < |loans| ==> loans[i].id != loanId
  {
    Find(loans, (l: Loan) => l.id == loanId)
  }

  /** `transactions.find(t => t.id === id)`: the first transaction with the id. */
  function FindTransaction(txs: seq<Transaction>, id: string): (r: Option<Transaction>)
    ensures r.Some? ==> r.value in txs && r.value.id == id
    ensures r.Some? ==> exists i :: 0 <= i < |txs| && txs[i] == r.value
                                  && forall j :: 0 <= j < i ==> txs[j].id != id
    ensures r.None? ==> forall i :: 0 <= i < |txs| ==> txs[i].id != id
  {
    Find(txs, (t: Transaction) => t.id == id)
  }

  /** `loans.map(l => l.id === loanId ? {...l, status: 'repaid', repaidDate} : l)`. */
  function MarkRepaid(loans: seq<Loan>, loanId: string, now: Instant): (r: seq<Loan>)
    ensures |r| == |loans|
    ensures forall i :: 0 <= i < |loans| ==>
      r[i] == (if loans[i].id == loanId then loans[i].(status := Repaid, repaidDate := Some(now)) else loans[i])
  {
    if |loans| == 0 then []
    else
      [if loans[0].id == loanId then loans[0].(status := Repaid, repaidDate := Some(now)) else loans[0]]
      + MarkRepaid(loans[1..], loanId, now)
  }

  function RepaymentTransaction(loan: Loan, origin: Transaction, ids: CreateIds, now: Instant): Transaction {
    Transaction(ids.transactionId, ids.voucherId,
                "Loan Repayment: " + origin.title,
                "Repayment of loan: " + (if origin.description != "" then origin.description else origin.title),
                loan.amount, RepaymentKind(loan.kind), origin.categoryId, loan.userId, now, now, now)
  }

  /** The repayment goes ahead: confirmed, the loan exists and so does its
      originating transaction. */
  predicate RepayApplies(b: Book, loanId: string, confirmed: bool) {
    && confirmed
    && FindLoan(b.loans, loanId).Some?
    && FindTransaction(b.transactions, FindLoan(b.loans, loanId).value.transactionId).Some?
  }

  /** The handler as written: `confirmed` is the answer to the confirmation
      dialog; an unknown loan id or a missing originating transaction leaves
      everything unchanged. The loan's status is not checked. (`ids.loanId`
      is not used.) */
  function RepayLoan(b: Book, loanId: string, confirmed: bool, ids: CreateIds, now: Instant): (r: Book)
    ensures !RepayApplies(b, loanId, confirmed) ==> r == b
    ensures (FindLoan(b.loans, loanId).None? ||
             FindTransaction(b.transactions, FindLoan(b.loans, loanId).value.transactionId).None?) ==> r == b
    ensures RepayApplies(b, loanId, confirmed) ==>
      var loan := FindLoan(b.loans, loanId).value;
      var origin := FindTransaction(b.transactions, loan.transactionId).value;
      && |r.transactions| == |b.transactions| + 1 && r.transactions[1..] == b.transactions
      && r.transactions[0].amount == loan.amount
      && r.transactions[0].kind == (if loan.kind == Given then Income else Expense)
      && r.transactions[0].categoryId == origin.categoryId && r.transactions[0].userId == loan.userId
      && |r.loans| == |b.loans|
      && (forall i :: 0 <= i < |b.loans| && b.loans[i].id != loanId ==> r.loans[i] == b.loans[i])
      && (forall i :: 0 <= i < |b.loans| && b.loans[i].id == loanId ==>
            r.loans[i].status == Repaid && r.loans[i].repaidDate == Some(now)
            && r.loans[i] == b.loans[i].(status := Repaid, repaidDate := Some(now)))
  {
    if !confirmed then b
    else
      var loan := FindLoan(b.loans, loanId);
      if loan.None? then b
      else
        var origin := FindTransaction(b.transactions, loan.value.transactionId);
        if origin.None? then b
        else
          Book([RepaymentTransaction(loan.value, origin.value, ids, now)] + b.transactions,
               MarkRepaid(b.loans, loanId, now))
  }

  // ---------------------------------------------------------------------------
  // getLoansSummary
  // ---------------------------------------------------------------------------

  datatype LoanSummary = LoanSummary(totalGiven: real, totalTaken: real, netPosition: real)

  /** Σ amount over the pending loans of type `k`. */
  function PendingTotal(loans: seq<Loan>, k: LoanType): real {
    if |loans| == 0 then 0.0
    else (if loans[0].status == Pending && loans[0].kind == k then loans[0].amount else 0.0)
         + PendingTotal(loans[1..], k)
  }

  function Summary(loans: seq<Loan>): (r: LoanSummary)
    ensures r.netPosition == r.totalGiven - r.totalTaken
  {
    var given := PendingTotal(loans, Given);
    var taken := PendingTotal(loans, Taken);
    LoanSummary(given, taken, given - taken)
  }

  lemma {:induction false} PendingTotalConcat(a: seq<Loan>, b: seq<Loan>, k: LoanType)
    ensures PendingTotal(a + b, k) == PendingTotal(a, k) + PendingTotal(b, k)
  {
    if |a| == 0 {
      assert a + b == b;
    } else {
      PendingTotalConcat(a[1..], b, k);
      assert (a + b)[1..] == a[1..] + b;
    }
  }

  /** Repaid loans contribute nothing: the summary of the whole list equals
      the summary of its pending loans. */
  lemma {:induction false} SummaryIgnoresRepaid(loans: seq<Loan>)
    ensures Summary(loans) == Summary(Filter(loans, (l: Loan) => l.status == Pending))
  {
    PendingOnly(loans, Given);
    PendingOnly(loans, Taken);
  }

  lemma {:induction false} PendingOnly(loans: seq<Loan>, k: LoanType)
    ensures PendingTotal(loans, k) == PendingTotal(Filter(loans, (l: Loan) => l.status == Pending), k)
  {
    if |loans| > 0 {
      PendingOnly(loans[1..], k);
    }
  }

  lemma {:induction false} MarkRepaidNoMatch(loans: seq<Loan>, loanId: string, now: Instant)
    requires forall i :: 0 <= i < |loans| ==> loans[i].id != loanId
    ensures MarkRepaid(loans, loanId, now) == loans
  {
    if |loans| > 0 {
      MarkRepaidNoMatch(loans[1..], loanId, now);
    }
  }

  // ---------------------------------------------------------------------------
  // Lifecycle properties
  // ---------------------------------------------------------------------------

  /** Creating a loan moves the balance by its amount (down for a loan given,
      up for a loan taken) and raises the matching pending total by it. */
  lemma CreateLoanEffect(b: Book, form: LoanForm, cats: seq<Category>, ids: CreateIds, now: Instant)
    requires FormComplete(form)
    ensures var r := CreateLoan(b, form, cats, ids, now);
      && Balance(r.transactions) == Balance(b.transactions) + (if form.kind == Given then -form.amount else form.amount)
      && PendingTotal(r.loans, form.kind) == PendingTotal(b.loans, form.kind) + form.amount
      && (forall k :: k != form.kind ==> PendingTotal(r.loans, k) == PendingTotal(b.loans, k))
      && Summary(r.loans).netPosition == Summary(b.loans).netPosition + (if form.kind == Given then form.amount else -form.amount)
  {
    var r := CreateLoan(b, form, cats, ids, now);
    assert r.transactions == [r.transactions[0]] + b.transactions;
    assert r.loans == [r.loans[0]] + b.loans;
  }

  /** With ids unique, `find` by id returns the loan at that position. */
  lemma FindUniqueLoan(loans: seq<Loan>, i: nat)
    requires i < |loans|
    requires forall j :: 0 <= j < |loans| && j != i ==> loans[j].id != loans[i].id
    ensures FindLoan(loans, loans[i].id) == Some(loans[i])
  {
    var found := FindLoan(loans, loans[i].id);
    assert found.Some?;
    var k :| 0 <= k < |loans| && loans[k] == found.value;
    assert k == i;
  }

  /** Marking the one loan with a unique id repaid removes exactly its
      amount from the pending total of its type. */
  lemma {:induction false} MarkRepaidUnique(loans: seq<Loan>, i: nat, now: Instant, k: LoanType)
    requires i < |loans|
    requires forall j :: 0 <= j < |loans| && j != i ==> loans[j].id != loans[i].id
    ensures PendingTotal(MarkRepaid(loans, loans[i].id, now), k)
            == PendingTotal(loans, k) - (if loans[i].status == Pending && loans[i].kind == k then loans[i].amount else 0.0)
  {
    var id := loans[i].id;
    var m := MarkRepaid(loans, id, now);
    assert m[1..] == MarkRepaid(loans[1..], id, now);
    if i == 0 {
      MarkRepaidNoMatch(loans[1..], id, now);
    } else {
      MarkRepaidUnique(loans[1..], i - 1, now, k);
    }
  }

  /** The guarded repayment the page offers: the button exists only for a
      pending loan. Repaying such a loan (with its id unique and its
      originating transaction present) adds exactly one transaction that
      moves the balance back by the loan amount, leaves it repaid so that it
      is no longer offered, and removes its amount from the pending total. */
  lemma RepayPendingLoan(b: Book, i: nat, ids: CreateIds, now: Instant)
    requires i < |b.loans|
    requires b.loans[i].status == Pending
    requires forall j :: 0 <= j < |b.loans| && j != i ==> b.loans[j].id != b.loans[i].id
    requires exists j :: 0 <= j < |b.transactions| && b.transactions[j].id == b.loans[i].transactionId
    ensures var loan := b.loans[i];
      var r := RepayLoan(b, loan.id, true, ids, now);
      && |r.transactions| == |b.transactions| + 1
      && r.loans[i].status == Repaid && r.loans[i].repaidDate == Some(now)
      && Balance(r.transactions) == Balance(b.transactions) + (if loan.kind == Given then loan.amount else -loan.amount)
      && PendingTotal(r.loans, loan.kind) == PendingTotal(b.loans, loan.kind) - loan.amount
      && (forall k :: k != loan.kind ==> PendingTotal(r.loans, k) == PendingTotal(b.loans, k))
  {
    var loan := b.loans[i];
    FindUniqueLoan(b.loans, i);
    assert RepayApplies(b, loan.id, true);
    var r := RepayLoan(b, loan.id, true, ids, now);
    assert r.transactions == [r.transactions[0]] + b.transactions;
    assert r.loans == MarkRepaid(b.loans, loan.id, now);
    MarkRepaidUnique(b.loans, i, now, Given);
    MarkRepaidUnique(b.loans, i, now, Taken);
  }

  /** The handler itself does not look at the status: a confirmed repayment
      of an already repaid loan adds a second repayment transaction. */
  lemma RepayIgnoresStatus(b: Book, loanId: string, ids: CreateIds, now: Instant)
    requires FindLoan(b.loans, loanId).Some? && FindLoan(b.loans, loanId).value.status == Repaid
    requires FindTransaction(b.transactions, FindLoan(b.loans, loanId).value.transactionId).Some?
    ensures |RepayLoan(b, loanId, true, ids, now).transactions| == |b.transactions| + 1
  {
  }

  /** Creating a loan and then repaying it restores the balance and the
      pending summary: the two transactions cancel. */
  lemma CreateThenRepay(b: Book, form: LoanForm, cats: seq<Category>, ids: CreateIds, repayIds: CreateIds,
                        created: Instant, repaid: Instant)
    requires FormComplete(form)
    requires forall i :: 0 <= i < |b.loans| ==> b.loans[i].id != ids.loanId
    ensures var b1 := CreateLoan(b, form, cats, ids, created);
      var b2 := RepayLoan(b1, ids.loanId, true, repayIds, repaid);
      && |b2.transactions| == |b.transactions| + 2
      && Balance(b2.transactions) == Balance(b.transactions)
      && Summary(b2.loans) == Summary(b.loans)
  {
    var b1 := CreateLoan(b, form, cats, ids, created);
    CreatedLoanFirst(b, form, cats, ids, created);
    CreateLoanEffect(b, form, cats, ids, created);
    RepayPendingLoan(b1, 0, repayIds, repaid);
    var b2 := RepayLoan(b1, ids.loanId, true, repayIds, repaid);
    SummaryRestored(b.loans, b1.loans, b2.loans, form.kind, form.amount);
  }

  /** A pending total raised by an amount and lowered by it again, with the
      other type's total untouched both times, leaves the summary as it was. */
  lemma SummaryRestored(l0: seq<Loan>, l1: seq<Loan>, l2: seq<Loan>, kind: LoanType, amount: real)
    requires PendingTotal(l1, kind) == PendingTotal(l0, kind) + amount
    requires PendingTotal(l2, kind) == PendingTotal(l1, kind) - amount
    requires forall k :: k != kind ==> PendingTotal(l1, k) == PendingTotal(l0, k)
    requires forall k :: k != kind ==> PendingTotal(l2, k) == PendingTotal(l1, k)
    ensures Summary(l2) == Summary(l0)
  {
    var other := if kind == Given then Taken else Given;
    assert PendingTotal(l2, other) == PendingTotal(l0, other);
  }

  /** The loan a creation prepends is pending, carries the fresh loan id,
      which no older loan has, and points at a transaction that exists. */
  lemma CreatedLoanFirst(b: Book, form: LoanForm, cats: seq<Category>, ids: CreateIds, now: Instant)
    requires FormComplete(form)
    requires forall i :: 0 <= i < |b.loans| ==> b.loans[i].id != ids.loanId
    ensures var b1 := CreateLoan(b, form, cats, ids, now);
      && |b1.loans| > 0 && b1.loans[0].id == ids.loanId && b1.loans[0].status == Pending
      && b1.loans[0].kind == form.kind && b1.loans[0].amount == form.amount
      && (forall j :: 0 <= j < |b1.loans| && j != 0 ==> b1.loans[j].id != b1.loans[0].id)
      && FindTransaction(b1.transactions, b1.loans[0].transactionId).Some?
  {
    var b1 := CreateLoan(b, form, cats, ids, now);
    assert b1.loans[0] == NewLoan(form, ids, now);
    assert forall j :: 0 < j < |b1.loans| ==> b1.loans[j] == b.loans[j - 1];
    assert b1.transactions[0].id == ids.transactionId;
  }

  // ---------------------------------------------------------------------------
  // getLoansWithUserInfo
  // ---------------------------------------------------------------------------

  /** A loan joined with its financial user and originating transaction. */
  datatype LoanView = LoanView(loan: Loan, user: Option<FinancialUser>, transaction: Option<Transaction>)

  /** The listing comparator: pending before repaid, then newer `createdAt`
      first. */
  predicate ListedBefore(a: LoanView, b: LoanView) {
    || (a.loan.status == Pending && b.loan.status == Repaid)
    || (a.loan.status == b.loan.status && AtOrBefore(b.loan.createdAt, a.loan.createdAt))
  }

  lemma ListedBeforeOrders()
    ensures TotalPreorder(ListedBefore)
  {
    forall x: LoanView, y: LoanView ensures ListedBefore(x, y) || ListedBefore(y, x) {
      AtOrBeforeOrders(x.loan.createdAt, y.loan.createdAt, x.loan.createdAt);
    }
    forall x: LoanView, y: LoanView, z: LoanView | ListedBefore(x, y) && ListedBefore(y, z)
      ensures ListedBefore(x, z)
    {
      AtOrBeforeOrders(z.loan.createdAt, y.loan.createdAt, x.loan.createdAt);
    }
  }

  function View(loan: Loan, users: seq<FinancialUser>, txs: seq<Transaction>): LoanView {
    LoanView(loan, Find(users, (u: FinancialUser) => u.id == loan.userId), FindTransaction(txs, loan.transactionId))
  }

  function Views(loans: seq<Loan>, users: seq<FinancialUser>, txs: seq<Transaction>): (r: seq<LoanView>)
    ensures |r| == |loans|
    ensures forall i :: 0 <= i < |loans| ==> r[i] == View(loans[i], users, txs)
  {
    if |loans| == 0 then [] else [View(loans[0], users, txs)] + Views(loans[1..], users, txs)
  }

  /** Every loan appears once with its user and transaction; pending loans
      come first, and within one status newer loans come first. */
  function LoansWithUserInfo(loans: seq<Loan>, users: seq<FinancialUser>, txs: seq<Transaction>): (r: seq<LoanView>)
    ensures multiset(r) == multiset(Views(loans, users, txs))
    ensures |r| == |loans|
    ensures forall i, j :: 0 <= i < j < |r| && r[i].loan.status == Repaid ==> r[j].loan.status == Repaid
    ensures forall i, j :: 0 <= i < j < |r| && r[i].loan.status == r[j].loan.status ==>
              AtOrBefore(r[j].loan.createdAt, r[i].loan.createdAt)
  {
    ListedBeforeOrders();
    var r := SortBy(Views(loans, users, txs), ListedBefore);
    assert forall i, j :: 0 <= i < j < |r| ==> ListedBefore(r[i], r[j]);
    r
  }
}

=== FILE: login_page.dfy ===
/** The registration form of the login page (LoginPage.tsx): the form is
    checked in a fixed order before the account store is asked to register
    an ordinary user, and a successful registration clears the form. */
module LoginPage {
  import opened Wrappers
  import opened Text
  import opened Types
  import opened Auth

  datatype RegisterForm = RegisterForm(
    username: string,
    email: string,
    password: string,
    confirmPassword: string,
    firstName: string,
    lastName: string)

  const EmptyForm := RegisterForm("", "", "", "", "", "")

  datatype FormError =
    | PasswordsDiffer         // 'Passwords do not match'
    | PasswordTooShortForm    // 'Password must be at least 6 characters long'
    | UsernameRequired        // 'Username is required'
    | EmailRequired           // 'Email is required'
    | Refused(cause: AuthError)

  datatype RegisterOutcome = RegisterOutcome(store: AuthStore, form: RegisterForm, result: Result<AuthUser, FormError>)

  /** The first check the form fails, in the order of the handler. */
  function FormCheck(f: RegisterForm): (r: Option<FormError>)
    ensures r.None? <==>
      f.password == f.confirmPassword && |f.password| >= MinPasswordLength && !IsBlank(f.username) && !IsBlank(f.email)
    ensures f.password != f.confirmPassword ==> r == Some(PasswordsDiffer)
    ensures r == Some(PasswordTooShortForm) <==> f.password == f.confirmPassword && |f.password| < MinPasswordLength
    ensures r == Some(UsernameRequired) <==>
      f.password == f.confirmPassword && |f.password| >= MinPasswordLength && IsBlank(f.username)
    ensures r == Some(EmailRequired) <==>
      f.password == f.confirmPassword && |f.password| >= MinPasswordLength && !IsBlank(f.username) && IsBlank(f.email)
  {
    if f.password != f.confirmPassword then Some(PasswordsDiffer)
    else if |f.password| < MinPasswordLength then Some(PasswordTooShortForm)
    else if IsBlank(f.username) then Some(UsernameRequired)
    else if IsBlank(f.email) then Some(EmailRequired)
    else None
  }

  /** `handleRegister`: a form that fails a check changes nothing; a valid
      one is passed, untrimmed, to `registerUser` without a role, so the
      account is an ordinary user; success clears the form and a refusal
      keeps it. */
  function HandleRegister(s: AuthStore, f: RegisterForm, id: string, now: Instant): (r: RegisterOutcome)
    ensures FormCheck(f).Some? ==> r == RegisterOutcome(s, f, Err(FormCheck(f).value))
    ensures r.result.Ok? <==>
      FormCheck(f).None? && Register(s, f.username, f.email, f.password, User, id, now).result.Ok?
    ensures r.result.Ok? ==>
      && r.form == EmptyForm
      && r.result.value.role == User && r.result.value.id == id
      && r.result.value.username == f.username && r.result.value.email == f.email
      && VerifyPassword(f.password, r.result.value.passwordHash)
      && |f.password| >= MinPasswordLength
      && r.store == AuthStore(Some(AllUsers(s, now) + [r.result.value]), s.session)
    ensures FormCheck(f).None? && r.result.Err? ==>
      r.form == f && r.result.error == Refused(Register(s, f.username, f.email, f.password, User, id, now).result.error)
  {
    match FormCheck(f)
    case Some(e) => RegisterOutcome(s, f, Err(e))
    case None =>
      var reg := Register(s, f.username, f.email, f.password, User, id, now);
      match reg.result
      case Ok(u) => RegisterOutcome(reg.store, EmptyForm, Ok(u))
      case Err(e) => RegisterOutcome(reg.store, f, Err(Refused(e)))
  }

  /** A mismatched confirmation is reported before anything else, whatever
      else is wrong with the form. */
  lemma MismatchReportedFirst(s: AuthStore, f: RegisterForm, id: string, now: Instant)
    requires f.password != f.confirmPassword
    ensures HandleRegister(s, f, id, now).result == Err(PasswordsDiffer)
    ensures HandleRegister(s, f, id, now).store == s
  {
  }

  /** Whoever registers through the page can then log in with the same
      username and password, as an ordinary user. */
  lemma RegisteredCanLogIn(s: AuthStore, f: RegisterForm, id: string, now: Instant, later: Instant)
    requires HandleRegister(s, f, id, now).result.Ok?
    ensures var login := Login(HandleRegister(s, f, id, now).store, f.username, f.password, later);
      login.result.Ok? && login.result.value.userId == id && login.result.value.role == User
  {
    LoginAfterRegister(s, f.username, f.email, f.password, User, id, now, later);
  }
}

=== FILE: number_words.dfy ===
/** The amount in words printed on vouchers (`numberToWords` in
    voucherGenerator.ts): the whole part of the amount split into crore
    (10^7), lakh (10^5), thousand and a remainder below a thousand, each
    non-zero group spelled out in English and followed by its scale word,
    and " Taka Only" appended. */
module NumberWords {
  import opened Text

  const Crore := 10000000
  const Lakh := 100000
  const Thousand := 1000

  // ---------------------------------------------------------------------------
  // JavaScript number arithmetic on exact reals
  // ---------------------------------------------------------------------------

  /** `Math.floor`. */
  function Floor(x: real): int {
    x.Floor
  }

  /** The quotient JavaScript's `%` uses: rounded toward zero. */
  function Trunc(x: real): int {
    if x >= 0.0 then x.Floor else -((-x).Floor)
  }

  /** `x % m`: the remainder takes the sign of the dividend. */
  function JsMod(x: real, m: int): real
    requires m > 0
  {
    x - (m as real) * (Trunc(x / (m as real)) as real)
  }

  lemma ScaleMono(a: real, b: real, c: real)
    requires c > 0.0 && a * c < b * c
    ensures a < b
  {
  }

  lemma ScaleMonoLe(a: real, b: real, c: real)
    requires c > 0.0 && a * c <= b * c
    ensures a <= b
  {
  }

  /** For a non-negative amount the floor of a quotient is the integer
      quotient of the whole part, and so is the truncated quotient. */
  lemma FloorQuotient(x: real, m: int)
    requires x >= 0.0 && m > 0
    ensures Floor(x / (m as real)) == Floor(x) / m
    ensures Trunc(x / (m as real)) == Floor(x) / m
  {
    var n := Floor(x);
    var q := n / m;
    assert n == q * m + n % m;
    var mr := m as real;
    var y := x / mr;
    assert y * mr == x;
    assert (q as real) * mr == (q * m) as real;
    assert ((q + 1) as real) * mr == ((q + 1) * m) as real;
    assert (q * m) as real <= n as real <= x;
    assert (q + 1) * m >= n + 1;
    ScaleMonoLe(q as real, y, mr);
    ScaleMono(y, (q + 1) as real, mr);
  }

  /** For a non-negative amount the JavaScript remainder is the remainder
      of the whole part plus the fraction, and the floor of a quotient is
      the integer quotient of the whole part. */
  lemma FloorDivision(x: real, m: int)
    requires x >= 0.0 && m > 0
    ensures Floor(x / (m as real)) == Floor(x) / m
    ensures JsMod(x, m) >= 0.0
    ensures Floor(JsMod(x, m)) == Floor(x) % m
  {
    FloorQuotient(x, m);
    var n := Floor(x);
    var q := n / m;
    var r := n % m;
    assert n == q * m + r;
    assert (q as real) * (m as real) == (q * m) as real;
    assert JsMod(x, m) == (r as real) + (x - (n as real));
  }

  // ---------------------------------------------------------------------------
  // convertLessThanThousand
  // ---------------------------------------------------------------------------

  /** `ones[k]`; outside the table JavaScript reads `undefined`, which string
      concatenation renders as "undefined". */
  function OnesWord(k: int): string {
    match k
    case 0 => ""
    case 1 => "One"
    case 2 => "Two"
    case 3 => "Three"
    case 4 => "Four"
    case 5 => "Five"
    case 6 => "Six"
    case 7 => "Seven"
    case 8 => "Eight"
    case 9 => "Nine"
    case _ => "undefined"
  }

  /** `teens[k]`. */
  function TeensWord(k: int): string {
    match k
    case 0 => "Ten"
    case 1 => "Eleven"
    case 2 => "Twelve"
    case 3 => "Thirteen"
    case 4 => "Fourteen"
    case 5 => "Fifteen"
    case 6 => "Sixteen"
    case 7 => "Seventeen"
    case 8 => "Eighteen"
    case 9 => "Nineteen"
    case _ => "undefined"
  }

  /** `tens[k]`. */
  function TensWord(k: int): string {
    match k
    case 2 => "Twenty"
    case 3 => "Thirty"
    case 4 => "Forty"
    case 5 => "Fifty"
    case 6 => "Sixty"
    case 7 => "Seventy"
    case 8 => "Eighty"
    case 9 => "Ninety"
    case 0 => ""
    case 1 => ""
    case _ => "undefined"
  }

  /** `convertLessThanThousand(n)`, spelled as the source builds it. */
  function Below1000(n: nat): string
    decreases n
  {
    if n == 0 then ""
    else if n < 10 then OnesWord(n)
    else if n < 20 then TeensWord(n - 10)
    else if n < 100 then TensWord(n / 10) + (if n % 10 != 0 then " " + OnesWord(n % 10) else "")
    else OnesWord(n / 100) + " Hundred" + (if n % 100 != 0 then " " + Below1000(n % 100) else "")
  }

  /** The same words as a list. */
  function Below1000Words(n: nat): seq<string>
    decreases n
  {
    if n == 0 then []
    else if n < 10 then [OnesWord(n)]
    else if n < 20 then [TeensWord(n - 10)]
    else if n < 100 then [TensWord(n / 10)] + (if n % 10 != 0 then [OnesWord(n % 10)] else [])
    else [OnesWord(n / 100), "Hundred"] + Below1000Words(n % 100)
  }

  predicate IsScale(w: string) {
    w == "Hundred" || w == "Thousand" || w == "Lakh" || w == "Crore"
  }

  lemma OnesFacts(k: int)
    requires 1 <= k <= 9
    ensures IsWord(OnesWord(k)) && !IsScale(OnesWord(k)) && WordValue(OnesWord(k)) == k
  {
  }

  lemma TeensFacts(k: int)
    requires 0 <= k <= 9
    ensures IsWord(TeensWord(k)) && !IsScale(TeensWord(k)) && WordValue(TeensWord(k)) == 10 + k
  {
    if k < 5 {
      LowTeensFacts(k);
    } else {
      HighTeensFacts(k);
    }
  }

  lemma LowTeensFacts(k: int)
    requires 0 <= k < 5
    ensures IsWord(TeensWord(k)) && !IsScale(TeensWord(k)) && WordValue(TeensWord(k)) == 10 + k
  {
  }

  lemma HighTeensFacts(k: int)
    requires 5 <= k <= 9
    ensures IsWord(TeensWord(k)) && !IsScale(TeensWord(k)) && WordValue(TeensWord(k)) == 10 + k
  {
  }

  lemma TensFacts(k: int)
    requires 2 <= k <= 9
    ensures IsWord(TensWord(k)) && !IsScale(TensWord(k)) && WordValue(TensWord(k)) == 10 * k
  {
    if k < 6 {
      LowTensFacts(k);
    } else {
      HighTensFacts(k);
    }
  }

  lemma LowTensFacts(k: int)
    requires 2 <= k < 6
    ensures IsWord(TensWord(k)) && !IsScale(TensWord(k)) && WordValue(TensWord(k)) == 10 * k
  {
  }

  lemma HighTensFacts(k: int)
    requires 6 <= k <= 9
    ensures IsWord(TensWord(k)) && !IsScale(TensWord(k)) && WordValue(TensWord(k)) == 10 * k
  {
  }

  predicate AllWords(ws: seq<string>) {
    forall k :: 0 <= k < |ws| ==> IsWord(ws[k])
  }

  /** One word joined is that word. */
  lemma SingleWord(w: string)
    requires IsWord(w)
    ensures AllWords([w]) && Join([w], ' ') == w
  {
  }

  /** Two words joined with one space between. */
  lemma TwoWords(a: string, b: string)
    requires IsWord(a) && IsWord(b)
    ensures AllWords([a, b]) && Join([a, b], ' ') == a + " " + b
  {
    assert Join([a, b], ' ') == a + [' '] + Join([a, b][1..], ' ');
    assert [a, b][1..] == [b];
  }

  lemma Below20Words(n: nat)
    requires 0 < n < 20
    ensures Below1000Words(n) == [Below1000(n)]
    ensures IsWord(Below1000(n))
  {
    if n < 10 {
      assert Below1000(n) == OnesWord(n);
      OnesFacts(n);
    } else {
      assert Below1000(n) == TeensWord(n - 10);
      TeensFacts(n - 10);
    }
  }

  lemma RoundTensWords(n: nat)
    requires 20 <= n < 100 && n % 10 == 0
    ensures Below1000Words(n) == [TensWord(n / 10)]
    ensures Below1000(n) == TensWord(n / 10)
  {
  }

  lemma TensOnesWords(n: nat)
    requires 20 <= n < 100 && n % 10 != 0
    ensures Below1000Words(n) == [TensWord(n / 10), OnesWord(n % 10)]
    ensures Below1000(n) == TensWord(n / 10) + " " + OnesWord(n % 10)
  {
  }

  /** Below a hundred: at most two words, tens then ones. */
  lemma Below100IsJoin(n: nat)
    requires n < 100
    ensures |Below1000Words(n)| > 0 <==> n > 0
    ensures AllWords(Below1000Words(n))
    ensures Below1000(n) == Join(Below1000Words(n), ' ')
  {
    if n == 0 {
    } else if n < 20 {
      Below20Words(n);
      SingleWord(Below1000(n));
    } else if n % 10 == 0 {
      RoundTensWords(n);
      TensFacts(n / 10);
      SingleWord(TensWord(n / 10));
    } else {
      TensOnesWords(n);
      TensFacts(n / 10);
      OnesFacts(n % 10);
      TwoWords(TensWord(n / 10), OnesWord(n % 10));
    }
  }

  lemma HundredsUnfold(n: nat)
    requires 100 <= n < 1000
    ensures 1 <= n / 100 <= 9 && n % 100 < 100
    ensures Below1000Words(n) == [OnesWord(n / 100), "Hundred"] + Below1000Words(n % 100)
    ensures Below1000(n) == OnesWord(n / 100) + " Hundred"
                            + (if n % 100 != 0 then " " + Below1000(n % 100) else "")
  {
  }

  lemma AllWordsConcat(a: seq<string>, b: seq<string>)
    requires AllWords(a) && AllWords(b)
    ensures AllWords(a + b)
  {
  }

  lemma HundredIsWord()
    ensures IsWord("Hundred")
  {
  }

  lemma DigitHundred(o: string)
    requires IsWord(o)
    ensures AllWords([o, "Hundred"])
    ensures Join([o, "Hundred"], ' ') == o + " Hundred"
  {
    HundredIsWord();
    TwoWords(o, "Hundred");
  }

  /** "<digit> Hundred" followed by the words of the rest. */
  lemma HundredsJoin(o: string, ws: seq<string>)
    requires IsWord(o) && AllWords(ws)
    ensures AllWords([o, "Hundred"] + ws)
    ensures o + " Hundred" + (if |ws| > 0 then " " + Join(ws, ' ') else "") == Join([o, "Hundred"] + ws, ' ')
  {
    var head := [o, "Hundred"];
    DigitHundred(o);
    AllWordsConcat(head, ws);
    if |ws| > 0 {
      JoinAppend(head, ws, ' ');
    } else {
      assert head + ws == head;
    }
  }

  /** The text is its word list joined by single spaces, every entry a
      word; the list is empty exactly for zero. */
  lemma Below1000IsJoin(n: nat)
    requires n < 1000
    ensures |Below1000Words(n)| > 0 <==> n > 0
    ensures AllWords(Below1000Words(n))
    ensures Below1000(n) == Join(Below1000Words(n), ' ')
  {
    if n < 100 {
      Below100IsJoin(n);
    } else {
      HundredsUnfold(n);
      Below100IsJoin(n % 100);
      OnesFacts(n / 100);
      HundredsJoin(OnesWord(n / 100), Below1000Words(n % 100));
    }
  }

  // ---------------------------------------------------------------------------
  // Reading the words back
  // ---------------------------------------------------------------------------

  /** The value of a number word, zero for anything else. */
  function WordValue(w: string): nat {
    if w == "One" then 1 else if w == "Two" then 2 else if w == "Three" then 3
    else if w == "Four" then 4 else if w == "Five" then 5 else if w == "Six" then 6
    else if w == "Seven" then 7 else if w == "Eight" then 8 else if w == "Nine" then 9
    else if w == "Ten" then 10 else if w == "Eleven" then 11 else if w == "Twelve" then 12
    else if w == "Thirteen" then 13 else if w == "Fourteen" then 14 else if w == "Fifteen" then 15
    else if w == "Sixteen" then 16 else if w == "Seventeen" then 17 else if w == "Eighteen" then 18
    else if w == "Nineteen" then 19 else if w == "Twenty" then 20 else if w == "Thirty" then 30
    else if w == "Forty" then 40 else if w == "Fifty" then 50 else if w == "Sixty" then 60
    else if w == "Seventy" then 70 else if w == "Eighty" then 80 else if w == "Ninety" then 90
    else 0
  }

  /** A reader's running state: the value of the completed groups and of
      the group being read. */
  datatype Tally = Tally(total: int, group: int)

  /** An independent reading of Indian-system number words: number words
      add to the current group, "Hundred" multiplies it, and a scale word
      closes it into the total. */
  function Read(t: Tally, w: string): Tally {
    if w == "Crore" then Tally(t.total + t.group * Crore, 0)
    else if w == "Lakh" then Tally(t.total + t.group * Lakh, 0)
    else if w == "Thousand" then Tally(t.total + t.group * Thousand, 0)
    else if w == "Hundred" then Tally(t.total, t.group * 100)
    else Tally(t.total, t.group + WordValue(w))
  }

  function ReadAll(ws: seq<string>, t: Tally): Tally {
    if |ws| == 0 then t else ReadAll(ws[1..], Read(t, ws[0]))
  }

  /** The number a text of words stands for. */
  function ValueOfWords(ws: seq<string>): int {
    var t := ReadAll(ws, Tally(0, 0));
    t.total + t.group
  }

  lemma {:induction false} ReadAllConcat(a: seq<string>, b: seq<string>, t: Tally)
    ensures ReadAll(a + b, t) == ReadAll(b, ReadAll(a, t))
  {
    if |a| == 0 {
      assert a + b == b;
    } else {
      assert (a + b)[1..] == a[1..] + b;
      ReadAllConcat(a[1..], b, Read(t, a[0]));
    }
  }

  /** A number word adds its value to the group. */
  lemma ReadNumberWord(w: string, t: Tally)
    requires !IsScale(w)
    ensures ReadAll([w], t) == Tally(t.total, t.group + WordValue(w))
  {
    assert [w][1..] == [];
  }

  /** Below a hundred the words only add to the group. */
  lemma ReadBelow100(m: nat, t: Tally)
    requires m < 100
    ensures ReadAll(Below1000Words(m), t) == Tally(t.total, t.group + m)
  {
    if m == 0 {
    } else if m < 10 {
      Below20Words(m);
      assert Below1000(m) == OnesWord(m);
      OnesFacts(m);
      ReadNumberWord(OnesWord(m), t);
    } else if m < 20 {
      Below20Words(m);
      assert Below1000(m) == TeensWord(m - 10);
      TeensFacts(m - 10);
      ReadNumberWord(TeensWord(m - 10), t);
    } else if m % 10 == 0 {
      RoundTensWords(m);
      TensFacts(m / 10);
      ReadNumberWord(TensWord(m / 10), t);
    } else {
      TensOnesWords(m);
      TensFacts(m / 10);
      OnesFacts(m % 10);
      var u := Tally(t.total, t.group + 10 * (m / 10));
      ReadNumberWord(TensWord(m / 10), t);
      ReadNumberWord(OnesWord(m % 10), u);
      ReadAllConcat([TensWord(m / 10)], [OnesWord(m % 10)], t);
      assert [TensWord(m / 10)] + [OnesWord(m % 10)] == [TensWord(m / 10), OnesWord(m % 10)];
    }
  }

  /** The words of a group below a thousand read back as the group. */
  lemma ReadBelow1000(n: nat, total: int)
    requires n < 1000
    ensures ReadAll(Below1000Words(n), Tally(total, 0)) == Tally(total, n)
  {
    if n < 100 {
      ReadBelow100(n, Tally(total, 0));
    } else {
      HundredsUnfold(n);
      var h := n / 100;
      var rest := n % 100;
      OnesFacts(h);
      var t := Tally(total, 0);
      ReadNumberWord(OnesWord(h), t);
      assert ReadAll(["Hundred"], Tally(total, h)) == Tally(total, h * 100) by {
        assert ["Hundred"][1..] == [];
      }
      ReadBelow100(rest, Tally(total, h * 100));
      ReadAllConcat([OnesWord(h)], ["Hundred"], t);
      ReadAllConcat([OnesWord(h)] + ["Hundred"], Below1000Words(rest), t);
      assert [OnesWord(h)] + ["Hundred"] == [OnesWord(h), "Hundred"];
    }
  }

  /** A non-zero group followed by its scale word. */
  function GroupWords(g: nat, scale: string): seq<string> {
    if g > 0 then Below1000Words(g) + [scale] else []
  }

  /** A group's words followed by its scale word add the group times the
      scale to the total. */
  lemma ReadGroup(g: nat, scale: string, unit: int, total: int)
    requires g < 1000
    requires (scale == "Crore" && unit == Crore) || (scale == "Lakh" && unit == Lakh)
             || (scale == "Thousand" && unit == Thousand)
    ensures ReadAll(GroupWords(g, scale), Tally(total, 0)) == Tally(total + g * unit, 0)
  {
    if g > 0 {
      ReadBelow1000(g, total);
      ReadAllConcat(Below1000Words(g), [scale], Tally(total, 0));
      assert [scale][1..] == [];
    }
  }

  // ---------------------------------------------------------------------------
  // numberToWords
  // ---------------------------------------------------------------------------

  const TakaOnly := " Taka Only"
  const ZeroTaka := "Zero Taka Only"

  /** The four groups of the whole part: crore, lakh, thousand and the
      remainder, as the source computes them. */
  datatype Groups = Groups(crore: int, lakh: int, thousand: int, remainder: int)

  function GroupsOf(num: real): Groups {
    Groups(Floor(num / (Crore as real)),
           Floor(JsMod(num, Crore) / (Lakh as real)),
           Floor(JsMod(num, Lakh) / (Thousand as real)),
           Floor(JsMod(num, Thousand)))
  }

  /** `convertLessThanThousand(g) + ' Crore '` when the group is positive. */
  function GroupText(g: int, scale: string): string {
    if g > 0 then Below1000(g) + " " + scale + " " else ""
  }

  /** `result` before it is trimmed. */
  function Spelled(gs: Groups): string {
    GroupText(gs.crore, "Crore") + (GroupText(gs.lakh, "Lakh") + (GroupText(gs.thousand, "Thousand")
    + (if gs.remainder > 0 then Below1000(gs.remainder) else "")))
  }

  /** Taking the remainder by a multiple first does not change the
      remainder: `(n % (k * m)) % m == n % m`. */
  lemma ModOfMod(n: nat, k: nat, m: nat)
    requires k > 0 && m > 0
    ensures (n % (k * m)) % m == n % m
  {
    var km := k * m;
    var a := n % km;
    var q := n / km;
    assert n == km * q + a;
    var b := a % m;
    var c := a / m;
    assert a == m * c + b;
    assert km * q == m * (k * q) by {
      assert km == m * k;
    }
    assert n == m * (k * q + c) + b;
    DivModUnique(n, m, k * q + c, b);
  }

  /** Euclidean division has one quotient and one remainder. */
  lemma DivModUnique(n: nat, m: nat, q: int, r: int)
    requires m > 0 && 0 <= r < m && n == m * q + r
    ensures n % m == r
  {
    var q0 := n / m;
    var r0 := n % m;
    assert m * q0 + r0 == m * q + r;
    if q0 > q {
      assert m * q0 >= m * (q + 1) by {
        MulMono(m, q + 1, q0);
      }
    } else if q0 < q {
      assert m * q >= m * (q0 + 1) by {
        MulMono(m, q0 + 1, q);
      }
    }
  }

  lemma MulMono(m: nat, a: int, b: int)
    requires a <= b
    ensures m * a <= m * b
  {
    assert m * b - m * a == m * (b - a);
  }

  /** The integer identity behind the groups. */
  lemma IntegerGroups(n: nat)
    ensures 0 <= (n % Crore) / Lakh < 100
    ensures 0 <= (n % Lakh) / Thousand < 100
    ensures (n / Crore) * Crore + ((n % Crore) / Lakh) * Lakh + ((n % Lakh) / Thousand) * Thousand
            + n % Thousand == n
  {
    ModOfMod(n, 100, Lakh);
    ModOfMod(n, 100, Thousand);
    var a := n % Crore;
    assert n == (n / Crore) * Crore + a;
    assert a == (a / Lakh) * Lakh + a % Lakh;
    var b := n % Lakh;
    assert a % Lakh == b;
    assert b == (b / Thousand) * Thousand + b % Thousand;
    assert b % Thousand == n % Thousand;
  }

  /** For a non-negative amount the groups are the Indian-system digits of
      its whole part: they recombine to the whole part, and all but the
      crore count stay below their next scale. */
  lemma Decomposition(num: real)
    requires num >= 0.0
    ensures var gs := GroupsOf(num);
      && gs.crore == Floor(num) / Crore
      && 0 <= gs.lakh < 100 && 0 <= gs.thousand < 100 && 0 <= gs.remainder < 1000
      && gs.crore * Crore + gs.lakh * Lakh + gs.thousand * Thousand + gs.remainder == Floor(num)
  {
    var n := Floor(num);
    FloorDivision(num, Crore);
    FloorDivision(num, Lakh);
    FloorDivision(num, Thousand);
    FloorDivision(JsMod(num, Crore), Lakh);
    FloorDivision(JsMod(num, Lakh), Thousand);
    IntegerGroups(n);
  }

  /** `numberToWords(num)` as written. */
  function NumberToWords(num: real): (r: string)
    ensures |r| >= |TakaOnly| && r[|r| - |TakaOnly|..] == TakaOnly
    ensures num == 0.0 ==> r == ZeroTaka
  {
    if num == 0.0 then ZeroTaka else Trim(Spelled(GroupsOf(num))) + TakaOnly
  }

  /** The whole word list the groups spell. */
  function WordsOf(gs: Groups): seq<string>
    requires gs.crore >= 0 && gs.lakh >= 0 && gs.thousand >= 0 && gs.remainder >= 0
  {
    GroupWords(gs.crore, "Crore") + (GroupWords(gs.lakh, "Lakh") + (GroupWords(gs.thousand, "Thousand")
    + Below1000Words(gs.remainder)))
  }

  /** Text that is a list of words joined by single spaces, then `tail`,
      which is one space at most and nothing after an empty list. */
  predicate JoinedThen(text: string, ws: seq<string>, tail: string) {
    text == Join(ws, ' ') + tail && (tail == "" || tail == " ") && (|ws| == 0 ==> tail == "")
  }

  /** Prepending a group's text ("words " or nothing) keeps that shape. */
  lemma PrependGroup(ta: string, a: seq<string>, tb: string, b: seq<string>, e: string)
    requires ta == if |a| > 0 then Join(a, ' ') + " " else ""
    requires JoinedThen(tb, b, e)
    ensures JoinedThen(ta + tb, a + b, if |a| > 0 && |b| == 0 then " " else e)
  {
    if |a| == 0 {
      assert a + b == b;
    } else if |b| == 0 {
      assert a + b == a;
    } else {
      JoinAppend(a, b, ' ');
    }
  }

  lemma GroupTextIsJoin(g: nat, scale: string)
    requires g < 1000 && IsWord(scale)
    ensures AllWords(GroupWords(g, scale))
    ensures GroupText(g, scale) == if |GroupWords(g, scale)| > 0 then Join(GroupWords(g, scale), ' ') + " " else ""
  {
    if g > 0 {
      Below1000IsJoin(g);
      JoinAppend(Below1000Words(g), [scale], ' ');
      AllWordsConcat(Below1000Words(g), [scale]);
    }
  }

  lemma ScalesAreWords()
    ensures IsWord("Crore") && IsWord("Lakh") && IsWord("Thousand")
  {
  }

  /** Three group texts before the remainder's text. */
  lemma JoinFour(tc: string, c: seq<string>, tl: string, l: seq<string>, tt: string, t: seq<string>,
                 tr: string, r: seq<string>)
    requires tc == if |c| > 0 then Join(c, ' ') + " " else ""
    requires tl == if |l| > 0 then Join(l, ' ') + " " else ""
    requires tt == if |t| > 0 then Join(t, ' ') + " " else ""
    requires JoinedThen(tr, r, "")
    ensures JoinedThen(tc + (tl + (tt + tr)), c + (l + (t + r)),
                       if |r| == 0 && (|c| > 0 || |l| > 0 || |t| > 0) then " " else "")
  {
    PrependGroup(tt, t, tr, r, "");
    var e1 := if |t| > 0 && |r| == 0 then " " else "";
    PrependGroup(tl, l, tt + tr, t + r, e1);
    var e2 := if |l| > 0 && |t + r| == 0 then " " else e1;
    PrependGroup(tc, c, tl + (tt + tr), l + (t + r), e2);
  }

  /** The text before trimming is the word list joined by single spaces,
      followed by one space exactly when the remainder is zero and some
      group is not. */
  lemma SpelledIsJoin(gs: Groups)
    requires 0 <= gs.crore < 1000 && 0 <= gs.lakh < 1000 && 0 <= gs.thousand < 1000 && 0 <= gs.remainder < 1000
    ensures AllWords(WordsOf(gs))
    ensures JoinedThen(Spelled(gs), WordsOf(gs), if gs.remainder == 0 && |WordsOf(gs)| > 0 then " " else "")
  {
    var c := GroupWords(gs.crore, "Crore");
    var l := GroupWords(gs.lakh, "Lakh");
    var t := GroupWords(gs.thousand, "Thousand");
    var r := Below1000Words(gs.remainder);
    ScalesAreWords();
    Below1000IsJoin(gs.remainder);
    GroupTextIsJoin(gs.crore, "Crore");
    GroupTextIsJoin(gs.lakh, "Lakh");
    GroupTextIsJoin(gs.thousand, "Thousand");
    var tr := if gs.remainder > 0 then Below1000(gs.remainder) else "";
    JoinFour(GroupText(gs.crore, "Crore"), c, GroupText(gs.lakh, "Lakh"), l,
             GroupText(gs.thousand, "Thousand"), t, tr, r);
    AllWordsConcat(t, r);
    AllWordsConcat(l, t + r);
    AllWordsConcat(c, l + (t + r));
  }

  /** Reading four consecutive stretches of words in turn. */
  lemma ReadFour(c: seq<string>, l: seq<string>, t: seq<string>, r: seq<string>, t1: int, t2: int, t3: int, rem: int)
    requires ReadAll(c, Tally(0, 0)) == Tally(t1, 0)
    requires ReadAll(l, Tally(t1, 0)) == Tally(t2, 0)
    requires ReadAll(t, Tally(t2, 0)) == Tally(t3, 0)
    requires ReadAll(r, Tally(t3, 0)) == Tally(t3, rem)
    ensures ReadAll(c + (l + (t + r)), Tally(0, 0)) == Tally(t3, rem)
  {
    ReadAllConcat(t, r, Tally(t2, 0));
    ReadAllConcat(l, t + r, Tally(t1, 0));
    ReadAllConcat(c, l + (t + r), Tally(0, 0));
  }

  /** The independent reader recovers the groups' value from their
      words. */
  lemma ReadWordsOf(gs: Groups)
    requires 0 <= gs.crore < 1000 && 0 <= gs.lakh < 1000 && 0 <= gs.thousand < 1000 && 0 <= gs.remainder < 1000
    ensures ValueOfWords(WordsOf(gs)) == gs.crore * Crore + gs.lakh * Lakh + gs.thousand * Thousand + gs.remainder
  {
    var t1 := gs.crore * Crore;
    var t2 := t1 + gs.lakh * Lakh;
    var t3 := t2 + gs.thousand * Thousand;
    ReadGroup(gs.crore, "Crore", Crore, 0);
    ReadGroup(gs.lakh, "Lakh", Lakh, t1);
    ReadGroup(gs.thousand, "Thousand", Thousand, t2);
    ReadBelow1000(gs.remainder, t3);
    ReadFour(GroupWords(gs.crore, "Crore"), GroupWords(gs.lakh, "Lakh"), GroupWords(gs.thousand, "Thousand"),
             Below1000Words(gs.remainder), t1, t2, t3, gs.remainder);
  }

  /** Trimming removes at most the one trailing space. */
  lemma TrimmedSpelling(gs: Groups)
    requires 0 <= gs.crore < 1000 && 0 <= gs.lakh < 1000 && 0 <= gs.thousand < 1000 && 0 <= gs.remainder < 1000
    requires |WordsOf(gs)| > 0
    ensures Trim(Spelled(gs)) == Join(WordsOf(gs), ' ')
  {
    SpelledIsJoin(gs);
    JoinOfWords(WordsOf(gs));
    TrimUnpadded(Join(WordsOf(gs), ' '));
  }

  /** `n < k * m` bounds the quotient by `k`. */
  lemma QuotientBelow(n: nat, m: nat, k: nat)
    requires m > 0 && n < k * m
    ensures n / m < k
  {
    if n / m >= k {
      MulMono(m, k, n / m);
    }
  }

  /** From one taka up to ten thousand crore every group is below a
      thousand, some group is positive, and the groups recombine to the
      whole part. */
  lemma GroupsInRange(num: real)
    requires 1.0 <= num < 10000000000.0
    ensures var gs := GroupsOf(num);
      && 0 <= gs.crore < 1000 && 0 <= gs.lakh < 1000 && 0 <= gs.thousand < 1000 && 0 <= gs.remainder < 1000
      && (gs.crore > 0 || gs.lakh > 0 || gs.thousand > 0 || gs.remainder > 0)
      && gs.crore * Crore + gs.lakh * Lakh + gs.thousand * Thousand + gs.remainder == Floor(num)
  {
    Decomposition(num);
    var n := Floor(num);
    assert 1 <= n < 1000 * Crore;
    QuotientBelow(n, Crore, 1000);
  }

  /** A positive group gives at least one word. */
  lemma SomeWords(gs: Groups)
    requires 0 <= gs.crore < 1000 && 0 <= gs.lakh < 1000 && 0 <= gs.thousand < 1000 && 0 <= gs.remainder < 1000
    requires gs.crore > 0 || gs.lakh > 0 || gs.thousand > 0 || gs.remainder > 0
    ensures |WordsOf(gs)| > 0
  {
    if gs.crore == 0 && gs.lakh == 0 && gs.thousand == 0 {
      assert |Below1000Words(gs.remainder)| > 0;
    }
  }

  /** Below ten thousand crore, the text before " Taka Only" is the words
      of the groups joined by single spaces, and those words read back as
      the whole part of the amount. */
  lemma WordsReadBack(num: real)
    requires 1.0 <= num < 10000000000.0
    ensures var gs := GroupsOf(num);
      && 0 <= gs.crore < 1000 && 0 <= gs.lakh < 1000 && 0 <= gs.thousand < 1000 && 0 <= gs.remainder < 1000
      && NumberToWords(num) == Join(WordsOf(gs), ' ') + TakaOnly
      && ValueOfWords(WordsOf(gs)) == Floor(num)
  {
    GroupsInRange(num);
    var gs := GroupsOf(num);
    ReadWordsOf(gs);
    SomeWords(gs);
    TrimmedSpelling(gs);
  }

  // ---------------------------------------------------------------------------
  // Amounts below one taka
  // ---------------------------------------------------------------------------

  /** As written, only an amount of exactly zero gets the word "Zero": any
      other amount below one taka has no group and prints as " Taka Only",
      with nothing before it. */
  lemma HalfTakaUnnamed()
    ensures NumberToWords(0.5) == TakaOnly
  {
    Decomposition(0.5);
    assert Floor(0.5) == 0;
    var gs := GroupsOf(0.5);
    assert gs == Groups(0, 0, 0, 0);
    assert Spelled(gs) == "";
  }

  /** The amount in words with the zero case widened to every amount whose
      whole part is zero. */
  function NumberToWordsCorrected(num: real): (r: string)
    ensures |r| >= |TakaOnly| && r[|r| - |TakaOnly|..] == TakaOnly
    ensures 0.0 <= num < 1.0 ==> r == ZeroTaka
    ensures num >= 1.0 ==> r == NumberToWords(num)
  {
    if 0.0 <= num < 1.0 then ZeroTaka else Trim(Spelled(GroupsOf(num))) + TakaOnly
  }

  lemma ZeroReadsBack()
    ensures AllWords(["Zero"]) && ValueOfWords(["Zero"]) == 0
    ensures Join(["Zero"], ' ') + TakaOnly == ZeroTaka
  {
    assert ["Zero"][1..] == [];
  }

  /** With the correction every amount from zero up to ten thousand crore
      is spelled as a non-empty list of words, single-spaced, that reads
      back as its whole part. */
  lemma CorrectedAlwaysNamesAmount(num: real)
    requires 0.0 <= num < 10000000000.0
    ensures exists ws :: |ws| > 0 && AllWords(ws) && ValueOfWords(ws) == Floor(num)
                      && NumberToWordsCorrected(num) == Join(ws, ' ') + TakaOnly
  {
    if num < 1.0 {
      ZeroReadsBack();
      assert Floor(num) == 0;
      var ws := ["Zero"];
      assert |ws| > 0 && AllWords(ws) && ValueOfWords(ws) == Floor(num)
             && NumberToWordsCorrected(num) == Join(ws, ' ') + TakaOnly;
    } else {
      WordsReadBack(num);
      var gs := GroupsOf(num);
      var ws := WordsOf(gs);
      SpelledIsJoin(gs);
      assert |ws| > 0;
      assert |ws| > 0 && AllWords(ws) && ValueOfWords(ws) == Floor(num)
             && NumberToWordsCorrected(num) == Join(ws, ' ') + TakaOnly;
    }
  }
}

=== FILE: reports.dfy ===
/** The reports page (ReportsPage.tsx): the current month's summary and
    savings rate, the twelve-month trend, the per-category breakdown and its
    two pie lists, the month's top categories by expense, the pending loan
    summary and the number of active financial users. */
module Reports {
  import opened Text
  import opened Seqs
  import opened Types
  import opened Ledger
  import opened Loans
  import opened Dashboard
  import opened CategoryStats

  // ---------------------------------------------------------------------------
  // getCurrentMonthData
  // ---------------------------------------------------------------------------

  datatype MonthSummary = MonthSummary(income: real, expenses: real, netIncome: real, savingsRate: real)

  /** The summary of the transactions dated in `month` (0-based) of `year`.
      The savings rate is the net as a percentage of income, and 0 when there
      is no income. */
  function Summarize(income: real, expenses: real): (r: MonthSummary)
    ensures r.income == income && r.expenses == expenses
    ensures r.netIncome == r.income - r.expenses
    ensures r.income > 0.0 ==> r.savingsRate * r.income == r.netIncome * 100.0
    ensures r.income <= 0.0 ==> r.savingsRate == 0.0
    ensures r.income > 0.0 && r.expenses >= 0.0 ==> r.savingsRate <= 100.0
  {
    var r := MonthSummary(income, expenses, income - expenses, Percent(income - expenses, income));
    SummaryRate(r);
    r
  }

  function MonthData(txs: seq<Transaction>, year: int, month: int): (r: MonthSummary)
    ensures r.income == KindTotal(MonthTxs(txs, year, month), Income)
    ensures r.expenses == KindTotal(MonthTxs(txs, year, month), Expense)
    ensures r == Summarize(r.income, r.expenses)
  {
    var current := MonthTxs(txs, year, month);
    var income := AmountSum(Filter(current, OfKind(Income)));
    var expenses := AmountSum(Filter(current, OfKind(Expense)));
    FilteredSumIsKindTotal(current, Income);
    FilteredSumIsKindTotal(current, Expense);
    Summarize(income, expenses)
  }

  lemma SummaryRate(r: MonthSummary)
    requires r.netIncome == r.income - r.expenses
    requires r.savingsRate == Percent(r.income - r.expenses, r.income)
    ensures r.income > 0.0 ==> r.savingsRate * r.income == r.netIncome * 100.0
    ensures r.income <= 0.0 ==> r.savingsRate == 0.0
    ensures r.income > 0.0 && r.expenses >= 0.0 ==> r.savingsRate <= 100.0
  {
    RateBounds(r.income, r.expenses);
  }

  lemma RateBounds(income: real, expenses: real)
    ensures income > 0.0 ==> Percent(income - expenses, income) * income == (income - expenses) * 100.0
    ensures income <= 0.0 ==> Percent(income - expenses, income) == 0.0
    ensures income > 0.0 && expenses >= 0.0 ==> Percent(income - expenses, income) <= 100.0
  {
    if income > 0.0 && expenses >= 0.0 {
      var rate := Percent(income - expenses, income);
      assert rate * income <= 100.0 * income;
    }
  }

  /** A month with no transactions has an all-zero summary. */
  lemma EmptyMonth(txs: seq<Transaction>, year: int, month: int)
    requires forall i :: 0 <= i < |txs| ==> !InMonth(txs[i], year, month)
    ensures MonthData(txs, year, month) == MonthSummary(0.0, 0.0, 0.0, 0.0)
  {
    FilterEmpty(txs, InMonthOf(year, month));
  }

  /** Income 1000 with expenses 400 and 100 in the month: net 500 and a
      savings rate of 50 (per cent). */
  lemma ThreeTransactionMonth(a: Transaction, b: Transaction, c: Transaction, year: int, month: int)
    requires a.kind == Income && a.amount == 1000.0
    requires b.kind == Expense && b.amount == 400.0
    requires c.kind == Expense && c.amount == 100.0
    requires InMonth(a, year, month) && InMonth(b, year, month) && InMonth(c, year, month)
    ensures MonthData([a, b, c], year, month) == MonthSummary(1000.0, 500.0, 500.0, 50.0)
  {
    var txs := [a, b, c];
    FilterAll(txs, InMonthOf(year, month));
    assert MonthTxs(txs, year, month) == txs;
    ThreeTotals(a, b, c);
    assert Percent(500.0, 1000.0) == 50.0;
  }

  lemma ThreeTotals(a: Transaction, b: Transaction, c: Transaction)
    requires a.kind == Income && a.amount == 1000.0
    requires b.kind == Expense && b.amount == 400.0
    requires c.kind == Expense && c.amount == 100.0
    ensures KindTotal([a, b, c], Income) == 1000.0 && KindTotal([a, b, c], Expense) == 500.0
  {
    var txs := [a, b, c];
    assert txs[1..] == [b, c];
    assert [b, c][1..] == [c];
    assert [c][1..] == [];
    assert KindTotal([c], Income) == 0.0 + KindTotal([c][1..], Income);
    assert KindTotal([c], Expense) == 100.0 + KindTotal([c][1..], Expense);
    assert KindTotal([b, c], Income) == 0.0 && KindTotal([b, c], Expense) == 500.0;
    assert KindTotal(txs, Income) == 1000.0 && KindTotal(txs, Expense) == 500.0;
  }

  // ---------------------------------------------------------------------------
  // getMonthlyTrend
  // ---------------------------------------------------------------------------

  datatype YearMonth = YearMonth(year: int, month: int)

  /** The month of `new Date(year, month - i, 1)`: the date constructor
      carries an out-of-range month into the year. */
  function MonthsBefore(year: int, month: int, i: int): (r: YearMonth)
    ensures 0 <= r.month < 12
    ensures r.year * 12 + r.month == year * 12 + month - i
  {
    var index := year * 12 + month - i;
    YearMonth(index / 12, index % 12)
  }

  datatype TrendEntry = TrendEntry(year: int, month: int, income: real, expenses: real, net: real)

  /** Twelve entries, oldest first, for the eleven months before the
      current one and the current one; each holds that month's totals. */
  method MonthlyTrend(txs: seq<Transaction>, year: int, month: int) returns (trend: seq<TrendEntry>)
    ensures |trend| == 12
    ensures forall k :: 0 <= k < 12 ==>
      && 0 <= trend[k].month < 12
      && trend[k].year * 12 + trend[k].month == year * 12 + month - (11 - k)
      && trend[k].income == KindTotal(MonthTxs(txs, trend[k].year, trend[k].month), Income)
      && trend[k].expenses == KindTotal(MonthTxs(txs, trend[k].year, trend[k].month), Expense)
      && trend[k].net == trend[k].income - trend[k].expenses
    ensures 0 <= month < 12 ==> trend[11].year == year && trend[11].month == month
  {
    trend := [];
    var i := 11;
    while i >= 0
      invariant -1 <= i <= 11
      invariant |trend| == 11 - i
      invariant forall k :: 0 <= k < |trend| ==>
        && 0 <= trend[k].month < 12
        && trend[k].year * 12 + trend[k].month == year * 12 + month - (11 - k)
        && trend[k].income == KindTotal(MonthTxs(txs, trend[k].year, trend[k].month), Income)
        && trend[k].expenses == KindTotal(MonthTxs(txs, trend[k].year, trend[k].month), Expense)
        && trend[k].net == trend[k].income - trend[k].expenses
    {
      var ym := MonthsBefore(year, month, i);
      var monthTxs := MonthTxs(txs, ym.year, ym.month);
      var income := AmountSum(Filter(monthTxs, OfKind(Income)));
      var expenses := AmountSum(Filter(monthTxs, OfKind(Expense)));
      FilteredSumIsKindTotal(monthTxs, Income);
      FilteredSumIsKindTotal(monthTxs, Expense);
      trend := trend + [TrendEntry(ym.year, ym.month, income, expenses, income - expenses)];
      i := i - 1;
    }
  }

  // ---------------------------------------------------------------------------
  // Expense and income breakdown lists
  // ---------------------------------------------------------------------------

  datatype Side = IncomeSide | ExpenseSide

  datatype PieEntry = PieEntry(name: string, value: real, percentage: real, color: string)

  function SideValue(s: CategoryStat, side: Side): real {
    if side == IncomeSide then s.income else s.expense
  }

  function Entry(s: CategoryStat, side: Side): PieEntry {
    PieEntry(s.name, SideValue(s, side), if side == IncomeSide then s.pctIncome else s.pctExpense, s.color)
  }

  function PositiveOn(side: Side): CategoryStat -> bool {
    (s: CategoryStat) => SideValue(s, side) > 0.0
  }

  function EntryOn(side: Side): CategoryStat -> PieEntry {
    (s: CategoryStat) => Entry(s, side)
  }

  /** `stats.filter(s => s.expense > 0).map(...)` and its income twin: one
      entry per row with a positive value on that side, in row order, and
      nothing else. */
  function PieBreakdown(stats: seq<CategoryStat>, side: Side): (r: seq<PieEntry>)
    ensures |r| == |set j | 0 <= j < |stats| && SideValue(stats[j], side) > 0.0|
    ensures Subsequence(r, Map(stats, EntryOn(side)))
    ensures forall i :: 0 <= i < |r| ==> r[i].value > 0.0
    ensures forall e :: e in r ==> exists j :: 0 <= j < |stats| && e == Entry(stats[j], side)
    ensures forall j :: 0 <= j < |stats| && SideValue(stats[j], side) > 0.0 ==> Entry(stats[j], side) in r
  {
    PieShape(stats, side);
    PieMembers(stats, side);
    Map(Filter(stats, PositiveOn(side)), EntryOn(side))
  }

  /** The kept rows' entries number the positive rows and keep their order. */
  lemma PieShape(stats: seq<CategoryStat>, side: Side)
    ensures var r := Map(Filter(stats, PositiveOn(side)), EntryOn(side));
      && |r| == |set j | 0 <= j < |stats| && SideValue(stats[j], side) > 0.0|
      && Subsequence(r, Map(stats, EntryOn(side)))
  {
    var kept := Filter(stats, PositiveOn(side));
    FilterCount(stats, PositiveOn(side));
    assert Positions(stats, PositiveOn(side)) == set j | 0 <= j < |stats| && SideValue(stats[j], side) > 0.0;
    SubsequenceMap(kept, stats, EntryOn(side));
  }

  /** Every entry of the kept rows comes from some row, and every positive
      row gives its entry. */
  lemma PieMembers(stats: seq<CategoryStat>, side: Side)
    ensures var r := Map(Filter(stats, PositiveOn(side)), EntryOn(side));
      && (forall e :: e in r ==> exists j :: 0 <= j < |stats| && e == Entry(stats[j], side))
      && (forall j :: 0 <= j < |stats| && SideValue(stats[j], side) > 0.0 ==> Entry(stats[j], side) in r)
  {
    var kept := Filter(stats, PositiveOn(side));
    var r := Map(kept, EntryOn(side));
    forall e | e in r ensures exists j :: 0 <= j < |stats| && e == Entry(stats[j], side) {
      var i :| 0 <= i < |r| && r[i] == e;
      assert kept[i] in stats;
      var j :| 0 <= j < |stats| && stats[j] == kept[i];
    }
    forall j | 0 <= j < |stats| && SideValue(stats[j], side) > 0.0 ensures Entry(stats[j], side) in r {
      assert PositiveOn(side)(stats[j]);
      assert stats[j] in kept;
      var i :| 0 <= i < |kept| && kept[i] == stats[j];
      assert r[i] == Entry(stats[j], side);
    }
  }

  function EntryValue(): PieEntry -> real {
    (e: PieEntry) => e.value
  }

  /** With non-negative figures a pie list adds up to the column total of
      the rows it was drawn from. */
  lemma PieSumsToColumn(stats: seq<CategoryStat>, side: Side)
    requires NonNegativeStats(stats)
    ensures SumOf(PieBreakdown(stats, side), EntryValue())
            == SumOf(stats, if side == IncomeSide then StatIncome() else StatExpense())
  {
    KeptEntriesSum(stats, side);
  }

  lemma {:induction false} KeptEntriesSum(stats: seq<CategoryStat>, side: Side)
    requires NonNegativeStats(stats)
    ensures SumOf(Map(Filter(stats, PositiveOn(side)), EntryOn(side)), EntryValue())
            == SumOf(stats, if side == IncomeSide then StatIncome() else StatExpense())
  {
    if |stats| > 0 {
      assert NonNegativeStats(stats[1..]) by {
        forall i | 0 <= i < |stats[1..]| ensures stats[1..][i].income >= 0.0 && stats[1..][i].expense >= 0.0 {
          assert stats[1..][i] == stats[i + 1];
        }
      }
      KeptEntriesSum(stats[1..], side);
      FilterMapCons(stats, PositiveOn(side), EntryOn(side));
      SumOfHead(stats[0], side, Map(Filter(stats[1..], PositiveOn(side)), EntryOn(side)));
    }
  }

  lemma SumOfHead(x: CategoryStat, side: Side, rest: seq<PieEntry>)
    ensures SumOf((if SideValue(x, side) > 0.0 then [Entry(x, side)] else []) + rest, EntryValue())
         == (if SideValue(x, side) > 0.0 then SideValue(x, side) else 0.0) + SumOf(rest, EntryValue())
  {
    if SideValue(x, side) > 0.0 {
      assert ([Entry(x, side)] + rest)[1..] == rest;
    } else {
      assert [] + rest == rest;
    }
  }

  // ---------------------------------------------------------------------------
  // categoryPerformanceMonthly
  // ---------------------------------------------------------------------------

  datatype Performance = Performance(name: string, income: real, expense: real, color: string)

  /** One category's income and expense among the given transactions. */
  function PerformanceOf(c: Category, txs: seq<Transaction>): (r: Performance)
    ensures r.name == c.name && r.color == c.color
    ensures r.income == CategoryTotal(txs, c.id, Income)
    ensures r.expense == CategoryTotal(txs, c.id, Expense)
  {
    var catTxs := Filter(txs, InCategory(c.id));
    FilteredSumIsKindTotal(catTxs, Income);
    FilteredSumIsKindTotal(catTxs, Expense);
    CategoryTotalIsFiltered(txs, c.id, Income);
    CategoryTotalIsFiltered(txs, c.id, Expense);
    Performance(c.name, AmountSum(Filter(catTxs, OfKind(Income))), AmountSum(Filter(catTxs, OfKind(Expense))), c.color)
  }

  function Performances(cats: seq<Category>, txs: seq<Transaction>): (r: seq<Performance>)
    ensures |r| == |cats|
    ensures forall i :: 0 <= i < |cats| ==> r[i] == PerformanceOf(cats[i], txs)
  {
    if |cats| == 0 then [] else [PerformanceOf(cats[0], txs)] + Performances(cats[1..], txs)
  }

  predicate Moves(p: Performance) {
    p.expense > 0.0 || p.income > 0.0
  }

  function HasMovement(): Performance -> bool {
    (p: Performance) => Moves(p)
  }

  /** The comparator `b.expense - a.expense`: larger expense first. */
  predicate LargerExpenseFirst(a: Performance, b: Performance) {
    a.expense >= b.expense
  }

  lemma LargerExpenseFirstOrders()
    ensures TotalPreorder(LargerExpenseFirst)
  {
  }

  /** `r` is a performance table of `cats` over the transactions `current`:
      ten rows, or one per category with income or expense; each row the
      performance of such a category, repeated no more often than it occurs;
      largest expense first; and a moving category left out has no larger
      expense than the last row. */
  predicate PerformanceTable(r: seq<Performance>, cats: seq<Category>, current: seq<Transaction>) {
    && |r| == Min(10, |set j | 0 <= j < |cats| && Moves(PerformanceOf(cats[j], current))|)
    && multiset(r) <= multiset(Performances(cats, current))
    && (forall i :: 0 <= i < |r| ==> r[i].expense > 0.0 || r[i].income > 0.0)
    && (forall i, j :: 0 <= i < j < |r| ==> r[i].expense >= r[j].expense)
    && (forall i :: 0 <= i < |r| ==> OfSomeCategory(r[i], cats, current))
    && (forall j :: 0 <= j < |cats| ==>
          var p := PerformanceOf(cats[j], current);
          (p.expense > 0.0 || p.income > 0.0) && p !in r ==> |r| == 10 && p.expense <= r[9].expense)
  }

  /** The month's categories with income or expense, largest expense
      first, at most ten: the performance table of the month's
      transactions. */
  function CategoryPerformanceMonthly(cats: seq<Category>, txs: seq<Transaction>, year: int, month: int)
    : (r: seq<Performance>)
    ensures |r| <= 10
    ensures PerformanceTable(r, cats, MonthTxs(txs, year, month))
  {
    var current := MonthTxs(txs, year, month);
    TopTenMovingSize(cats, current);
    TopTenMoving(cats, current);
    TopTenByExpense(Filter(Performances(cats, current), HasMovement()))
  }

  /** The ten largest-expense moving performances number ten or all of the
      moving categories, and repeat no performance more often than it occurs. */
  lemma TopTenMovingSize(cats: seq<Category>, current: seq<Transaction>)
    ensures var r := TopTenByExpense(Filter(Performances(cats, current), HasMovement()));
      && |r| == Min(10, |set j | 0 <= j < |cats| && Moves(PerformanceOf(cats[j], current))|)
      && multiset(r) <= multiset(Performances(cats, current))
  {
    MovingRows(cats, current);
  }

  /** The ten largest-expense moving performances: moving, largest expense
      first, each a category's, and bounding every moving category left out. */
  lemma TopTenMoving(cats: seq<Category>, current: seq<Transaction>)
    ensures var r := TopTenByExpense(Filter(Performances(cats, current), HasMovement()));
      && (forall i :: 0 <= i < |r| ==> r[i].expense > 0.0 || r[i].income > 0.0)
      && (forall i, j :: 0 <= i < j < |r| ==> r[i].expense >= r[j].expense)
      && (forall i :: 0 <= i < |r| ==> OfSomeCategory(r[i], cats, current))
      && (forall j :: 0 <= j < |cats| ==>
            var p := PerformanceOf(cats[j], current);
            (p.expense > 0.0 || p.income > 0.0) && p !in r ==> |r| == 10 && p.expense <= r[9].expense)
  {
    var moving := Filter(Performances(cats, current), HasMovement());
    var r := TopTenByExpense(moving);
    RowsFromCategories(cats, current, r);
    LeftOutCategories(cats, current, r);
  }

  /** `sort((a, b) => b.expense - a.expense).slice(0, 10)`. */
  function TopTenByExpense(ps: seq<Performance>): (r: seq<Performance>)
    ensures |r| == Min(10, |ps|)
    ensures multiset(r) <= multiset(ps)
    ensures forall i :: 0 <= i < |r| ==> r[i] in ps
    ensures forall i, j :: 0 <= i < j < |r| ==> r[i].expense >= r[j].expense
    ensures forall x :: x in ps && x !in r ==> |r| == 10 && r[9].expense >= x.expense
  {
    LargerExpenseFirstOrders();
    Top(ps, LargerExpenseFirst, 10)
  }

  /** The performances with movement: one per moving category, and each
      copy drawn from the category list's performances. */
  lemma MovingRows(cats: seq<Category>, current: seq<Transaction>)
    ensures var moving := Filter(Performances(cats, current), HasMovement());
      && |moving| == |set j | 0 <= j < |cats| && Moves(PerformanceOf(cats[j], current))|
      && multiset(moving) <= multiset(Performances(cats, current))
  {
    var all := Performances(cats, current);
    FilterCount(all, HasMovement());
    FilterMultiset(all, HasMovement());
    assert Positions(all, HasMovement()) == set j | 0 <= j < |cats| && Moves(PerformanceOf(cats[j], current));
  }

  /** `p` is the performance of one of `cats` among `txs`. */
  predicate OfSomeCategory(p: Performance, cats: seq<Category>, txs: seq<Transaction>) {
    exists j :: 0 <= j < |cats| && p == PerformanceOf(cats[j], txs)
  }

  /** Every row of a selection of the moving performances is the
      performance of one of the categories. */
  lemma RowsFromCategories(cats: seq<Category>, current: seq<Transaction>, r: seq<Performance>)
    requires forall i :: 0 <= i < |r| ==> r[i] in Filter(Performances(cats, current), HasMovement())
    ensures forall i :: 0 <= i < |r| ==> OfSomeCategory(r[i], cats, current)
  {
    var all := Performances(cats, current);
    forall i | 0 <= i < |r| ensures OfSomeCategory(r[i], cats, current) {
      assert r[i] in Filter(all, HasMovement());
      assert r[i] in all;
      var j :| 0 <= j < |all| && all[j] == r[i];
      assert j < |cats| && r[i] == PerformanceOf(cats[j], current);
    }
  }

  /** A moving category missing from the selection is bounded by its last
      row, when the selection bounds every moving performance it leaves out. */
  lemma LeftOutCategories(cats: seq<Category>, current: seq<Transaction>, r: seq<Performance>)
    requires forall x :: x in Filter(Performances(cats, current), HasMovement()) && x !in r ==>
      |r| == 10 && r[9].expense >= x.expense
    ensures forall j :: 0 <= j < |cats| ==>
      var p := PerformanceOf(cats[j], current);
      (p.expense > 0.0 || p.income > 0.0) && p !in r ==> |r| == 10 && p.expense <= r[9].expense
  {
    var all := Performances(cats, current);
    forall j | 0 <= j < |cats|
      ensures var p := PerformanceOf(cats[j], current);
        (p.expense > 0.0 || p.income > 0.0) && p !in r ==> |r| == 10 && p.expense <= r[9].expense
    {
      assert all[j] == PerformanceOf(cats[j], current);
      assert HasMovement()(all[j]) ==> all[j] in Filter(all, HasMovement());
    }
  }

  // ---------------------------------------------------------------------------
  // getLoansSummary and activeUsers
  // ---------------------------------------------------------------------------

  function PendingOfType(k: LoanType): Loan -> bool {
    (l: Loan) => l.kind == k && l.status == Pending
  }

  lemma {:induction false} PendingOfTypeSum(loans: seq<Loan>, k: LoanType)
    ensures LoanAmountSum(Filter(loans, PendingOfType(k))) == PendingTotal(loans, k)
  {
    if |loans| > 0 {
      PendingOfTypeSum(loans[1..], k);
    }
  }

  /** The reports page filters by type and status in one pass; its summary
      is the loans page's summary. */
  function ReportsLoanSummary(loans: seq<Loan>): (r: LoanSummary)
    ensures r == Summary(loans)
    ensures r.netPosition == r.totalGiven - r.totalTaken
  {
    var given := LoanAmountSum(Filter(loans, PendingOfType(Given)));
    var taken := LoanAmountSum(Filter(loans, PendingOfType(Taken)));
    PendingOfTypeSum(loans, Given);
    PendingOfTypeSum(loans, Taken);
    LoanSummary(given, taken, given - taken)
  }

  predicate HasTransaction(u: FinancialUser, txs: seq<Transaction>) {
    exists i :: 0 <= i < |txs| && txs[i].userId == u.id
  }

  /** The number of financial users referenced by at least one transaction:
      all of them exactly when every user has a transaction, none exactly
      when no user has one. */
  function ActiveUsers(users: seq<FinancialUser>, txs: seq<Transaction>): (r: nat)
    ensures r == |set i | 0 <= i < |users| && HasTransaction(users[i], txs)|
    ensures r <= |users|
    ensures r == |users| <==> forall i :: 0 <= i < |users| ==> HasTransaction(users[i], txs)
    ensures r == 0 <==> forall i :: 0 <= i < |users| ==> !HasTransaction(users[i], txs)
  {
    var p := (u: FinancialUser) => HasTransaction(u, txs);
    FilterKeepsAll(users, p);
    FilterEmpty(users, p);
    FilterCount(users, p);
    assert Positions(users, p) == set i | 0 <= i < |users| && HasTransaction(users[i], txs);
    |Filter(users, p)|
  }
}

=== FILE: seqs.dfy ===
/** Array methods of JavaScript restated over `seq`: `filter`, `slice`,
    `sort` with a comparator, and `slice(0, n)` as `Take`. */
module Seqs {
  import opened Wrappers
  import opened Text

  // ---------------------------------------------------------------------------
  // filter
  // ---------------------------------------------------------------------------

  /** `a` can be obtained from `b` by deleting elements. */
  predicate Subsequence<T(==)>(a: seq<T>, b: seq<T>)
    decreases |b|
  {
    |a| == 0 || (|b| > 0 && ((a[0] == b[0] && Subsequence(a[1..], b[1..])) || Subsequence(a, b[1..])))
  }

  /** `s.filter(p)`: keeps exactly the elements satisfying `p`, in order. */
  function Filter<T(==)>(s: seq<T>, p: T -> bool): (r: seq<T>)
    ensures |r| <= |s|
    ensures forall i :: 0 <= i < |r| ==> r[i] in s && p(r[i])
    ensures forall i :: 0 <= i < |s| && p(s[i]) ==> s[i] in r
    ensures Subsequence(r, s)
  {
    if |s| == 0 then []
    else
      var rest := Filter(s[1..], p);
      if p(s[0]) then
        assert ([s[0]] + rest)[1..] == rest;
        [s[0]] + rest
      else rest
  }

  lemma {:induction false} FilterAll<T>(s: seq<T>, p: T -> bool)
    requires forall i :: 0 <= i < |s| ==> p(s[i])
    ensures Filter(s, p) == s
  {
    if |s| > 0 {
      FilterAll(s[1..], p);
    }
  }

  lemma {:induction false} FilterConcat<T>(a: seq<T>, b: seq<T>, p: T -> bool)
    ensures Filter(a + b, p) == Filter(a, p) + Filter(b, p)
  {
    if |a| == 0 {
      assert a + b == b;
    } else {
      var ab := a + b;
      assert ab[0] == a[0];
      assert ab[1..] == a[1..] + b;
      FilterConcat(a[1..], b, p);
      FilterCons(ab, p);
      FilterCons(a, p);
      var head := if p(a[0]) then [a[0]] else [];
      var fa := Filter(a[1..], p);
      var fb := Filter(b, p);
      ConcatAssoc(head, fa, fb);
    }
  }

  lemma ConcatAssoc<T>(a: seq<T>, b: seq<T>, c: seq<T>)
    ensures a + (b + c) == (a + b) + c
  {
  }

  /** One unfolding of `Filter`, for callers that need only this step. */
  lemma FilterCons<T>(s: seq<T>, p: T -> bool)
    requires |s| > 0
    ensures Filter(s, p) == (if p(s[0]) then [s[0]] else []) + Filter(s[1..], p)
  {
  }

  /** Every copy of an element that passes is kept, and no copy of one that
      fails. */
  lemma {:induction false} FilterMultiset<T>(s: seq<T>, p: T -> bool)
    ensures forall x :: multiset(Filter(s, p))[x] == if p(x) then multiset(s)[x] else 0
  {
    if |s| > 0 {
      FilterMultiset(s[1..], p);
      FilterCons(s, p);
      ConsMultiset(s);
      var head := if p(s[0]) then [s[0]] else [];
      assert multiset(Filter(s, p)) == multiset(head) + multiset(Filter(s[1..], p));
    }
  }

  /** The positions of `s` whose element satisfies `p`. */
  function Positions<T>(s: seq<T>, p: T -> bool): set<int> {
    set i | 0 <= i < |s| && p(s[i])
  }

  /** The filtered list has one element per position whose element
      passes. */
  lemma FilterCount<T>(s: seq<T>, p: T -> bool)
    ensures |Filter(s, p)| == |Positions(s, p)|
  {
    FilterCountPrefix(s, p, |s|);
    assert s[..|s|] == s;
    assert Positions(s, p) == set i | 0 <= i < |s| && p(s[i]);
  }

  lemma {:induction false} FilterCountPrefix<T>(s: seq<T>, p: T -> bool, n: nat)
    requires n <= |s|
    ensures |Filter(s[..n], p)| == |set i | 0 <= i < n && p(s[i])|
  {
    if n > 0 {
      FilterCountPrefix(s, p, n - 1);
      assert s[..n] == s[..n - 1] + [s[n - 1]];
      FilterSnocLength(s[..n - 1], s[n - 1], p);
      PositionsStep(s, p, n);
    }
  }

  lemma FilterSnocLength<T>(a: seq<T>, x: T, p: T -> bool)
    ensures |Filter(a + [x], p)| == |Filter(a, p)| + (if p(x) then 1 else 0)
  {
    FilterConcat(a, [x], p);
    FilterCons([x], p);
    assert [x][1..] == [];
  }

  /** The passing positions below `n` are those below `n - 1`, and `n - 1`
      when it passes. */
  lemma PositionsStep<T>(s: seq<T>, p: T -> bool, n: nat)
    requires 0 < n <= |s|
    ensures |set i | 0 <= i < n && p(s[i])|
         == |set i | 0 <= i < n - 1 && p(s[i])| + (if p(s[n - 1]) then 1 else 0)
  {
    var before := set i | 0 <= i < n - 1 && p(s[i]);
    var now := set i | 0 <= i < n && p(s[i]);
    if p(s[n - 1]) {
      assert now == before + {n - 1};
      assert n - 1 !in before;
    } else {
      assert now == before;
    }
  }

  /** Every element passes the filter exactly when nothing is dropped. */
  lemma {:induction false} FilterKeepsAll<T>(s: seq<T>, p: T -> bool)
    ensures |Filter(s, p)| == |s| <==> forall i :: 0 <= i < |s| ==> p(s[i])
  {
    if |s| > 0 {
      FilterKeepsAll(s[1..], p);
      assert (forall i :: 0 <= i < |s| ==> p(s[i])) <==>
             p(s[0]) && forall i :: 0 <= i < |s[1..]| ==> p(s[1..][i]) by {
        if p(s[0]) && forall i :: 0 <= i < |s[1..]| ==> p(s[1..][i]) {
          forall i | 0 < i < |s| ensures p(s[i]) {
            assert s[i] == s[1..][i - 1];
          }
        }
      }
    }
  }

  /** Nothing passes the filter exactly when no element satisfies `p`. */
  lemma FilterEmpty<T>(s: seq<T>, p: T -> bool)
    ensures |Filter(s, p)| == 0 <==> forall i :: 0 <= i < |s| ==> !p(s[i])
  {
    if exists i :: 0 <= i < |s| && p(s[i]) {
      var i :| 0 <= i < |s| && p(s[i]);
      assert s[i] in Filter(s, p);
    }
  }

  // ---------------------------------------------------------------------------
  // map
  // ---------------------------------------------------------------------------

  /** `s.map(f)`. */
  function Map<T, U>(s: seq<T>, f: T -> U): (r: seq<U>)
    ensures |r| == |s|
    ensures forall i :: 0 <= i < |s| ==> r[i] == f(s[i])
  {
    seq(|s|, i requires 0 <= i < |s| => f(s[i]))
  }

  lemma MapConcat<T, U>(a: seq<T>, b: seq<T>, f: T -> U)
    ensures Map(a + b, f) == Map(a, f) + Map(b, f)
  {
  }

  /** One step of `s.filter(p).map(f)`. */
  lemma FilterMapCons<T, U>(s: seq<T>, p: T -> bool, f: T -> U)
    requires |s| > 0
    ensures Map(Filter(s, p), f) == (if p(s[0]) then [f(s[0])] else []) + Map(Filter(s[1..], p), f)
  {
    FilterCons(s, p);
    var head := if p(s[0]) then [s[0]] else [];
    MapConcat(head, Filter(s[1..], p), f);
  }

  /** Mapping keeps a subsequence a subsequence. */
  lemma {:induction false} SubsequenceMap<T, U>(a: seq<T>, b: seq<T>, f: T -> U)
    requires Subsequence(a, b)
    ensures Subsequence(Map(a, f), Map(b, f))
    decreases |b|
  {
    if |a| > 0 {
      assert Map(a, f)[1..] == Map(a[1..], f);
      assert Map(b, f)[1..] == Map(b[1..], f);
      if a[0] == b[0] && Subsequence(a[1..], b[1..]) {
        SubsequenceMap(a[1..], b[1..], f);
      } else {
        SubsequenceMap(a, b[1..], f);
      }
    }
  }

  // ---------------------------------------------------------------------------
  // reduce with +
  // ---------------------------------------------------------------------------

  /** `s.reduce((sum, x) => sum + f(x), 0)`. */
  function SumOf<T>(s: seq<T>, f: T -> real): real {
    if |s| == 0 then 0.0 else f(s[0]) + SumOf(s[1..], f)
  }

  /** Dropping only elements that contribute zero keeps the sum. */
  lemma {:induction false} SumOfFilter<T>(s: seq<T>, p: T -> bool, f: T -> real)
    requires forall i :: 0 <= i < |s| && !p(s[i]) ==> f(s[i]) == 0.0
    ensures SumOf(Filter(s, p), f) == SumOf(s, f)
  {
    if |s| > 0 {
      SumOfFilter(s[1..], p, f);
    }
  }

  /** Taking one element out of a sequence takes its term out of the sum. */
  lemma {:induction false} SumOfRemove<T>(s: seq<T>, k: nat, f: T -> real)
    requires k < |s|
    ensures SumOf(s, f) == f(s[k]) + SumOf(s[..k] + s[k + 1..], f)
  {
    if k > 0 {
      SumOfRemove(s[1..], k - 1, f);
      assert s[1..][..k - 1] + s[1..][k..] == (s[..k] + s[k + 1..])[1..];
    } else {
      assert s[..k] + s[k + 1..] == s[1..];
    }
  }

  /** Taking one element out of a sequence takes one copy of it out of
      its multiset. */
  lemma MultisetRemove<T>(t: seq<T>, k: nat)
    requires k < |t|
    ensures multiset(t[..k] + t[k + 1..]) == multiset(t) - multiset{t[k]}
  {
    assert t == t[..k] + [t[k]] + t[k + 1..];
    assert multiset(t) == multiset(t[..k]) + multiset{t[k]} + multiset(t[k + 1..]);
  }

  /** An element of a sequence's multiset sits at some position of it. */
  lemma PositionOf<T>(t: seq<T>, x: T) returns (k: nat)
    requires x in multiset(t)
    ensures k < |t| && t[k] == x
  {
    assert x in t;
    k :| 0 <= k < |t| && t[k] == x;
  }

  /** Removing matching elements from two permutations of each other
      leaves permutations of each other. */
  lemma TailPermutation<T>(s: seq<T>, t: seq<T>, k: nat)
    requires |s| > 0 && k < |t| && t[k] == s[0] && multiset(s) == multiset(t)
    ensures multiset(s[1..]) == multiset(t[..k] + t[k + 1..])
  {
    MultisetRemove(t, k);
    MultisetRemove(s, 0);
    assert s[..0] + s[1..] == s[1..];
  }

  /** A sum does not depend on the order of its terms. */
  lemma {:induction false} SumOfPermutation<T>(s: seq<T>, t: seq<T>, f: T -> real)
    requires multiset(s) == multiset(t)
    ensures SumOf(s, f) == SumOf(t, f)
  {
    if |s| == 0 {
      assert |t| == |multiset(t)| == 0;
    } else {
      var k := PositionOf(t, s[0]);
      TailPermutation(s, t, k);
      SumOfPermutation(s[1..], t[..k] + t[k + 1..], f);
      SumOfRemove(t, k, f);
    }
  }

  // ---------------------------------------------------------------------------
  // find
  // ---------------------------------------------------------------------------

  /** The position `s.findIndex(p)` reports, `None` for -1. */
  function FindIndex<T>(s: seq<T>, p: T -> bool): (r: Option<nat>)
    ensures r.Some? ==> r.value < |s| && p(s[r.value])
    ensures r.Some? ==> forall j :: 0 <= j < r.value ==> !p(s[j])
    ensures r.None? ==> forall j :: 0 <= j < |s| ==> !p(s[j])
  {
    if |s| == 0 then None
    else if p(s[0]) then Some(0)
    else
      var r := FindIndex(s[1..], p);
      if r.Some? then Some(r.value + 1) else None
  }

  /** `s.find(p)`: the first element satisfying `p`, if any. */
  function Find<T>(s: seq<T>, p: T -> bool): (r: Option<T>)
    ensures r.Some? <==> exists i :: 0 <= i < |s| && p(s[i])
    ensures r.Some? ==> exists i :: 0 <= i < |s| && s[i] == r.value && p(s[i]) && forall j :: 0 <= j < i ==> !p(s[j])
  {
    var k := FindIndex(s, p);
    if k.Some? then Some(s[k.value]) else None
  }

  // ---------------------------------------------------------------------------
  // slice
  // ---------------------------------------------------------------------------

  /** The index `Array.prototype.slice` derives from one of its arguments:
      negative values count from the end, and the result is clamped to
      [0, len]. */
  function SliceIndex(len: nat, k: int): (r: nat)
    ensures r <= len
    ensures 0 <= k <= len ==> r == k
  {
    if k < 0 then Max(len + k, 0) else Min(k, len)
  }

  /** `s.slice(start, end)`. */
  function Slice<T>(s: seq<T>, start: int, end: int): (r: seq<T>)
    ensures |r| <= |s|
    ensures 0 <= start <= end ==> r == s[Min(start, |s|)..Min(end, |s|)]
  {
    var a := SliceIndex(|s|, start);
    var b := SliceIndex(|s|, end);
    if a < b then s[a..b] else []
  }

  /** `s.slice(0, n)`: the first `n` elements, or all of them. */
  function Take<T>(s: seq<T>, n: nat): (r: seq<T>)
    ensures |r| == Min(n, |s|)
    ensures r == s[..|r|]
  {
    Slice(s, 0, n)
  }

  // ---------------------------------------------------------------------------
  // sort with a comparator
  // ---------------------------------------------------------------------------

  /** A comparator `le(a, b)` meaning "a may come before b" that orders all
      values: it is total and transitive. */
  ghost predicate TotalPreorder<T(!new)>(le: (T, T) -> bool) {
    && (forall x, y :: le(x, y) || le(y, x))
    && (forall x, y, z :: le(x, y) && le(y, z) ==> le(x, z))
  }

  predicate SortedBy<T>(s: seq<T>, le: (T, T) -> bool) {
    forall i, j :: 0 <= i < j < |s| ==> le(s[i], s[j])
  }

  /** Inserts `x` before the first element it may precede. */
  function Insert<T(!new)>(x: T, s: seq<T>, le: (T, T) -> bool): (r: seq<T>)
    requires TotalPreorder(le)
    requires SortedBy(s, le)
    ensures SortedBy(r, le)
    ensures multiset(r) == multiset(s) + multiset{x}
  {
    if |s| == 0 then [x]
    else if le(x, s[0]) then
      InsertFront(x, s, le);
      [x] + s
    else
      var rest := Insert(x, s[1..], le);
      InsertBehind(x, s, rest, le);
      [s[0]] + rest
  }

  lemma InsertFront<T(!new)>(x: T, s: seq<T>, le: (T, T) -> bool)
    requires TotalPreorder(le)
    requires SortedBy(s, le) && |s| > 0 && le(x, s[0])
    ensures SortedBy([x] + s, le)
    ensures multiset([x] + s) == multiset(s) + multiset{x}
  {
    var r := [x] + s;
    forall i, j | 0 <= i < j < |r| ensures le(r[i], r[j]) {
      if i == 0 {
        assert r[j] == s[j - 1];
        if j > 1 {
          assert le(s[0], s[j - 1]);
        }
      } else {
        assert r[i] == s[i - 1] && r[j] == s[j - 1];
      }
    }
  }

  lemma InsertBehind<T(!new)>(x: T, s: seq<T>, rest: seq<T>, le: (T, T) -> bool)
    requires TotalPreorder(le)
    requires SortedBy(s, le) && |s| > 0 && !le(x, s[0])
    requires SortedBy(rest, le) && multiset(rest) == multiset(s[1..]) + multiset{x}
    ensures SortedBy([s[0]] + rest, le)
    ensures multiset([s[0]] + rest) == multiset(s) + multiset{x}
  {
    ConsMultiset(s);
    var r := [s[0]] + rest;
    forall i, j | 0 <= i < j < |r| ensures le(r[i], r[j]) {
      if i == 0 {
        var y := rest[j - 1];
        assert r[j] == y;
        assert y in multiset(rest);
        if y == x {
          assert le(s[0], x);
        } else {
          assert y in multiset(s[1..]);
          var k :| 0 <= k < |s[1..]| && s[1..][k] == y;
          assert s[k + 1] == y;
        }
      } else {
        assert r[i] == rest[i - 1] && r[j] == rest[j - 1];
      }
    }
    assert multiset(r) == multiset{s[0]} + multiset(rest);
  }

  /** `s.sort(cmp).slice(0, n)`: the first `n` elements in comparator order.
      Every element left out may follow the last one kept. */
  function Top<T(!new)>(s: seq<T>, le: (T, T) -> bool, n: nat): (r: seq<T>)
    requires TotalPreorder(le)
    ensures |r| == Min(n, |s|)
    ensures SortedBy(r, le)
    ensures forall i :: 0 <= i < |r| ==> r[i] in s
    ensures multiset(r) <= multiset(s)
    ensures |s| <= n ==> multiset(r) == multiset(s)
    ensures n > 0 ==> forall x :: x in s && x !in r ==> |r| == n && le(r[n - 1], x)
  {
    var sorted := SortBy(s, le);
    PrefixBounds(sorted, s, le, n);
    Take(sorted, n)
  }

  lemma PrefixBounds<T>(sorted: seq<T>, s: seq<T>, le: (T, T) -> bool, n: nat)
    requires SortedBy(sorted, le)
    requires multiset(sorted) == multiset(s)
    ensures var r := Take(sorted, n);
      && (forall i :: 0 <= i < |r| ==> r[i] in s)
      && multiset(r) <= multiset(s)
      && (|s| <= n ==> multiset(r) == multiset(s))
      && (n > 0 ==> forall x :: x in s && x !in r ==> |r| == n && le(r[n - 1], x))
  {
    var r := Take(sorted, n);
    assert sorted == r + sorted[|r|..];
    if |s| <= n {
      assert r == sorted;
    }
    forall i | 0 <= i < |r| ensures r[i] in s {
      assert r[i] == sorted[i];
      assert r[i] in multiset(sorted);
    }
    if n > 0 {
      forall x | x in s && x !in r ensures |r| == n && le(r[n - 1], x) {
        assert x in multiset(sorted);
        var j :| 0 <= j < |sorted| && sorted[j] == x;
        assert j >= |r|;
        assert r[|r| - 1] == sorted[|r| - 1];
      }
    }
  }

  /** `s.sort(cmp)` for a comparator that orders all values: the result is
      sorted and a permutation of `s`. Each element is inserted in front of
      the later elements it may precede. */
  function SortBy<T(!new)>(s: seq<T>, le: (T, T) -> bool): (r: seq<T>)
    requires TotalPreorder(le)
    ensures SortedBy(r, le)
    ensures multiset(r) == multiset(s)
    ensures |r| == |s|
  {
    if |s| == 0 then []
    else
      var rest := SortBy(s[1..], le);
      var r := Insert(s[0], rest, le);
      ConsMultiset(s);
      assert |r| == |multiset(r)| == |multiset(s)| == |s|;
      r
  }

  lemma ConsMultiset<T>(s: seq<T>)
    requires |s| > 0
    ensures multiset(s) == multiset(s[1..]) + multiset{s[0]}
  {
    assert s == [s[0]] + s[1..];
  }
}

=== FILE: settings.dfy ===
/** The category management and settings loading of the settings page
    (SettingsPage.tsx). Categories are added with a trimmed name after a
    duplicate check, renamed, and deleted without any check for
    transactions that still refer to them. */
module Settings {
  import opened Wrappers
  import opened Text
  import opened Seqs
  import opened Types

  datatype SettingsError =
    | NameRequired    // 'Category name is required'
    | AlreadyExists   // 'Category already exists'

  /** `existing.some(cat => cat.name.toLowerCase() === name.toLowerCase())`. */
  predicate NameTaken(cats: seq<Category>, name: string) {
    exists i :: 0 <= i < |cats| && Lower(cats[i].name) == Lower(name)
  }

  /** The category the handler creates: its id and colour are drawn by the
      caller. */
  function NewCategory(id: string, name: string, color: string): (r: Category)
    ensures r.id == id && r.name == Trim(name) && r.color == color && r.kind.None?
  {
    Category(id, Trim(name), None, color)
  }

  /** `handleAddCategory` as written: the duplicate check compares the
      name as typed, while the name stored is trimmed. */
  function AddCategoryAsWritten(cats: seq<Category>, name: string, id: string, color: string)
    : (r: Result<seq<Category>, SettingsError>)
    ensures IsBlank(name) ==> r == Err(NameRequired)
    ensures !IsBlank(name) && NameTaken(cats, name) ==> r == Err(AlreadyExists)
    ensures r.Ok? <==> !IsBlank(name) && !NameTaken(cats, name)
    ensures r.Ok? ==> r.value == cats + [NewCategory(id, name, color)]
  {
    if IsBlank(name) then Err(NameRequired)
    else if NameTaken(cats, name) then Err(AlreadyExists)
    else Ok(cats + [NewCategory(id, name, color)])
  }

  /** No two categories have names equal up to ASCII case. */
  predicate DistinctNames(cats: seq<Category>) {
    forall i, j :: 0 <= i < j < |cats| ==> Lower(cats[i].name) != Lower(cats[j].name)
  }

  lemma TrimSpaceThenFood()
    ensures Trim([' '] + "Food") == "Food"
  {
    var food := "Food";
    assert food[0] == 'F' && food[|food| - 1] == 'd';
    TrimUnpadded(food);
    TrimLeadingSpace(' ', food);
  }

  lemma SameNameNotDistinct(c: Category, d: Category)
    requires d.name == c.name
    ensures !DistinctNames([c, d])
  {
    var r := [c, d];
    assert Lower(r[0].name) == Lower(r[1].name);
  }

  lemma NotTakenBySingle(c: Category, name: string)
    requires Lower(c.name) != Lower(name)
    ensures !NameTaken([c], name)
  {
    assert forall i :: 0 <= i < 1 ==> [c][i] == c;
  }

  /** Whenever the typed name differs from an existing name but trims to
      it, the check as written accepts it and the stored list then holds
      the same name twice. */
  lemma AsWrittenAdmitsTrimmedDuplicate(c: Category, name: string, id: string, color: string)
    requires !IsBlank(name) && Trim(name) == c.name && !NameTaken([c], name)
    ensures AddCategoryAsWritten([c], name, id, color) == Ok([c, NewCategory(id, name, color)])
    ensures !DistinctNames([c, NewCategory(id, name, color)])
  {
    var added := NewCategory(id, name, color);
    assert [c] + [added] == [c, added];
    SameNameNotDistinct(c, added);
  }

  /** The concrete case: " Food" (a space, then "Food") is accepted next
      to an existing "Food", and the list then holds "Food" twice. */
  lemma PaddedNameDuplicates()
    ensures AddCategoryAsWritten([Category("c1", "Food", None, "#fff")], [' '] + "Food", "c2", "#000")
         == Ok([Category("c1", "Food", None, "#fff"), Category("c2", "Food", None, "#000")])
    ensures !DistinctNames([Category("c1", "Food", None, "#fff"), Category("c2", "Food", None, "#000")])
  {
    var c := Category("c1", "Food", None, "#fff");
    var typed := [' '] + c.name;
    TrimSpaceThenFood();
    assert Lower(c.name) != Lower(typed) by {
      assert Lower(c.name)[0] == LowerChar(c.name[0]) == 'f';
      assert Lower(typed)[0] == LowerChar(typed[0]) == ' ';
    }
    NotTakenBySingle(c, typed);
    AsWrittenAdmitsTrimmedDuplicate(c, typed, "c2", "#000");
  }

  /** The handler with the duplicate check on the name that is stored: the
      trimmed one. */
  function AddCategory(cats: seq<Category>, name: string, id: string, color: string)
    : (r: Result<seq<Category>, SettingsError>)
    ensures IsBlank(name) ==> r == Err(NameRequired)
    ensures !IsBlank(name) && NameTaken(cats, Trim(name)) ==> r == Err(AlreadyExists)
    ensures r.Ok? <==> !IsBlank(name) && !NameTaken(cats, Trim(name))
    ensures r.Ok? ==> r.value == cats + [NewCategory(id, name, color)]
    ensures r.Ok? && DistinctNames(cats) ==> DistinctNames(r.value)
  {
    if IsBlank(name) then Err(NameRequired)
    else if NameTaken(cats, Trim(name)) then Err(AlreadyExists)
    else Ok(cats + [NewCategory(id, name, color)])
  }

  /** `{ ...cat, name: trimmed }` for the category being edited. */
  function RenameById(cats: seq<Category>, id: Option<string>, name: string): (r: seq<Category>)
    ensures |r| == |cats|
    ensures forall i :: 0 <= i < |cats| ==>
      r[i] == if id == Some(cats[i].id) then cats[i].(name := name) else cats[i]
  {
    if |cats| == 0 then []
    else [if id == Some(cats[0].id) then cats[0].(name := name) else cats[0]] + RenameById(cats[1..], id, name)
  }

  /** `handleSaveCategory`: a blank name is refused; otherwise only the
      edited category's name changes, to the trimmed text, and no duplicate
      check is made. */
  function RenameCategory(cats: seq<Category>, editing: Option<string>, name: string)
    : (r: Result<seq<Category>, SettingsError>)
    ensures IsBlank(name) <==> r == Err(NameRequired)
    ensures r.Ok? ==>
      && |r.value| == |cats|
      && (forall i :: 0 <= i < |cats| && editing != Some(cats[i].id) ==> r.value[i] == cats[i])
      && (forall i :: 0 <= i < |cats| && editing == Some(cats[i].id) ==>
            r.value[i].name == Trim(name) && r.value[i].id == cats[i].id
            && r.value[i].color == cats[i].color && r.value[i].kind == cats[i].kind)
  {
    if IsBlank(name) then Err(NameRequired) else Ok(RenameById(cats, editing, Trim(name)))
  }

  /** Renaming one category to another's name is accepted: the rename
      performs no duplicate check. */
  lemma RenameAdmitsDuplicate(a: Category, b: Category, name: string)
    requires a.id != b.id && !IsBlank(name) && Trim(name) == a.name
    ensures RenameCategory([a, b], Some(b.id), name) == Ok([a, b.(name := a.name)])
    ensures !DistinctNames([a, b.(name := a.name)])
  {
    var r := RenameCategory([a, b], Some(b.id), name).value;
    assert r[0] == a;
    assert r[1] == b.(name := a.name);
    assert r == [a, b.(name := a.name)];
    SameNameNotDistinct(a, b.(name := a.name));
  }

  function NotCategory(id: string): Category -> bool {
    (c: Category) => c.id != id
  }

  /** `handleDeleteCategory`: exactly the categories with that id go, the
      rest keep their order; transactions are not consulted. */
  function DeleteCategory(cats: seq<Category>, id: string): (r: seq<Category>)
    ensures Subsequence(r, cats)
    ensures forall i :: 0 <= i < |r| ==> r[i].id != id
    ensures forall i :: 0 <= i < |cats| && cats[i].id != id ==> cats[i] in r
    ensures forall c :: multiset(r)[c] == if c.id != id then multiset(cats)[c] else 0
  {
    FilterMultiset(cats, NotCategory(id));
    Filter(cats, NotCategory(id))
  }

  // ---------------------------------------------------------------------------
  // loadSettings
  // ---------------------------------------------------------------------------

  const DefaultSoftwareName := "Expense Tracker"

  datatype AppSettings = AppSettings(
    currency: string,
    dateFormat: string,
    theme: string,
    notifications: bool,
    autoBackup: bool,
    softwareName: Option<string>)

  /** `{ ...loaded, softwareName: loaded.softwareName || 'Expense Tracker' }`:
      a missing or empty name is replaced, everything else is kept. */
  function LoadSettings(loaded: AppSettings): (r: AppSettings)
    ensures r == loaded.(softwareName := r.softwareName)
    ensures r.softwareName.Some? && r.softwareName.value != ""
    ensures loaded.softwareName.Some? && loaded.softwareName.value != "" ==> r.softwareName == loaded.softwareName
    ensures loaded.softwareName.None? || loaded.softwareName.value == "" ==>
      r.softwareName == Some(DefaultSoftwareName)
  {
    var name := if loaded.softwareName.Some? && loaded.softwareName.value != "" then loaded.softwareName.value
                else DefaultSoftwareName;
    loaded.(softwareName := Some(name))
  }

  /** Loading twice is loading once. */
  lemma LoadSettingsIdempotent(loaded: AppSettings)
    ensures LoadSettings(LoadSettings(loaded)) == LoadSettings(loaded)
  {
  }
}

=== FILE: statement.dfy ===
/** The figures and the table of the monthly statement
    (monthlyStatementPDF.ts): income, expense and net totals over the
    month's transactions, and one table row per transaction in
    chronological order with its category and user names looked up. Date
    and amount formatting are not part of the model. */
module Statement {
  import opened Wrappers
  import opened Seqs
  import opened Types
  import opened Ledger

  datatype Totals = Totals(income: real, expenses: real, net: real)

  /** The statement's summary: the sums of the income and the expense
      transactions, and their difference. */
  function StatementTotals(txs: seq<Transaction>): (r: Totals)
    ensures r.income == KindTotal(txs, Income)
    ensures r.expenses == KindTotal(txs, Expense)
    ensures r.net == SignedTotal(txs)
  {
    var income := AmountSum(Filter(txs, OfKind(Income)));
    var expenses := AmountSum(Filter(txs, OfKind(Expense)));
    FilteredSumIsKindTotal(txs, Income);
    FilteredSumIsKindTotal(txs, Expense);
    BalanceIsSignedTotal(txs);
    Totals(income, expenses, income - expenses)
  }

  // ---------------------------------------------------------------------------
  // Rows
  // ---------------------------------------------------------------------------

  const NotAvailable := "N/A"

  /** A cell of the income or the expense column: an amount, or '-'. */
  type Cell = Option<real>

  datatype StatementRow = StatementRow(
    date: Instant,
    voucherId: string,
    title: string,
    category: string,
    user: string,
    incomeCell: Cell,
    expenseCell: Cell,
    typeLabel: string)

  function CategoryWithId(id: string): Category -> bool {
    (c: Category) => c.id == id
  }

  function UserWithId(id: string): FinancialUser -> bool {
    (u: FinancialUser) => u.id == id
  }

  /** `found?.name || 'N/A'`: a missing record and an empty name both
      show as N/A. */
  function NameOr(name: Option<string>): (r: string)
    ensures r != ""
    ensures name.Some? && name.value != "" ==> r == name.value
    ensures name.None? || name.value == "" ==> r == NotAvailable
  {
    if name.Some? && name.value != "" then name.value else NotAvailable
  }

  function CategoryName(cats: seq<Category>, id: string): (r: string)
    ensures r == NotAvailable || exists i :: 0 <= i < |cats| && cats[i].id == id && cats[i].name == r
    ensures (forall i :: 0 <= i < |cats| ==> cats[i].id != id) ==> r == NotAvailable
    ensures forall i :: 0 <= i < |cats| && cats[i].id == id && (forall j :: 0 <= j < i ==> cats[j].id != id) ==>
      r == (if cats[i].name != "" then cats[i].name else NotAvailable)
  {
    var c := Find(cats, CategoryWithId(id));
    NameOr(if c.Some? then Some(c.value.name) else None)
  }

  function UserName(users: seq<FinancialUser>, id: string): (r: string)
    ensures r == NotAvailable || exists i :: 0 <= i < |users| && users[i].id == id && users[i].name == r
    ensures (forall i :: 0 <= i < |users| ==> users[i].id != id) ==> r == NotAvailable
    ensures forall i :: 0 <= i < |users| && users[i].id == id && (forall j :: 0 <= j < i ==> users[j].id != id) ==>
      r == (if users[i].name != "" then users[i].name else NotAvailable)
  {
    var u := Find(users, UserWithId(id));
    NameOr(if u.Some? then Some(u.value.name) else None)
  }

  /** One transaction's row: the income column is filled exactly for
      income, the expense column exactly for expense, and the type label is
      INCOME exactly for income, so a loan-tagged transaction shows as
      EXPENSE with both amount cells '-'. */
  function RowFor(t: Transaction, cats: seq<Category>, users: seq<FinancialUser>): (r: StatementRow)
    ensures r.date == t.date && r.voucherId == t.voucherId && r.title == t.title
    ensures r.category == CategoryName(cats, t.categoryId) && r.user == UserName(users, t.userId)
    ensures r.incomeCell.Some? <==> t.kind == Income
    ensures r.expenseCell.Some? <==> t.kind == Expense
    ensures r.incomeCell.Some? ==> r.incomeCell.value == t.amount
    ensures r.expenseCell.Some? ==> r.expenseCell.value == t.amount
    ensures r.typeLabel == "INCOME" || r.typeLabel == "EXPENSE"
    ensures r.typeLabel == "INCOME" <==> t.kind == Income
  {
    StatementRow(t.date, t.voucherId, t.title, CategoryName(cats, t.categoryId), UserName(users, t.userId),
                 if t.kind == Income then Some(t.amount) else None,
                 if t.kind == Expense then Some(t.amount) else None,
                 if t.kind == Income then "INCOME" else "EXPENSE")
  }

  /** The comparator `new Date(a.date) - new Date(b.date)`: earlier first. */
  predicate EarlierFirst(a: Transaction, b: Transaction) {
    AtOrBefore(a.date, b.date)
  }

  lemma EarlierFirstOrders()
    ensures TotalPreorder(EarlierFirst)
  {
    forall x: Transaction, y: Transaction ensures EarlierFirst(x, y) || EarlierFirst(y, x) {
      AtOrBeforeOrders(x.date, y.date, x.date);
    }
    forall x: Transaction, y: Transaction, z: Transaction | EarlierFirst(x, y) && EarlierFirst(y, z)
      ensures EarlierFirst(x, z)
    {
      AtOrBeforeOrders(x.date, y.date, z.date);
    }
  }

  /** The transactions in chronological order. */
  function Chronological(txs: seq<Transaction>): (r: seq<Transaction>)
    ensures multiset(r) == multiset(txs)
    ensures |r| == |txs|
    ensures forall i, j :: 0 <= i < j < |r| ==> AtOrBefore(r[i].date, r[j].date)
  {
    EarlierFirstOrders();
    SortBy(txs, EarlierFirst)
  }

  function RowsFor(txs: seq<Transaction>, cats: seq<Category>, users: seq<FinancialUser>): (r: seq<StatementRow>)
    ensures |r| == |txs|
    ensures forall i :: 0 <= i < |txs| ==> r[i] == RowFor(txs[i], cats, users)
  {
    if |txs| == 0 then [] else [RowFor(txs[0], cats, users)] + RowsFor(txs[1..], cats, users)
  }

  /** The statement table: exactly one row per transaction, dated in
      non-decreasing order. */
  function StatementTable(txs: seq<Transaction>, cats: seq<Category>, users: seq<FinancialUser>)
    : (r: seq<StatementRow>)
    ensures |r| == |txs|
    ensures forall i :: 0 <= i < |r| ==> r[i] == RowFor(Chronological(txs)[i], cats, users)
    ensures forall i, j :: 0 <= i < j < |r| ==> AtOrBefore(r[i].date, r[j].date)
  {
    RowsFor(Chronological(txs), cats, users)
  }

  // ---------------------------------------------------------------------------
  // The table against the summary
  // ---------------------------------------------------------------------------

  function IncomeCell(): StatementRow -> real {
    (r: StatementRow) => r.incomeCell.GetOr(0.0)
  }

  function ExpenseCell(): StatementRow -> real {
    (r: StatementRow) => r.expenseCell.GetOr(0.0)
  }

  function TxIncome(): Transaction -> real {
    (t: Transaction) => if t.kind == Income then t.amount else 0.0
  }

  function TxExpense(): Transaction -> real {
    (t: Transaction) => if t.kind == Expense then t.amount else 0.0
  }

  lemma {:induction false} KindTotalIsSumOf(txs: seq<Transaction>)
    ensures SumOf(txs, TxIncome()) == KindTotal(txs, Income)
    ensures SumOf(txs, TxExpense()) == KindTotal(txs, Expense)
  {
    if |txs| > 0 {
      KindTotalIsSumOf(txs[1..]);
    }
  }

  lemma {:induction false} CellSums(txs: seq<Transaction>, cats: seq<Category>, users: seq<FinancialUser>)
    ensures SumOf(RowsFor(txs, cats, users), IncomeCell()) == SumOf(txs, TxIncome())
    ensures SumOf(RowsFor(txs, cats, users), ExpenseCell()) == SumOf(txs, TxExpense())
  {
    if |txs| > 0 {
      CellSums(txs[1..], cats, users);
      assert RowsFor(txs, cats, users)[1..] == RowsFor(txs[1..], cats, users);
    }
  }

  /** The income column of the table adds up to the statement's total
      income, and the expense column to its total expenses, whatever the
      order the rows are shown in. */
  lemma ColumnsAddUpToTotals(txs: seq<Transaction>, cats: seq<Category>, users: seq<FinancialUser>)
    ensures SumOf(StatementTable(txs, cats, users), IncomeCell()) == StatementTotals(txs).income
    ensures SumOf(StatementTable(txs, cats, users), ExpenseCell()) == StatementTotals(txs).expenses
  {
    var sorted := Chronological(txs);
    CellSums(sorted, cats, users);
    SumOfPermutation(sorted, txs, TxIncome());
    SumOfPermutation(sorted, txs, TxExpense());
    KindTotalIsSumOf(txs);
  }
}

=== FILE: text.dfy ===
/** String primitives the application's handlers rely on, restated over
    `seq<char>`: ASCII case mapping (String.prototype.toLowerCase and
    toUpperCase on the ASCII range), `trim`, `includes`, `split(' ')` and
    `join`, the decimal rendering of a non-negative integer and
    `padStart`. */
module Text {

  function Min(a: int, b: int): int {
    if a <= b then a else b
  }

  function Max(a: int, b: int): int {
    if a <= b then b else a
  }

  // ---------------------------------------------------------------------------
  // Case mapping (ASCII letters only)
  // ---------------------------------------------------------------------------

  function LowerChar(c: char): char {
    if 'A' <= c <= 'Z' then (c as int + 32) as char else c
  }

  function UpperChar(c: char): char {
    if 'a' <= c <= 'z' then (c as int - 32) as char else c
  }

  predicate IsLowerAscii(c: char) {
    'a' <= c <= 'z'
  }

  function Lower(s: string): (r: string)
    ensures |r| == |s|
    ensures forall i :: 0 <= i < |s| ==> r[i] == LowerChar(s[i])
  {
    if |s| == 0 then "" else [LowerChar(s[0])] + Lower(s[1..])
  }

  function Upper(s: string): (r: string)
    ensures |r| == |s|
    ensures forall i :: 0 <= i < |s| ==> r[i] == UpperChar(s[i])
    ensures forall i :: 0 <= i < |r| ==> !IsLowerAscii(r[i])
  {
    if |s| == 0 then "" else [UpperChar(s[0])] + Upper(s[1..])
  }

  // ---------------------------------------------------------------------------
  // Whitespace and trim
  // ---------------------------------------------------------------------------

  /** The white-space and line-terminator characters `trim` removes that this
      model knows: space, tab, LF, VT, FF, CR, no-break space and BOM. */
  predicate IsSpace(c: char) {
    c == ' ' || c == '\t' || c == '\n' || c == '\r'
    || c as int == 0x0B || c as int == 0x0C || c as int == 0xA0 || c as int == 0xFEFF
  }

  predicate AllSpace(s: string) {
    forall i :: 0 <= i < |s| ==> IsSpace(s[i])
  }

  function TrimStart(s: string): (r: string)
    ensures |r| <= |s| && r == s[|s| - |r|..]
    ensures |r| > 0 ==> !IsSpace(r[0])
    ensures forall i :: 0 <= i < |s| - |r| ==> IsSpace(s[i])
  {
    if |s| > 0 && IsSpace(s[0]) then TrimStart(s[1..]) else s
  }

  function TrimEnd(s: string): (r: string)
    ensures |r| <= |s| && r == s[..|r|]
    ensures |r| > 0 ==> !IsSpace(r[|r| - 1])
    ensures forall i :: |r| <= i < |s| ==> IsSpace(s[i])
  {
    if |s| > 0 && IsSpace(s[|s| - 1]) then TrimEnd(s[..|s| - 1]) else s
  }

  /** `s.trim()`: the result is empty exactly when `s` is all white space,
      and otherwise neither starts nor ends with white space. */
  function Trim(s: string): (r: string)
    ensures |r| <= |s|
    ensures r == "" <==> AllSpace(s)
    ensures r != "" ==> !IsSpace(r[0]) && !IsSpace(r[|r| - 1])
  {
    var t := TrimStart(s);
    var r := TrimEnd(t);
    assert r == "" ==> AllSpace(s) by {
      if r == "" {
        assert t == "";
        assert forall i :: 0 <= i < |s| ==> IsSpace(s[i]);
      }
    }
    r
  }

  /** `!s.trim()` in JavaScript: a blank string. */
  predicate IsBlank(s: string) {
    Trim(s) == ""
  }

  // ---------------------------------------------------------------------------
  // Substring search
  // ---------------------------------------------------------------------------

  predicate OccursAt(s: string, t: string, i: int) {
    0 <= i <= |s| - |t| && s[i..i + |t|] == t
  }

  /** `s.includes(t)`. */
  function Contains(s: string, t: string): (r: bool)
    ensures r <==> exists i :: OccursAt(s, t, i)
    decreases |s|
  {
    if |t| <= |s| && s[..|t|] == t then
      assert OccursAt(s, t, 0);
      true
    else if |s| == 0 then
      false
    else
      assert forall i :: OccursAt(s[1..], t, i) <==> OccursAt(s, t, i + 1) by {
        forall i ensures OccursAt(s[1..], t, i) <==> OccursAt(s, t, i + 1) {
          if 0 <= i <= |s| - 1 - |t| {
            assert s[1..][i..i + |t|] == s[i + 1..i + 1 + |t|];
          }
        }
      }
      assert !OccursAt(s, t, 0);
      assert (exists i :: OccursAt(s, t, i)) ==> exists i :: OccursAt(s[1..], t, i) by {
        if exists i :: OccursAt(s, t, i) {
          var i :| OccursAt(s, t, i);
          assert OccursAt(s[1..], t, i - 1);
        }
      }
      Contains(s[1..], t)
  }

  // ---------------------------------------------------------------------------
  // split(' ') / join
  // ---------------------------------------------------------------------------

  /** `parts.join(sep)` for a one-character separator. */
  function Join(parts: seq<string>, sep: char): string {
    if |parts| == 0 then ""
    else if |parts| == 1 then parts[0]
    else parts[0] + [sep] + Join(parts[1..], sep)
  }

  /** `s.split(sep)` for a one-character separator: the pieces never contain
      the separator and joining them back gives `s`. */
  function Split(s: string, sep: char): (r: seq<string>)
    ensures |r| >= 1
    ensures Join(r, sep) == s
    ensures forall k :: 0 <= k < |r| ==> sep !in r[k]
  {
    if |s| == 0 then [""]
    else if s[0] == sep then
      var rest := Split(s[1..], sep);
      assert ([""] + rest)[1..] == rest;
      [""] + rest
    else
      var rest := Split(s[1..], sep);
      var r := [[s[0]] + rest[0]] + rest[1..];
      assert r[1..] == rest[1..];
      assert Join(r, sep) == s by {
        if |rest| == 1 {
          assert Join(r, sep) == [s[0]] + rest[0];
        } else {
          assert Join(rest, sep) == rest[0] + [sep] + Join(rest[1..], sep);
          assert Join(r, sep) == [s[0]] + rest[0] + [sep] + Join(rest[1..], sep);
        }
      }
      r
  }

  lemma {:induction false} SplitWord(w: string, sep: char)
    requires sep !in w
    ensures Split(w, sep) == [w]
  {
    if |w| > 0 {
      SplitWord(w[1..], sep);
      assert [w[0]] + w[1..] == w;
    }
  }

  lemma {:induction false} SplitAfterWord(w: string, rest: string, sep: char)
    requires sep !in w
    ensures Split(w + [sep] + rest, sep) == [w] + Split(rest, sep)
  {
    var s := w + [sep] + rest;
    if |w| == 0 {
      assert s[1..] == rest;
    } else {
      assert s[1..] == w[1..] + [sep] + rest;
      SplitAfterWord(w[1..], rest, sep);
      assert [w[0]] + w[1..] == w;
    }
  }

  /** Splitting a join of separator-free pieces gives the pieces back. */
  lemma {:induction false} SplitJoin(ws: seq<string>, sep: char)
    requires |ws| > 0
    requires forall k :: 0 <= k < |ws| ==> sep !in ws[k]
    ensures Split(Join(ws, sep), sep) == ws
  {
    if |ws| == 1 {
      SplitWord(ws[0], sep);
    } else {
      SplitJoin(ws[1..], sep);
      SplitAfterWord(ws[0], Join(ws[1..], sep), sep);
      assert [ws[0]] + ws[1..] == ws;
    }
  }

  lemma {:induction false} JoinAppend(a: seq<string>, b: seq<string>, sep: char)
    requires |a| > 0 && |b| > 0
    ensures Join(a + b, sep) == Join(a, sep) + [sep] + Join(b, sep)
  {
    if |a| == 1 {
      assert (a + b)[1..] == b;
    } else {
      assert (a + b)[1..] == a[1..] + b;
      JoinAppend(a[1..], b, sep);
    }
  }

  /** A non-empty piece of text without white space. */
  predicate IsWord(w: string) {
    |w| > 0 && forall i :: 0 <= i < |w| ==> !IsSpace(w[i])
  }

  /** Words joined by single spaces neither start nor end with white
      space. */
  lemma {:induction false} JoinOfWords(ws: seq<string>)
    requires |ws| > 0
    requires forall k :: 0 <= k < |ws| ==> IsWord(ws[k])
    ensures |Join(ws, ' ')| > 0
    ensures !IsSpace(Join(ws, ' ')[0]) && !IsSpace(Join(ws, ' ')[|Join(ws, ' ')| - 1])
  {
    if |ws| > 1 {
      JoinOfWords(ws[1..]);
      var j := Join(ws, ' ');
      assert j == ws[0] + [' '] + Join(ws[1..], ' ');
      assert j[0] == ws[0][0];
      assert j[|j| - 1] == Join(ws[1..], ' ')[|Join(ws[1..], ' ')| - 1];
    }
  }

  /** Leading white space does not survive `trim`. */
  lemma TrimLeadingSpace(c: char, s: string)
    requires IsSpace(c)
    ensures Trim([c] + s) == Trim(s)
  {
    var t := [c] + s;
    assert t[1..] == s;
    assert TrimStart(t) == TrimStart(s);
  }

  lemma TrimUnpadded(s: string)
    requires |s| > 0 && !IsSpace(s[0]) && !IsSpace(s[|s| - 1])
    ensures Trim(s) == s
    ensures Trim(s + " ") == s
  {
    var t := s + " ";
    assert TrimStart(s) == s;
    assert TrimEnd(s) == s;
    assert t[0] == s[0];
    assert TrimStart(t) == t;
    assert t[..|t| - 1] == s;
    assert TrimEnd(t) == s;
  }

  /** `words.map(n => n[0]).join('')`: `n[0]` of an empty word is
      `undefined`, which `join` renders as the empty string. */
  function Heads(words: seq<string>): string {
    if |words| == 0 then ""
    else (if |words[0]| > 0 then [words[0][0]] else "") + Heads(words[1..])
  }

  /** Reference definition: the characters of `s` that begin a word, i.e.
      are not a space and follow the start or a space. */
  function WordStarts(s: string, atStart: bool): string {
    if |s| == 0 then ""
    else if s[0] == ' ' then WordStarts(s[1..], true)
    else (if atStart then [s[0]] else "") + WordStarts(s[1..], false)
  }

  lemma {:induction false} HeadsOfSplit(s: string)
    ensures Heads(Split(s, ' ')) == WordStarts(s, true)
    ensures Heads(Split(s, ' ')[1..]) == WordStarts(s, false)
  {
    if |s| == 0 {
    } else if s[0] == ' ' {
      HeadsOfSplit(s[1..]);
      var rest := Split(s[1..], ' ');
      assert Split(s, ' ') == [""] + rest;
      assert Split(s, ' ')[1..] == rest;
    } else {
      HeadsOfSplit(s[1..]);
      var rest := Split(s[1..], ' ');
      assert Split(s, ' ') == [[s[0]] + rest[0]] + rest[1..];
      assert Split(s, ' ')[1..] == rest[1..];
    }
  }

  /** Every character `WordStarts` keeps is a non-space character of `s`. */
  lemma {:induction false} WordStartsFromText(s: string, atStart: bool)
    ensures forall i :: 0 <= i < |WordStarts(s, atStart)| ==>
      WordStarts(s, atStart)[i] in s && WordStarts(s, atStart)[i] != ' '
  {
    if |s| > 0 {
      WordStartsFromText(s[1..], true);
      WordStartsFromText(s[1..], false);
      assert forall c :: c in s[1..] ==> c in s;
    }
  }

  /** `name.split(' ').map(n => n[0]).join('').toUpperCase().slice(0, 2)`,
      the avatar initials of the users tab and the account menu: at most two
      characters, the upper-cased first letters of the space-separated
      words in order. */
  function Initials(name: string): (r: string)
    ensures |r| == Min(2, |WordStarts(name, true)|)
    ensures r == Upper(WordStarts(name, true))[..|r|]
    ensures forall i :: 0 <= i < |r| ==> !IsLowerAscii(r[i])
    ensures forall i :: 0 <= i < |r| ==> exists c :: c in name && c != ' ' && r[i] == UpperChar(c)
  {
    HeadsOfSplit(name);
    WordStartsFromText(name, true);
    var heads := Upper(Heads(Split(name, ' ')));
    var r := if |heads| <= 2 then heads else heads[..2];
    assert forall i :: 0 <= i < |r| ==> r[i] == UpperChar(WordStarts(name, true)[i]);
    r
  }

  // ---------------------------------------------------------------------------
  // Decimal rendering and padStart
  // ---------------------------------------------------------------------------

  predicate IsDigit(c: char) {
    '0' <= c <= '9'
  }

  predicate AllDigits(s: string) {
    forall i :: 0 <= i < |s| ==> IsDigit(s[i])
  }

  function DigitChar(d: nat): (c: char)
    requires d < 10
    ensures IsDigit(c)
  {
    ('0' as int + d) as char
  }

  function DigitValue(c: char): (d: nat)
    requires IsDigit(c)
    ensures d < 10
  {
    c as int - '0' as int
  }

  /** `n.toString()` for a non-negative integer: decimal digits, no leading
      zero except for zero itself. */
  function Decimal(n: nat): (r: string)
    ensures |r| >= 1 && AllDigits(r)
    ensures |r| > 1 ==> r[0] != '0'
    decreases n
  {
    if n < 10 then [DigitChar(n)] else Decimal(n / 10) + [DigitChar(n % 10)]
  }

  /** The value of a string of decimal digits (leading zeros allowed). */
  function ParseDecimal(s: string): nat
    requires AllDigits(s)
  {
    if |s| == 0 then 0 else ParseDecimal(s[..|s| - 1]) * 10 + DigitValue(s[|s| - 1])
  }

  lemma {:induction false} DecimalRoundTrip(n: nat)
    ensures ParseDecimal(Decimal(n)) == n
    decreases n
  {
    if n >= 10 {
      DecimalRoundTrip(n / 10);
      var d := Decimal(n);
      assert d[..|d| - 1] == Decimal(n / 10);
    }
  }

  /** `s.padStart(width, fill)`. */
  function PadStart(s: string, width: nat, fill: char): (r: string)
    ensures |r| == Max(width, |s|)
    ensures r[|r| - |s|..] == s
    ensures forall i :: 0 <= i < |r| - |s| ==> r[i] == fill
    decreases width
  {
    if |s| >= width then s else [fill] + PadStart(s, width - 1, fill)
  }

  lemma {:induction false} LeadingZerosIgnored(z: string, s: string)
    requires forall i :: 0 <= i < |z| ==> z[i] == '0'
    requires AllDigits(s)
    ensures AllDigits(z + s)
    ensures ParseDecimal(z + s) == ParseDecimal(s)
    decreases |s|
  {
    if |s| == 0 {
      assert z + s == z;
      ZerosParseToZero(z);
    } else {
      LeadingZerosIgnored(z, s[..|s| - 1]);
      assert (z + s)[..|z + s| - 1] == z + s[..|s| - 1];
    }
  }

  lemma {:induction false} ZerosParseToZero(z: string)
    requires forall i :: 0 <= i < |z| ==> z[i] == '0'
    ensures AllDigits(z) && ParseDecimal(z) == 0
  {
    if |z| > 0 {
      ZerosParseToZero(z[..|z| - 1]);
    }
  }

  /** Zero-padding a decimal rendering keeps its value, so the padded
      rendering is injective. */
  lemma PaddedDecimalRoundTrip(n: nat, width: nat)
    ensures AllDigits(PadStart(Decimal(n), width, '0'))
    ensures ParseDecimal(PadStart(Decimal(n), width, '0')) == n
  {
    var d := Decimal(n);
    var p := PadStart(d, width, '0');
    var z := p[..|p| - |d|];
    assert p == z + d;
    LeadingZerosIgnored(z, d);
    DecimalRoundTrip(n);
  }
}

=== FILE: transactions.dfy ===
/** The transaction list of the transactions page (TransactionManager.tsx):
    adding or editing from the form, deleting after confirmation, the
    search-and-filter panel, and pagination ten rows at a time with a
    window of at most five page buttons. */
module Transactions {
  import opened Wrappers
  import opened Text
  import opened Seqs
  import opened Types

  // ---------------------------------------------------------------------------
  // handleSubmit
  // ---------------------------------------------------------------------------

  /** The form's fields. `amountText` is what the user typed (the handler
      tests it for emptiness) and `amount` what `parseFloat` makes of it. */
  datatype TxForm = TxForm(
    title: string,
    description: string,
    amountText: string,
    amount: real,
    kind: TxType,
    categoryId: string,
    userId: string,
    date: Instant)

  /** Values the handler draws from `Date.now()`, the voucher counter and
      the clock. */
  datatype Fresh = Fresh(id: string, voucherId: string, now: Instant)

  /** Title, amount, category and user must all be non-empty. */
  predicate FormComplete(form: TxForm) {
    form.title != "" && form.amountText != "" && form.categoryId != "" && form.userId != ""
  }

  /** `editing?.field || fallback`: an empty stored string falls back. */
  function KeptOr(kept: Option<string>, fallback: string): (r: string)
    ensures kept.Some? && kept.value != "" ==> r == kept.value
    ensures kept.None? || kept.value == "" ==> r == fallback
  {
    if kept.Some? && kept.value != "" then kept.value else fallback
  }

  /** The record the form describes; when editing, the edited record's id,
      voucher id and creation time are kept. */
  function FormTransaction(form: TxForm, editing: Option<Transaction>, gen: Fresh): (r: Transaction)
    ensures r.title == form.title && r.description == form.description && r.amount == form.amount
    ensures r.kind == form.kind && r.categoryId == form.categoryId && r.userId == form.userId
    ensures r.date == form.date && r.updatedAt == gen.now
    ensures editing.Some? && editing.value.id != "" ==> r.id == editing.value.id
    ensures editing.Some? && editing.value.voucherId != "" ==> r.voucherId == editing.value.voucherId
    ensures editing.Some? ==> r.createdAt == editing.value.createdAt
    ensures editing.None? ==> r.id == gen.id && r.voucherId == gen.voucherId && r.createdAt == gen.now
  {
    Transaction(
      KeptOr(if editing.Some? then Some(editing.value.id) else None, gen.id),
      KeptOr(if editing.Some? then Some(editing.value.voucherId) else None, gen.voucherId),
      form.title, form.description, form.amount, form.kind, form.categoryId, form.userId, form.date,
      if editing.Some? then editing.value.createdAt else gen.now,
      gen.now)
  }

  /** `txs.map(t => t.id === id ? replacement : t)`. */
  function ReplaceById(txs: seq<Transaction>, id: string, replacement: Transaction): (r: seq<Transaction>)
    ensures |r| == |txs|
    ensures forall i :: 0 <= i < |txs| ==> r[i] == if txs[i].id == id then replacement else txs[i]
  {
    if |txs| == 0 then []
    else [if txs[0].id == id then replacement else txs[0]] + ReplaceById(txs[1..], id, replacement)
  }

  /** An incomplete form changes nothing; an edit replaces, in place, every
      entry carrying the edited id and nothing else; an addition puts one
      new record in front. */
  function Submit(txs: seq<Transaction>, form: TxForm, editing: Option<Transaction>, gen: Fresh)
    : (r: seq<Transaction>)
    ensures !FormComplete(form) ==> r == txs
    ensures FormComplete(form) && editing.Some? ==>
      && |r| == |txs|
      && (forall i :: 0 <= i < |txs| && txs[i].id != editing.value.id ==> r[i] == txs[i])
      && (forall i :: 0 <= i < |txs| && txs[i].id == editing.value.id ==>
            r[i] == FormTransaction(form, editing, gen))
    ensures FormComplete(form) && editing.None? ==>
      |r| == |txs| + 1 && r[0] == FormTransaction(form, editing, gen) && r[1..] == txs
  {
    if !FormComplete(form) then txs
    else
      var t := FormTransaction(form, editing, gen);
      if editing.Some? then ReplaceById(txs, editing.value.id, t) else [t] + txs
  }

  /** Editing a record with a non-empty id and voucher id keeps both, and
      keeps its creation time; the rest of the list is untouched. */
  lemma EditKeepsIdentity(txs: seq<Transaction>, form: TxForm, edited: Transaction, gen: Fresh, i: nat)
    requires FormComplete(form)
    requires i < |txs| && txs[i] == edited && edited.id != "" && edited.voucherId != ""
    ensures var r := Submit(txs, form, Some(edited), gen);
      && r[i].id == edited.id && r[i].voucherId == edited.voucherId && r[i].createdAt == edited.createdAt
      && r[i].title == form.title && r[i].amount == form.amount
  {
  }

  // ---------------------------------------------------------------------------
  // handleDelete
  // ---------------------------------------------------------------------------

  function WithoutId(id: string): Transaction -> bool {
    (t: Transaction) => t.id != id
  }

  /** Deleting after confirmation drops exactly the entries with that id
      and keeps the others in their order; without confirmation nothing
      changes. */
  function Delete(txs: seq<Transaction>, id: string, confirmed: bool): (r: seq<Transaction>)
    ensures !confirmed ==> r == txs
    ensures confirmed ==>
      && Subsequence(r, txs)
      && (forall i :: 0 <= i < |r| ==> r[i].id != id)
      && (forall i :: 0 <= i < |txs| && txs[i].id != id ==> txs[i] in r)
      && (forall t :: multiset(r)[t] == if t.id != id then multiset(txs)[t] else 0)
  {
    FilterMultiset(txs, WithoutId(id));
    if confirmed then Filter(txs, WithoutId(id)) else txs
  }

  /** Deleting an id that no entry carries leaves the list as it was. */
  lemma DeleteAbsent(txs: seq<Transaction>, id: string)
    requires forall i :: 0 <= i < |txs| ==> txs[i].id != id
    ensures Delete(txs, id, true) == txs
  {
    FilterAll(txs, WithoutId(id));
  }

  // ---------------------------------------------------------------------------
  // getFilteredTransactions
  // ---------------------------------------------------------------------------

  /** The filter panel. `kind`, `category` and `user` are the selected
      values, "all" when unrestricted; the date bounds are absent when
      their inputs are empty. */
  datatype Criteria = Criteria(
    search: string,
    kind: string,
    category: string,
    user: string,
    from: Option<Instant>,
    to: Option<Instant>)

  const AllValues := "all"

  /** The panel as the page opens it. */
  const Unfiltered := Criteria("", AllValues, AllValues, AllValues, None, None)

  /** Case-insensitive substring search on the title or the voucher id. */
  predicate MatchesSearch(t: Transaction, search: string) {
    Contains(Lower(t.title), Lower(search)) || Contains(Lower(t.voucherId), Lower(search))
  }

  predicate Matches(t: Transaction, c: Criteria) {
    && MatchesSearch(t, c.search)
    && (c.kind == AllValues || TxTypeName(t.kind) == c.kind)
    && (c.category == AllValues || t.categoryId == c.category)
    && (c.user == AllValues || t.userId == c.user)
    && (c.from.None? || AtOrBefore(c.from.value, t.date))
    && (c.to.None? || AtOrBefore(t.date, c.to.value))
  }

  function MatchesAll(c: Criteria): Transaction -> bool {
    (t: Transaction) => Matches(t, c)
  }

  /** The rows the panel lets through: those that pass every test, in their
      original order. */
  function FilteredTransactions(txs: seq<Transaction>, c: Criteria): (r: seq<Transaction>)
    ensures Subsequence(r, txs)
    ensures forall i :: 0 <= i < |r| ==> Matches(r[i], c)
    ensures forall i :: 0 <= i < |txs| && Matches(txs[i], c) ==> txs[i] in r
    ensures forall t :: multiset(r)[t] == if Matches(t, c) then multiset(txs)[t] else 0
  {
    FilterMultiset(txs, MatchesAll(c));
    Filter(txs, MatchesAll(c))
  }

  lemma EmptySearchMatches(s: string)
    ensures Contains(s, "")
  {
    assert OccursAt(s, "", 0);
  }

  /** With the panel as it opens, every transaction is shown. */
  lemma UnfilteredShowsAll(txs: seq<Transaction>)
    ensures FilteredTransactions(txs, Unfiltered) == txs
  {
    forall i | 0 <= i < |txs| ensures Matches(txs[i], Unfiltered) {
      EmptySearchMatches(Lower(txs[i].title));
    }
    FilterAll(txs, MatchesAll(Unfiltered));
  }

  // ---------------------------------------------------------------------------
  // Pagination
  // ---------------------------------------------------------------------------

  const PageSize := 10
  const MaxVisiblePages := 5

  /** `Math.ceil(n / itemsPerPage)`. */
  function TotalPages(n: nat): (r: nat)
    ensures r * PageSize >= n
    ensures r > 0 ==> (r - 1) * PageSize < n
    ensures r == 0 <==> n == 0
  {
    (n + PageSize - 1) / PageSize
  }

  /** `items.slice((page - 1) * 10, (page - 1) * 10 + 10)`. */
  function PageItems<T>(items: seq<T>, page: int): (r: seq<T>)
    ensures |r| <= PageSize
    ensures page >= 1 ==>
      r == items[Min((page - 1) * PageSize, |items|)..Min(page * PageSize, |items|)]
  {
    Slice(items, (page - 1) * PageSize, (page - 1) * PageSize + PageSize)
  }

  /** Every item is on exactly the page its position says, and that page
      is one of the pages counted. */
  lemma ItemOnItsPage<T>(items: seq<T>, i: nat)
    requires i < |items|
    ensures 1 <= i / PageSize + 1 <= TotalPages(|items|)
    ensures i % PageSize < |PageItems(items, i / PageSize + 1)|
    ensures PageItems(items, i / PageSize + 1)[i % PageSize] == items[i]
  {
    var p := i / PageSize + 1;
    assert (p - 1) * PageSize + i % PageSize == i;
  }

  /** Pages past the last one are empty. */
  lemma PagesPastTheEndEmpty<T>(items: seq<T>, page: int)
    requires page > TotalPages(|items|)
    ensures PageItems(items, page) == []
  {
    assert (page - 1) * PageSize >= TotalPages(|items|) * PageSize;
  }

  /** `handlePreviousPage`. */
  function PreviousPage(current: int): (r: int)
    ensures current > 1 ==> r == current - 1
    ensures current <= 1 ==> r == current
  {
    if current > 1 then current - 1 else current
  }

  /** `handleNextPage`. */
  function NextPage(current: int, totalPages: nat): (r: int)
    ensures current < totalPages ==> r == current + 1
    ensures current >= totalPages ==> r == current
  {
    if current < totalPages then current + 1 else current
  }

  /** Starting from a page between 1 and the last (or 1 when there is no
      page), previous and next never leave that range. */
  lemma PagingStaysInRange(current: int, totalPages: nat)
    requires 1 <= current <= Max(1, totalPages)
    ensures 1 <= PreviousPage(current) <= Max(1, totalPages)
    ensures 1 <= NextPage(current, totalPages) <= Max(1, totalPages)
  {
  }

  /** The first and last page button shown. */
  function PageWindow(totalPages: nat, current: int): (r: (int, int))
    ensures totalPages <= MaxVisiblePages ==> r == (1, totalPages)
    ensures totalPages > MaxVisiblePages ==>
      1 <= r.0 && r.1 <= totalPages && r.1 - r.0 == MaxVisiblePages - 1
    ensures totalPages > MaxVisiblePages && 1 <= current <= totalPages ==> r.0 <= current <= r.1
  {
    if totalPages <= MaxVisiblePages then (1, totalPages)
    else
      var start := Max(1, current - 2);
      var end := Min(totalPages, start + MaxVisiblePages - 1);
      var start' := if end - start < MaxVisiblePages - 1 then Max(1, end - MaxVisiblePages + 1) else start;
      (start', end)
  }

  /** `getPageNumbers`: consecutive ascending page numbers between 1 and the
      last page, at most five, every page when there are at most five, and
      the current page among them when it is a real page. */
  method PageNumbers(totalPages: nat, current: int) returns (pages: seq<int>)
    ensures |pages| == Min(totalPages, MaxVisiblePages)
    ensures forall i :: 0 <= i < |pages| ==> 1 <= pages[i] <= totalPages
    ensures forall i :: 0 < i < |pages| ==> pages[i] == pages[i - 1] + 1
    ensures totalPages <= MaxVisiblePages ==> forall i :: 0 <= i < |pages| ==> pages[i] == i + 1
    ensures 1 <= current <= totalPages ==> current in pages
  {
    var (first, last) := PageWindow(totalPages, current);
    pages := [];
    var i := first;
    while i <= last
      invariant first <= i <= last + 1 || (last < first && i == first)
      invariant |pages| == i - first
      invariant forall k :: 0 <= k < |pages| ==> pages[k] == first + k
    {
      pages := pages + [i];
      i := i + 1;
    }
    if 1 <= current <= totalPages {
      assert pages[current - first] == current;
    }
  }
}

=== FILE: types.dfy ===
/** The records of the expense tracker (components/types/index.ts): financial
    users, categories, transactions, loans and goals. Timestamps are calendar
    instants; ids, voucher ids and colours are strings; amounts are exact
    reals standing in for the JavaScript numbers `parseFloat` produces. */
module Types {
  import opened Wrappers

  /** A point in time as the browser's local-time getters report it:
      `month` is 0-based as `Date.prototype.getMonth` returns it, and
      `millis` is the time of day in milliseconds. */
  datatype Instant = Instant(year: int, month: int, day: int, millis: int)

  /** Chronological order, the order of `Date.prototype.getTime`. */
  predicate AtOrBefore(a: Instant, b: Instant) {
    || a.year < b.year
    || (a.year == b.year && a.month < b.month)
    || (a.year == b.year && a.month == b.month && a.day < b.day)
    || (a.year == b.year && a.month == b.month && a.day == b.day && a.millis <= b.millis)
  }

  lemma AtOrBeforeOrders(a: Instant, b: Instant, c: Instant)
    ensures AtOrBefore(a, b) || AtOrBefore(b, a)
    ensures AtOrBefore(a, b) && AtOrBefore(b, a) ==> a == b
    ensures AtOrBefore(a, b) && AtOrBefore(b, c) ==> AtOrBefore(a, c)
  {
  }

  /** The four transaction types; the last two are the tags a transaction
      may carry when it is entered as a loan from the transaction form. */
  datatype TxType = Income | Expense | LoanGiven | LoanTaken

  /** The string stored in the `type` field. */
  function TxTypeName(k: TxType): string {
    match k
    case Income => "income"
    case Expense => "expense"
    case LoanGiven => "loan_given"
    case LoanTaken => "loan_taken"
  }

  /** Reading a stored `type` field: exactly the four names are transaction
      types, and each names exactly one of them. */
  function ParseTxType(s: string): (r: Option<TxType>)
    ensures r.Some? <==> s in {"income", "expense", "loan_given", "loan_taken"}
    ensures r.Some? ==> TxTypeName(r.value) == s
  {
    if s == "income" then Some(Income)
    else if s == "expense" then Some(Expense)
    else if s == "loan_given" then Some(LoanGiven)
    else if s == "loan_taken" then Some(LoanTaken)
    else None
  }

  datatype Transaction = Transaction(
    id: string,
    voucherId: string,
    title: string,
    description: string,   // '' when absent: every reader treats both alike
    amount: real,
    kind: TxType,
    categoryId: string,
    userId: string,
    date: Instant,
    createdAt: Instant,
    updatedAt: Instant)

  datatype LoanType = Given | Taken

  datatype LoanStatus = Pending | Repaid

  /** A loan points at its originating transaction and carries its own
      amount; the due date and the repayment date are optional. */
  datatype Loan = Loan(
    id: string,
    transactionId: string,
    userId: string,
    amount: real,
    kind: LoanType,
    status: LoanStatus,
    dueDate: Option<Instant>,
    repaidDate: Option<Instant>,
    createdAt: Instant)

  datatype CategoryKind = IncomeCategory | ExpenseCategory

  /** Categories created on the settings page carry a colour and no kind, so
      the kind is optional here. */
  datatype Category = Category(id: string, name: string, kind: Option<CategoryKind>, color: string)

  /** A financial user (a party transactions are attributed to), in the
      shape the users tab writes it. */
  datatype FinancialUser = FinancialUser(id: string, name: string, email: string, phone: string)

  datatype GoalStatus = Active | Completed | Paused

  datatype Goal = Goal(
    id: string,
    title: string,
    targetAmount: real,
    currentAmount: real,
    deadline: Instant,
    status: GoalStatus,
    createdAt: Instant)
}

=== FILE: user_header.dfy ===
/** The account menu of the page header (UserHeader.tsx). It is rendered
    only while a session exists, so its handlers act for the session's
    user: the password dialog checks the confirmation and the length before
    asking the account store to change the password, and the profile
    dialog patches the user's own name and email. The avatar shows
    `Text.Initials` of the session's username. */
module UserHeader {
  import opened Wrappers
  import opened Seqs
  import opened Types
  import opened Auth

  datatype PasswordForm = PasswordForm(currentPassword: string, newPassword: string, confirmPassword: string)

  datatype HeaderError =
    | NewPasswordsDiffer      // 'New passwords do not match'
    | NewPasswordTooShort     // 'New password must be at least 6 characters'
    | Failed(cause: AuthError)

  datatype HeaderOutcome<T> = HeaderOutcome(store: AuthStore, result: Result<T, HeaderError>)

  function Lift<T>(o: Outcome<T>): (r: HeaderOutcome<T>)
    ensures r.store == o.store
    ensures o.result.Ok? ==> r.result == Ok(o.result.value)
    ensures o.result.Err? ==> r.result == Err(Failed(o.result.error))
  {
    match o.result
    case Ok(v) => HeaderOutcome(o.store, Ok(v))
    case Err(e) => HeaderOutcome(o.store, Err(Failed(e)))
  }

  /** `handlePasswordSubmit`: the two form checks come first and leave the
      store alone; only a form that passes both reaches `changePassword`,
      for the session's own account. */
  function HandlePasswordSubmit(s: AuthStore, f: PasswordForm, now: Instant): (r: HeaderOutcome<()>)
    requires s.session.Some?
    ensures f.newPassword != f.confirmPassword ==> r == HeaderOutcome(s, Err(NewPasswordsDiffer))
    ensures f.newPassword == f.confirmPassword && |f.newPassword| < MinPasswordLength ==>
      r == HeaderOutcome(s, Err(NewPasswordTooShort))
    ensures r.result.Ok? || (r.result.Err? && r.result.error.Failed?) <==>
      f.newPassword == f.confirmPassword && |f.newPassword| >= MinPasswordLength
    ensures f.newPassword == f.confirmPassword && |f.newPassword| >= MinPasswordLength ==>
      r == Lift(ChangePassword(s, s.session.value.userId, f.currentPassword, f.newPassword, now))
  {
    if f.newPassword != f.confirmPassword then HeaderOutcome(s, Err(NewPasswordsDiffer))
    else if |f.newPassword| < MinPasswordLength then HeaderOutcome(s, Err(NewPasswordTooShort))
    else Lift(ChangePassword(s, s.session.value.userId, f.currentPassword, f.newPassword, now))
  }

  /** For one's own account the only remaining hurdles are an existing
      account and the right current password: then the change succeeds and
      afterwards exactly the new password verifies. */
  lemma OwnPasswordChange(s: AuthStore, f: PasswordForm, now: Instant, p: string)
    requires s.session.Some?
    requires f.newPassword == f.confirmPassword && |f.newPassword| >= MinPasswordLength
    requires var users := AllUsers(s, now);
      var k := FindIndex(users, WithId(s.session.value.userId));
      k.Some? && VerifyPassword(f.currentPassword, users[k.value].passwordHash)
    ensures HandlePasswordSubmit(s, f, now).result.Ok?
    ensures var users := AllUsers(s, now);
      var k := FindIndex(users, WithId(s.session.value.userId)).value;
      var after := HandlePasswordSubmit(s, f, now).store.users.value;
      k < |after| && (VerifyPassword(p, after[k].passwordHash) <==> p == f.newPassword)
  {
    ChangedPasswordVerifies(s, s.session.value.userId, f.currentPassword, f.newPassword, now, p);
  }

  /** `handleProfileSubmit`: the session's own account gets the typed name
      and email, and the session follows. */
  function HandleProfileSubmit(s: AuthStore, username: string, email: string, now: Instant)
    : (r: HeaderOutcome<AuthUser>)
    requires s.session.Some?
    ensures var k := FindIndex(AllUsers(s, now), WithId(s.session.value.userId));
      && (k.None? ==> r.result == Err(Failed(UserNotFound)))
      && (k.Some? ==>
            && r.result.Ok?
            && r.result == Ok(Patched(AllUsers(s, now)[k.value], ProfilePatch(Some(username), Some(email), None), now))
            && r.result.value.passwordHash == AllUsers(s, now)[k.value].passwordHash
            && r.result.value.createdAt == AllUsers(s, now)[k.value].createdAt
            && r.result.value.username == username && r.result.value.email == email
            && r.result.value.id == s.session.value.userId
            && r.result.value.role == AllUsers(s, now)[k.value].role
            && r.store.session == Some(s.session.value.(username := username, email := email)))
    ensures var users := AllUsers(s, now);
      var k := FindIndex(users, WithId(s.session.value.userId));
      && (k.None? ==> r.store == Seed(s, now))
      && (k.Some? ==> r.store.users == Some(users[k.value := r.result.value]))
  {
    Lift(UpdateProfile(s, s.session.value.userId, ProfilePatch(Some(username), Some(email), None), now))
  }
}

=== FILE: user_storage.dfy ===
/** Per-user local storage (lib/userStorage.ts): every section of a user's
    data lives under `<base key>_<user id>`, where the user id is the one
    passed in or, failing that, the session's. Local storage is a map from
    keys to JSON text; the JSON codec of a section is a parameter (`encode`,
    `decode`), and `decode` answers None where `JSON.parse` throws. */
module UserStorage {
  import opened Wrappers
  import opened Text
  import opened Seqs

  type Store = map<string, string>

  datatype StorageError =
    | NoAuthenticatedUser   // 'No authenticated user found'
    | AdminRequired         // 'Admin access required'
    | MalformedCounter      // JSON.parse of the voucher counter throws
    | MalformedFile         // JSON.parse of an imported file throws

  const TransactionsBase := "expense_tracker_transactions"
  const FinancialUsersBase := "expense_tracker_users"
  const CategoriesBase := "expense_tracker_categories"
  const LoansBase := "expense_tracker_loans"
  const GoalsBase := "expense_tracker_goals"
  const SettingsBase := "expense_tracker_settings"
  const CounterBase := "expense_tracker_voucher_counter"

  /** The six data sections; the voucher counter is the seventh key a user owns. */
  const SectionBases := {TransactionsBase, FinancialUsersBase, CategoriesBase, LoansBase, GoalsBase, SettingsBase}

  const UserBases := SectionBases + {CounterBase}

  // ---------------------------------------------------------------------------
  // Keys
  // ---------------------------------------------------------------------------

  /** `userId || session?.userId`: an empty id counts as missing. */
  function CurrentUser(userId: Option<string>, session: Option<string>): (r: Option<string>)
    ensures r.Some? ==> r.value != "" && (r == userId || r == session)
    ensures r.None? <==> (userId.None? || userId.value == "") && (session.None? || session.value == "")
    ensures userId.Some? && userId.value != "" ==> r == userId
  {
    if userId.Some? && userId.value != "" then userId
    else if session.Some? && session.value != "" then session
    else None
  }

  function KeyFor(base: string, user: string): string {
    base + "_" + user
  }

  /** `getUserStorageKey`. */
  function StorageKey(base: string, userId: Option<string>, session: Option<string>)
    : (r: Result<string, StorageError>)
    ensures r.Err? <==> CurrentUser(userId, session).None?
    ensures r.Err? ==> r.error == NoAuthenticatedUser
    ensures r.Ok? ==> exists u :: u != "" && r.value == KeyFor(base, u) && CurrentUser(userId, session) == Some(u)
  {
    match CurrentUser(userId, session)
    case None => Err(NoAuthenticatedUser)
    case Some(u) => Ok(KeyFor(base, u))
  }

  /** The seven bases differ in the character after `expense_tracker_`. */
  function Tag(base: string): char
    requires |base| > 16
  {
    base[16]
  }

  lemma TagsDiffer(a: string, b: string)
    requires a in UserBases && b in UserBases
    ensures |a| > 16 && |b| > 16
    ensures Tag(a) == Tag(b) ==> a == b
  {
    assert Tag(TransactionsBase) == 't' && Tag(FinancialUsersBase) == 'u';
    assert Tag(CategoriesBase) == 'c' && Tag(LoansBase) == 'l';
    assert Tag(GoalsBase) == 'g' && Tag(SettingsBase) == 's' && Tag(CounterBase) == 'v';
  }

  /** A key names its base and its user: no two (base, user) pairs share a
      key, so no section of any user can overwrite another. */
  lemma KeyDeterminesOwner(a: string, u: string, b: string, v: string)
    requires a in UserBases && b in UserBases
    requires KeyFor(a, u) == KeyFor(b, v)
    ensures a == b && u == v
  {
    TagsDiffer(a, b);
    assert KeyFor(a, u)[16] == Tag(a);
    assert KeyFor(b, v)[16] == Tag(b);
    assert u == KeyFor(a, u)[|a| + 1..];
    assert v == KeyFor(b, v)[|b| + 1..];
  }

  // ---------------------------------------------------------------------------
  // Reading and saving a section
  // ---------------------------------------------------------------------------

  /** What `localStorage.getItem(key)` holds, when it is truthy. */
  function Item(store: Store, key: string): Option<string> {
    if key in store && store[key] != "" then Some(store[key]) else None
  }

  /** `getUserData`: the decoded item, or the default when there is no
      user, no (or an empty) item, or the item does not parse. */
  function GetUserData<T>(store: Store, base: string, default: T, userId: Option<string>,
                          session: Option<string>, decode: string -> Option<T>): (r: T)
    ensures StorageKey(base, userId, session).Err? ==> r == default
    ensures StorageKey(base, userId, session).Ok? ==>
      var key := StorageKey(base, userId, session).value;
      r == if key in store && store[key] != "" && decode(store[key]).Some? then decode(store[key]).value
           else default
  {
    match StorageKey(base, userId, session)
    case Err(_) => default
    case Ok(key) =>
      match Item(store, key)
      case None => default
      case Some(text) => decode(text).GetOr(default)
  }

  /** `saveUserData`: without a user the error is swallowed and nothing is
      written. */
  function SaveUserData<T>(store: Store, base: string, data: T, userId: Option<string>,
                           session: Option<string>, encode: T -> string): (r: Store)
    ensures StorageKey(base, userId, session).Err? ==> r == store
    ensures StorageKey(base, userId, session).Ok? ==>
      var key := StorageKey(base, userId, session).value;
      key in r && r[key] == encode(data)
      && r.Keys == store.Keys + {key}
      && forall k :: k in store && k != key ==> r[k] == store[k]
  {
    match StorageKey(base, userId, session)
    case Err(_) => store
    case Ok(key) => store[key := encode(data)]
  }

  /** Saving then reading a section gives back what was saved, whenever the
      codec round-trips and the serialised text is non-empty (as
      `JSON.stringify` of an array or object always is). */
  lemma SaveThenGet<T>(store: Store, base: string, data: T, default: T, userId: Option<string>,
                       session: Option<string>, encode: T -> string, decode: string -> Option<T>)
    requires CurrentUser(userId, session).Some?
    requires encode(data) != "" && decode(encode(data)) == Some(data)
    ensures GetUserData(SaveUserData(store, base, data, userId, session, encode), base, default, userId, session, decode)
         == data
  {
  }

  /** Saving one section leaves every other section of every user as it
      was. */
  lemma SaveKeepsOtherSections<T, U>(store: Store, base: string, data: T, userId: Option<string>,
                                     session: Option<string>, encode: T -> string,
                                     other: string, user: string, default: U, decode: string -> Option<U>)
    requires base in UserBases && other in UserBases
    requires user != "" && (other != base || Some(user) != CurrentUser(userId, session))
    ensures GetUserData(SaveUserData(store, base, data, userId, session, encode), other, default, Some(user), session, decode)
         == GetUserData(store, other, default, Some(user), session, decode)
  {
    var saved := SaveUserData(store, base, data, userId, session, encode);
    if CurrentUser(userId, session).Some? {
      var u := CurrentUser(userId, session).value;
      if KeyFor(other, user) == KeyFor(base, u) {
        KeyDeterminesOwner(other, user, base, u);
      }
      assert Item(saved, KeyFor(other, user)) == Item(store, KeyFor(other, user));
    }
  }

  // ---------------------------------------------------------------------------
  // Voucher ids
  // ---------------------------------------------------------------------------

  /** The counter object `JSON.parse(localStorage.getItem(counterKey) || '{}')`:
      an absent or empty item is the empty object. */
  function Counters(store: Store, key: string, parseCounter: string -> Option<map<string, nat>>)
    : (r: Option<map<string, nat>>)
    ensures Item(store, key).None? ==> r == Some(map[])
    ensures Item(store, key).Some? ==> r == parseCounter(Item(store, key).value)
  {
    match Item(store, key)
    case None => Some(map[])
    case Some(text) => parseCounter(text)
  }

  /** `counter[dateStr] || 0`. */
  function CountOn(counts: map<string, nat>, date: string): nat {
    if date in counts then counts[date] else 0
  }

  function VoucherText(date: string, serial: nat): string {
    date + "-" + PadStart(Decimal(serial), 4, '0')
  }

  /** `generateUserVoucherId`, with the ISO date `YYYYMMDD` and the counter
      codec as parameters: the day's counter goes up by one and the id is
      the date, a dash and the new count padded to four digits. */
  function VoucherId(store: Store, userId: Option<string>, session: Option<string>, date: string,
                     parseCounter: string -> Option<map<string, nat>>, encodeCounter: map<string, nat> -> string)
    : (r: Result<(Store, string), StorageError>)
    ensures CurrentUser(userId, session).None? ==> r == Err(NoAuthenticatedUser)
    ensures CurrentUser(userId, session).Some? &&
            Counters(store, KeyFor(CounterBase, CurrentUser(userId, session).value), parseCounter).None?
            ==> r == Err(MalformedCounter)
    ensures r.Ok? <==> CurrentUser(userId, session).Some? &&
                       Counters(store, KeyFor(CounterBase, CurrentUser(userId, session).value), parseCounter).Some?
    ensures r.Ok? ==>
      var key := KeyFor(CounterBase, CurrentUser(userId, session).value);
      var counts := Counters(store, key, parseCounter).value;
      var serial := CountOn(counts, date) + 1;
      && r.value.0.Keys == store.Keys + {key}
      && r.value.0[key] == encodeCounter(counts[date := serial])
      && (forall k :: k in store && k != key ==> r.value.0[k] == store[k])
      && r.value.1 == VoucherText(date, serial)
  {
    match CurrentUser(userId, session)
    case None => Err(NoAuthenticatedUser)
    case Some(u) =>
      var key := KeyFor(CounterBase, u);
      match Counters(store, key, parseCounter)
      case None => Err(MalformedCounter)
      case Some(counts) =>
        var serial := CountOn(counts, date) + 1;
        var text := encodeCounter(counts[date := serial]);
        StorePut(store, key, text);
        Ok((store[key := text], VoucherText(date, serial)))
  }

  /** Writing one key adds it and leaves every other key as it was. */
  lemma StorePut(store: Store, key: string, text: string)
    ensures store[key := text].Keys == store.Keys + {key}
    ensures store[key := text][key] == text
    ensures forall k :: k in store && k != key ==> store[key := text][k] == store[k]
  {
  }

  /** A voucher id reads back as its date and its serial. */
  lemma VoucherTextReadsBack(date: string, serial: nat)
    ensures |VoucherText(date, serial)| >= |date| + 5
    ensures VoucherText(date, serial)[..|date|] == date && VoucherText(date, serial)[|date|] == '-'
    ensures AllDigits(VoucherText(date, serial)[|date| + 1..])
    ensures ParseDecimal(VoucherText(date, serial)[|date| + 1..]) == serial
  {
    var p := PadStart(Decimal(serial), 4, '0');
    PaddedDecimalRoundTrip(serial, 4);
    SplitAtDash(date, p);
  }

  lemma SplitAtDash(date: string, p: string)
    ensures |date + "-" + p| == |date| + 1 + |p|
    ensures (date + "-" + p)[..|date|] == date && (date + "-" + p)[|date|] == '-'
    ensures (date + "-" + p)[|date| + 1..] == p
  {
  }

  /** Distinct serials of one day give distinct ids. */
  lemma VoucherTextInjective(date: string, m: nat, n: nat)
    requires m != n
    ensures VoucherText(date, m) != VoucherText(date, n)
  {
    VoucherTextReadsBack(date, m);
    VoucherTextReadsBack(date, n);
  }

  /** Two vouchers drawn on the same day for the same user differ, when the
      counter codec round-trips: the second call sees the first's count. */
  lemma SameDayVouchersDiffer(store: Store, userId: Option<string>, session: Option<string>, date: string,
                              parseCounter: string -> Option<map<string, nat>>,
                              encodeCounter: map<string, nat> -> string)
    requires forall m :: parseCounter(encodeCounter(m)) == Some(m)
    requires forall m :: encodeCounter(m) != ""
    requires VoucherId(store, userId, session, date, parseCounter, encodeCounter).Ok?
    ensures
      var first := VoucherId(store, userId, session, date, parseCounter, encodeCounter).value;
      var second := VoucherId(first.0, userId, session, date, parseCounter, encodeCounter);
      second.Ok? && second.value.1 != first.1
  {
    var u := CurrentUser(userId, session).value;
    var key := KeyFor(CounterBase, u);
    var counts := Counters(store, key, parseCounter).value;
    var n := CountOn(counts, date) + 1;
    var first := VoucherId(store, userId, session, date, parseCounter, encodeCounter).value;
    assert Item(first.0, key) == Some(encodeCounter(counts[date := n]));
    assert Counters(first.0, key, parseCounter) == Some(counts[date := n]);
    assert CountOn(counts[date := n], date) + 1 == n + 1;
    VoucherTextInjective(date, n, n + 1);
  }

  // ---------------------------------------------------------------------------
  // Reset and import
  // ---------------------------------------------------------------------------

  function UserKeys(user: string): set<string> {
    set b | b in UserBases :: KeyFor(b, user)
  }

  /** `resetUserData`: exactly the user's seven keys are removed. */
  function ResetUserData(store: Store, userId: Option<string>, session: Option<string>)
    : (r: Result<Store, StorageError>)
    ensures r.Err? <==> CurrentUser(userId, session).None?
    ensures r.Err? ==> r.error == NoAuthenticatedUser
    ensures r.Ok? ==>
      var user := CurrentUser(userId, session).value;
      && (forall b :: b in UserBases ==> KeyFor(b, user) !in r.value)
      && (forall k :: k in store && k !in UserKeys(user) ==> k in r.value && r.value[k] == store[k])
      && r.value.Keys <= store.Keys
  {
    match CurrentUser(userId, session)
    case None => Err(NoAuthenticatedUser)
    case Some(u) => Ok(store - UserKeys(u))
  }

  /** After a reset every section of the user reads as its default. */
  lemma ResetRestoresDefaults<T>(store: Store, userId: Option<string>, session: Option<string>, base: string,
                                 default: T, decode: string -> Option<T>)
    requires CurrentUser(userId, session).Some? && base in UserBases
    ensures GetUserData(ResetUserData(store, userId, session).value, base, default, userId, session, decode) == default
  {
    var u := CurrentUser(userId, session).value;
    assert KeyFor(base, u) in UserKeys(u);
  }

  /** After a reset the user's voucher numbering starts again at 1. */
  lemma ResetRestartsVouchers(store: Store, userId: Option<string>, session: Option<string>, date: string,
                              parseCounter: string -> Option<map<string, nat>>,
                              encodeCounter: map<string, nat> -> string)
    requires CurrentUser(userId, session).Some?
    ensures
      var v := VoucherId(ResetUserData(store, userId, session).value, userId, session, date, parseCounter, encodeCounter);
      v.Ok? && v.value.1 == VoucherText(date, 1)
  {
    var u := CurrentUser(userId, session).value;
    var key := KeyFor(CounterBase, u);
    var reset := ResetUserData(store, userId, session).value;
    OwnsKey(CounterBase, u);
    FreshCounterStartsAtOne(reset, userId, session, date, parseCounter, encodeCounter);
  }

  /** Without a stored counter the first voucher of any day is number 1. */
  lemma FreshCounterStartsAtOne(store: Store, userId: Option<string>, session: Option<string>, date: string,
                                parseCounter: string -> Option<map<string, nat>>,
                                encodeCounter: map<string, nat> -> string)
    requires CurrentUser(userId, session).Some?
    requires KeyFor(CounterBase, CurrentUser(userId, session).value) !in store
    ensures
      var v := VoucherId(store, userId, session, date, parseCounter, encodeCounter);
      v.Ok? && v.value.1 == VoucherText(date, 1)
  {
    var key := KeyFor(CounterBase, CurrentUser(userId, session).value);
    var none: map<string, nat> := map[];
    assert Counters(store, key, parseCounter) == Some(none);
    var v := VoucherId(store, userId, session, date, parseCounter, encodeCounter);
    assert v.Ok?;
    var serial := CountOn(none, date) + 1;
    assert v.value.1 == VoucherText(date, serial);
    SameSerial(date, serial, 1);
  }

  lemma SameSerial(date: string, m: nat, n: nat)
    requires m == n
    ensures VoucherText(date, m) == VoucherText(date, n)
  {
  }

  lemma OwnsKey(base: string, user: string)
    requires base in UserBases
    ensures KeyFor(base, user) in UserKeys(user)
  {
  }

  /** The truthy sections of an imported backup, each as its JSON text. */
  datatype Backup = Backup(
    transactions: Option<string>,
    financialUsers: Option<string>,
    categories: Option<string>,
    loans: Option<string>,
    goals: Option<string>,
    settings: Option<string>)

  function Section(b: Backup, base: string): Option<string> {
    if base == TransactionsBase then b.transactions
    else if base == FinancialUsersBase then b.financialUsers
    else if base == CategoriesBase then b.categories
    else if base == LoansBase then b.loans
    else if base == GoalsBase then b.goals
    else if base == SettingsBase then b.settings
    else None
  }

  function SaveText(store: Store, base: string, text: Option<string>, userId: Option<string>, session: Option<string>)
    : Store
  {
    match text
    case None => store
    case Some(t) => SaveUserData(store, base, t, userId, session, (s: string) => s)
  }

  /** The sections in the order the import saves them. */
  const ImportOrder := [TransactionsBase, FinancialUsersBase, CategoriesBase, LoansBase, GoalsBase, SettingsBase]

  /** Saves, one after the other, the sections of `b` named by `bases`. */
  function SaveSections(store: Store, b: Backup, bases: seq<string>, userId: Option<string>, session: Option<string>)
    : Store
    decreases |bases|
  {
    if |bases| == 0 then store
    else SaveSections(SaveText(store, bases[0], Section(b, bases[0]), userId, session), b, bases[1..], userId, session)
  }

  /** `importUserData`: a file that does not parse is rejected and nothing
      is written; otherwise each present section is saved, in the order of
      the source, and without a user every save is swallowed. */
  function ImportUserData(store: Store, file: Option<Backup>, userId: Option<string>, session: Option<string>)
    : (r: Result<Store, StorageError>)
    ensures file.None? <==> r == Err(MalformedFile)
  {
    match file
    case None => Err(MalformedFile)
    case Some(b) => Ok(SaveSections(store, b, ImportOrder, userId, session))
  }

  /** Key `k` holds the same thing in both stores. */
  predicate Agrees(s: Store, t: Store, k: string) {
    (k in s <==> k in t) && (k in t ==> s[k] == t[k])
  }

  /** One save leaves every key but its own alone, and holds its text there. */
  lemma SaveTextEffect(store: Store, base: string, text: Option<string>, user: string,
                       userId: Option<string>, session: Option<string>, k: string)
    requires CurrentUser(userId, session) == Some(user)
    ensures k != KeyFor(base, user) || text.None? ==> Agrees(SaveText(store, base, text, userId, session), store, k)
    ensures k == KeyFor(base, user) && text.Some? ==>
      k in SaveText(store, base, text, userId, session) && SaveText(store, base, text, userId, session)[k] == text.value
  {
  }

  /** Without a user every save is swallowed. */
  lemma {:induction false} SaveSectionsWithoutUser(store: Store, b: Backup, bases: seq<string>,
                                                   userId: Option<string>, session: Option<string>)
    requires CurrentUser(userId, session).None?
    ensures SaveSections(store, b, bases, userId, session) == store
    decreases |bases|
  {
    if |bases| > 0 {
      SaveSectionsWithoutUser(store, b, bases[1..], userId, session);
    }
  }

  /** The user's key for a section ends up holding the section's text when
      the backup carries it, and is as it was otherwise. */
  lemma {:induction false} SaveSectionsEffect(store: Store, b: Backup, bases: seq<string>, user: string,
                                              userId: Option<string>, session: Option<string>, base: string)
    requires CurrentUser(userId, session) == Some(user)
    requires base in UserBases && forall i :: 0 <= i < |bases| ==> bases[i] in UserBases
    ensures
      var r := SaveSections(store, b, bases, userId, session);
      var k := KeyFor(base, user);
      && (base in bases && Section(b, base).Some? ==> k in r && r[k] == Section(b, base).value)
      && (base !in bases || Section(b, base).None? ==> Agrees(r, store, k))
    decreases |bases|
  {
    if |bases| > 0 {
      var k := KeyFor(base, user);
      var next := SaveText(store, bases[0], Section(b, bases[0]), userId, session);
      SaveSectionsEffect(next, b, bases[1..], user, userId, session, base);
      SaveTextEffect(store, bases[0], Section(b, bases[0]), user, userId, session, k);
      if k == KeyFor(bases[0], user) {
        KeyDeterminesOwner(base, user, bases[0], user);
      }
      assert base in bases <==> base == bases[0] || base in bases[1..];
    }
  }

  /** A key that is none of the user's section keys is untouched. */
  lemma {:induction false} SaveSectionsKeepOthers(store: Store, b: Backup, bases: seq<string>, user: string,
                                                  userId: Option<string>, session: Option<string>, k: string)
    requires CurrentUser(userId, session) == Some(user)
    requires forall i :: 0 <= i < |bases| ==> k != KeyFor(bases[i], user)
    ensures Agrees(SaveSections(store, b, bases, userId, session), store, k)
    decreases |bases|
  {
    if |bases| > 0 {
      var next := SaveText(store, bases[0], Section(b, bases[0]), userId, session);
      SaveSectionsKeepOthers(next, b, bases[1..], user, userId, session, k);
      SaveTextEffect(store, bases[0], Section(b, bases[0]), user, userId, session, k);
    }
  }

  /** After an import, each section the backup carries is stored under the
      user's key, each it lacks is as it was, no other key changes, and
      without a user nothing is written. */
  lemma ImportEffect(store: Store, b: Backup, userId: Option<string>, session: Option<string>, base: string, k: string)
    requires base in SectionBases
    ensures CurrentUser(userId, session).None? ==> ImportUserData(store, Some(b), userId, session) == Ok(store)
    ensures CurrentUser(userId, session).Some? ==>
      var r := ImportUserData(store, Some(b), userId, session).value;
      var user := CurrentUser(userId, session).value;
      && (Section(b, base).Some? ==> KeyFor(base, user) in r && r[KeyFor(base, user)] == Section(b, base).value)
      && (Section(b, base).None? ==> Agrees(r, store, KeyFor(base, user)))
      && ((forall c :: c in SectionBases ==> k != KeyFor(c, user)) ==> Agrees(r, store, k))
  {
    if CurrentUser(userId, session).None? {
      SaveSectionsWithoutUser(store, b, ImportOrder, userId, session);
    } else {
      var user := CurrentUser(userId, session).value;
      assert base in ImportOrder;
      SaveSectionsEffect(store, b, ImportOrder, user, userId, session, base);
      if forall c :: c in SectionBases ==> k != KeyFor(c, user) {
        SaveSectionsKeepOthers(store, b, ImportOrder, user, userId, session, k);
      }
    }
  }

  // ---------------------------------------------------------------------------
  // Every user's transactions (administrators only)
  // ---------------------------------------------------------------------------

  const TransactionsPrefix := TransactionsBase + "_"

  predicate HasPrefix(s: string, prefix: string) {
    |prefix| <= |s| && s[..|prefix|] == prefix
  }

  function IsTransactionsKey(): string -> bool {
    (k: string) => HasPrefix(k, TransactionsPrefix)
  }

  datatype UserTransactions<T> = UserTransactions(userId: string, transactions: T)

  /** The entry for one transactions key: the id is the key without the
      prefix, and the read goes through `getUserTransactions`, so an empty
      id falls back to the session's user. */
  function EntryFor<T>(store: Store, key: string, session: Option<string>, decode: string -> Option<T>, empty: T)
    : (r: UserTransactions<T>)
    requires HasPrefix(key, TransactionsPrefix)
    ensures KeyFor(TransactionsBase, r.userId) == key
  {
    var id := key[|TransactionsPrefix|..];
    assert key == key[..|TransactionsPrefix|] + id;
    UserTransactions(id, GetUserData(store, TransactionsBase, empty, Some(id), session, decode))
  }

  /** The entries for the transactions keys among `keys`, in key order. */
  function Collect<T>(store: Store, keys: seq<string>, session: Option<string>,
                      decode: string -> Option<T>, empty: T): seq<UserTransactions<T>>
    decreases |keys|
  {
    if |keys| == 0 then []
    else
      var key := keys[|keys| - 1];
      Collect(store, keys[..|keys| - 1], session, decode, empty)
        + (if HasPrefix(key, TransactionsPrefix) then [EntryFor(store, key, session, decode, empty)] else [])
  }

  /** Filtering one more key appends it exactly when it is a transactions key. */
  lemma TransactionKeysSnoc(keys: seq<string>)
    requires |keys| > 0
    ensures Filter(keys, IsTransactionsKey())
         == Filter(keys[..|keys| - 1], IsTransactionsKey())
            + (if HasPrefix(keys[|keys| - 1], TransactionsPrefix) then [keys[|keys| - 1]] else [])
  {
    var key := keys[|keys| - 1];
    FilterConcat(keys[..|keys| - 1], [key], IsTransactionsKey());
    assert keys == keys[..|keys| - 1] + [key];
    FilterCons([key], IsTransactionsKey());
    assert [key][1..] == [];
  }

  /** Entry i of the collection belongs to the i-th transactions key. */
  lemma {:induction false} CollectMatchesKeys<T>(store: Store, keys: seq<string>, session: Option<string>,
                                                 decode: string -> Option<T>, empty: T)
    ensures var found := Filter(keys, IsTransactionsKey());
      var r := Collect(store, keys, session, decode, empty);
      && |r| == |found|
      && forall i :: 0 <= i < |found| ==>
           HasPrefix(found[i], TransactionsPrefix) && r[i] == EntryFor(store, found[i], session, decode, empty)
    decreases |keys|
  {
    if |keys| > 0 {
      var front := keys[..|keys| - 1];
      var key := keys[|keys| - 1];
      CollectMatchesKeys(store, front, session, decode, empty);
      TransactionKeysSnoc(keys);
    }
  }

  /** `getAllUsersTransactions`, walking the storage keys in the order
      `localStorage.key(i)` lists them: non-administrators are refused;
      otherwise each transactions key yields one entry, in key order. */
  method AllUsersTransactions<T>(store: Store, keys: seq<string>, admin: bool, session: Option<string>,
                                 decode: string -> Option<T>, empty: T)
    returns (r: Result<seq<UserTransactions<T>>, StorageError>)
    ensures !admin <==> r == Err(AdminRequired)
    ensures r.Ok? ==>
      var found := Filter(keys, IsTransactionsKey());
      && |r.value| == |found|
      && forall i :: 0 <= i < |found| ==>
           KeyFor(TransactionsBase, r.value[i].userId) == found[i]
           && r.value[i] == EntryFor(store, found[i], session, decode, empty)
  {
    if !admin {
      return Err(AdminRequired);
    }
    var result: seq<UserTransactions<T>> := [];
    var i := 0;
    while i < |keys|
      invariant 0 <= i <= |keys|
      invariant result == Collect(store, keys[..i], session, decode, empty)
    {
      var key := keys[i];
      assert keys[..i + 1][..i] == keys[..i];
      if HasPrefix(key, TransactionsPrefix) {
        result := result + [EntryFor(store, key, session, decode, empty)];
      }
      i := i + 1;
    }
    assert keys[..|keys|] == keys;
    CollectMatchesKeys(store, keys, session, decode, empty);
    return Ok(result);
  }
}

=== FILE: users_tab.dfy ===
/** The users tab (UsersTab.tsx): the financial users transactions are
    attributed to (add, edit, delete when unreferenced, per-user count and
    total) and, for administrators, the account users kept by the account
    store (create after form validation, delete). */
module UsersTab {
  import opened Wrappers
  import opened Text
  import opened Seqs
  import opened Types
  import opened Ledger
  import Auth

  // ---------------------------------------------------------------------------
  // Financial users
  // ---------------------------------------------------------------------------

  datatype UserForm = UserForm(name: string, email: string, phone: string)

  datatype UsersError =
    | NameRequired          // 'Name is required'
    | UserHasTransactions   // 'Cannot delete financial user with existing transactions'

  /** `{ ...user, ...form }`: the form's three fields replace the user's;
      the id stays. */
  function Merged(u: FinancialUser, form: UserForm): (r: FinancialUser)
    ensures r.id == u.id && r.name == form.name && r.email == form.email && r.phone == form.phone
  {
    FinancialUser(u.id, form.name, form.email, form.phone)
  }

  function MergeById(users: seq<FinancialUser>, id: string, form: UserForm): (r: seq<FinancialUser>)
    ensures |r| == |users|
    ensures forall i :: 0 <= i < |users| ==> r[i] == if users[i].id == id then Merged(users[i], form) else users[i]
  {
    if |users| == 0 then []
    else [if users[0].id == id then Merged(users[0], form) else users[0]] + MergeById(users[1..], id, form)
  }

  /** A name that trims to nothing is refused; an edit changes only the
      users with the edited id (the name is stored as typed); an addition
      appends one user at the end. */
  function SubmitUser(users: seq<FinancialUser>, form: UserForm, editing: Option<FinancialUser>, newId: string)
    : (r: Result<seq<FinancialUser>, UsersError>)
    ensures IsBlank(form.name) <==> r == Err(NameRequired)
    ensures r.Ok? && editing.Some? ==>
      && |r.value| == |users|
      && (forall i :: 0 <= i < |users| && users[i].id != editing.value.id ==> r.value[i] == users[i])
      && (forall i :: 0 <= i < |users| && users[i].id == editing.value.id ==>
            r.value[i].id == users[i].id && r.value[i].name == form.name
            && r.value[i].email == form.email && r.value[i].phone == form.phone)
    ensures r.Ok? && editing.None? ==>
      r.value == users + [FinancialUser(newId, form.name, form.email, form.phone)]
  {
    if IsBlank(form.name) then Err(NameRequired)
    else if editing.Some? then Ok(MergeById(users, editing.value.id, form))
    else Ok(users + [FinancialUser(newId, form.name, form.email, form.phone)])
  }

  function OfUser(userId: string): Transaction -> bool {
    (t: Transaction) => t.userId == userId
  }

  function NotUser(userId: string): FinancialUser -> bool {
    (u: FinancialUser) => u.id != userId
  }

  /** `getFinancialUserTransactionCount`: the number of positions of the
      list holding one of the user's transactions. */
  function TransactionCount(txs: seq<Transaction>, userId: string): (r: nat)
    ensures r == |set i | 0 <= i < |txs| && txs[i].userId == userId|
    ensures r <= |txs|
  {
    CountOfUser(txs, userId);
    |Filter(txs, OfUser(userId))|
  }

  lemma CountOfUser(txs: seq<Transaction>, userId: string)
    ensures |Filter(txs, OfUser(userId))| == |set i | 0 <= i < |txs| && txs[i].userId == userId|
  {
    FilterCount(txs, OfUser(userId));
    assert Positions(txs, OfUser(userId)) == set i | 0 <= i < |txs| && txs[i].userId == userId;
  }

  /** A user some transaction refers to is kept and the deletion refused;
      otherwise exactly the users with that id are removed, the others
      keeping their order. */
  function DeleteUser(users: seq<FinancialUser>, txs: seq<Transaction>, userId: string)
    : (r: Result<seq<FinancialUser>, UsersError>)
    ensures (exists i :: 0 <= i < |txs| && txs[i].userId == userId) <==> r == Err(UserHasTransactions)
    ensures r.Ok? ==>
      && Subsequence(r.value, users)
      && (forall i :: 0 <= i < |r.value| ==> r.value[i].id != userId)
      && (forall i :: 0 <= i < |users| && users[i].id != userId ==> users[i] in r.value)
      && (forall u :: multiset(r.value)[u] == if u.id != userId then multiset(users)[u] else 0)
  {
    FilterMultiset(users, NotUser(userId));
    if Find(txs, OfUser(userId)).Some? then Err(UserHasTransactions)
    else Ok(Filter(users, NotUser(userId)))
  }

  /** The deletion is refused exactly for the users whose transaction count
      the tab shows as non-zero. */
  lemma DeleteRefusedIffCounted(users: seq<FinancialUser>, txs: seq<Transaction>, userId: string)
    ensures DeleteUser(users, txs, userId).Err? <==> TransactionCount(txs, userId) > 0
  {
    FilterEmpty(txs, OfUser(userId));
  }

  /** The users tab's sign rule: income adds, every other type subtracts. */
  function UserSign(k: TxType): real {
    if k == Income then 1.0 else -1.0
  }

  function UserSignedSum(txs: seq<Transaction>): real {
    if |txs| == 0 then 0.0 else UserSign(txs[0].kind) * txs[0].amount + UserSignedSum(txs[1..])
  }

  /** The user's signed total in one pass over the whole list: a
      transaction of another user counts for nothing. */
  function SignedTotalOf(txs: seq<Transaction>, userId: string): real {
    if |txs| == 0 then 0.0
    else (if txs[0].userId == userId then UserSign(txs[0].kind) * txs[0].amount else 0.0)
         + SignedTotalOf(txs[1..], userId)
  }

  /** `getFinancialUserTransactionTotal`: the user's incomes minus all the
      user's other transactions. */
  function TransactionTotal(txs: seq<Transaction>, userId: string): (r: real)
    ensures r == SignedTotalOf(txs, userId)
  {
    FilteredSignedSum(txs, userId);
    UserSignedSum(Filter(txs, OfUser(userId)))
  }

  lemma {:induction false} FilteredSignedSum(txs: seq<Transaction>, userId: string)
    ensures UserSignedSum(Filter(txs, OfUser(userId))) == SignedTotalOf(txs, userId)
  {
    if |txs| > 0 {
      FilteredSignedSum(txs[1..], userId);
      FilterCons(txs, OfUser(userId));
    }
  }

  lemma {:induction false} UserSignedSumByKind(txs: seq<Transaction>)
    ensures UserSignedSum(txs) == Balance(txs) - KindTotal(txs, LoanGiven) - KindTotal(txs, LoanTaken)
  {
    if |txs| > 0 {
      UserSignedSumByKind(txs[1..]);
    }
  }

  /** Unlike the dashboard's balance, a user's total counts loan-tagged
      transactions as outgoing: it is the user's ledger balance minus both
      loan-tag totals. */
  lemma TotalCountsLoansAsOutgoing(txs: seq<Transaction>, userId: string)
    ensures var mine := Filter(txs, OfUser(userId));
      TransactionTotal(txs, userId) == Balance(mine) - KindTotal(mine, LoanGiven) - KindTotal(mine, LoanTaken)
  {
    UserSignedSumByKind(Filter(txs, OfUser(userId)));
  }

  // ---------------------------------------------------------------------------
  // Account users
  // ---------------------------------------------------------------------------

  datatype AccountForm = AccountForm(
    username: string,
    email: string,
    password: string,
    confirmPassword: string,
    role: Auth.Role)

  datatype AccountError =
    | AdminRequired      // 'Admin privileges required'
    | UsernameRequired   // 'Username is required'
    | EmailRequired      // 'Email is required'
    | PasswordRequired   // 'Password is required'
    | PasswordsDiffer    // 'Passwords do not match'
    | PasswordTooShort   // 'Password must be at least 6 characters'
    | CannotDeleteSelf   // 'Cannot delete your own account'
    | DeleteFailed       // 'Failed to delete user account'
    | Rejected(error: Auth.AuthError)

  /** The checks before an account is created, first failure wins. */
  function ValidateAccount(isAdmin: bool, form: AccountForm): (r: Option<AccountError>)
    ensures !isAdmin ==> r == Some(AdminRequired)
    ensures isAdmin && IsBlank(form.username) ==> r == Some(UsernameRequired)
    ensures isAdmin && !IsBlank(form.username) && IsBlank(form.email) ==> r == Some(EmailRequired)
    ensures isAdmin && !IsBlank(form.username) && !IsBlank(form.email) && IsBlank(form.password) ==>
      r == Some(PasswordRequired)
    ensures (isAdmin && !IsBlank(form.username) && !IsBlank(form.email) && !IsBlank(form.password)
             && form.password != form.confirmPassword) ==> r == Some(PasswordsDiffer)
    ensures r.None? <==>
      && isAdmin && !IsBlank(form.username) && !IsBlank(form.email) && !IsBlank(form.password)
      && form.password == form.confirmPassword && |form.password| >= Auth.MinPasswordLength
  {
    if !isAdmin then Some(AdminRequired)
    else if IsBlank(form.username) then Some(UsernameRequired)
    else if IsBlank(form.email) then Some(EmailRequired)
    else if IsBlank(form.password) then Some(PasswordRequired)
    else if form.password != form.confirmPassword then Some(PasswordsDiffer)
    else if |form.password| < Auth.MinPasswordLength then Some(PasswordTooShort)
    else None
  }

  /** `handleAccountUserSubmit`: a form that fails validation leaves the
      store as it is; a valid one is registered with the chosen role. */
  function CreateAccount(s: Auth.AuthStore, form: AccountForm, id: string, now: Instant)
    : (r: (Auth.AuthStore, Result<Auth.AuthUser, AccountError>))
    ensures ValidateAccount(Auth.IsAdmin(s), form).Some? ==>
      r == (s, Err(ValidateAccount(Auth.IsAdmin(s), form).value))
    ensures r.1.Ok? ==>
      && Auth.IsAdmin(s) && |form.password| >= Auth.MinPasswordLength
      && r.1.value.username == form.username && r.1.value.role == form.role
      && r.0.users == Some(Auth.AllUsers(s, now) + [r.1.value])
    ensures ValidateAccount(Auth.IsAdmin(s), form).None? ==>
      (r.1.Ok? <==> !Auth.UsernameTakenIn(Auth.AllUsers(s, now), form.username)
                    && !Auth.EmailTakenIn(Auth.AllUsers(s, now), form.email))
    ensures ValidateAccount(Auth.IsAdmin(s), form).None? && Auth.UsernameTakenIn(Auth.AllUsers(s, now), form.username) ==>
      r == (Auth.Seed(s, now), Err(Rejected(Auth.UsernameTaken)))
    ensures ValidateAccount(Auth.IsAdmin(s), form).None? && !Auth.UsernameTakenIn(Auth.AllUsers(s, now), form.username)
            && Auth.EmailTakenIn(Auth.AllUsers(s, now), form.email) ==>
      r == (Auth.Seed(s, now), Err(Rejected(Auth.EmailTaken)))
    ensures r.1.Ok? ==> r.1.value.id == id && Auth.VerifyPassword(form.password, r.1.value.passwordHash)
  {
    var invalid := ValidateAccount(Auth.IsAdmin(s), form);
    if invalid.Some? then (s, Err(invalid.value))
    else
      var out := Auth.Register(s, form.username, form.email, form.password, form.role, id, now);
      if out.result.Ok? then (out.store, Ok(out.result.value))
      else (out.store, Err(Rejected(out.result.error)))
  }

  /** `handleDeleteAccountUser`: non-administrators and callers deleting
      themselves are refused with nothing changed; without confirmation
      nothing happens; otherwise the account store deletes the account. */
  function DeleteAccount(s: Auth.AuthStore, userId: string, confirmed: bool, now: Instant)
    : (r: (Auth.AuthStore, Option<AccountError>))
    ensures !Auth.IsAdmin(s) ==> r == (s, Some(AdminRequired))
    ensures Auth.IsAdmin(s) && userId == s.session.value.userId ==> r == (s, Some(CannotDeleteSelf))
    ensures !confirmed ==> r.0 == s
    ensures r.0 != s ==>
      && Auth.IsAdmin(s) && userId != s.session.value.userId && confirmed && r.1.None?
      && r.0.users.Some?
      && (forall i :: 0 <= i < |r.0.users.value| ==> r.0.users.value[i].id != userId)
    ensures Auth.IsAdmin(s) && userId != s.session.value.userId && confirmed ==>
      && r.1.None? && r.0.session == s.session && r.0.users.Some?
      && (forall u :: multiset(r.0.users.value)[u] == if u.id != userId then multiset(Auth.AllUsers(s, now))[u] else 0)
  {
    if !Auth.IsAdmin(s) then (s, Some(AdminRequired))
    else if userId == s.session.value.userId then (s, Some(CannotDeleteSelf))
    else if !confirmed then (s, None)
    else
      var out := Auth.DeleteUser(s, userId, now);
      (out.store, if out.result.Ok? then None else Some(DeleteFailed))
  }
}

=== FILE: wrappers.dfy ===
/** Failure-carrying datatypes shared by every module of the model.
    - Option<T>: a value that may be absent (a JavaScript `undefined`/`null`).
    - Result<T, E>: either a new value or the error an operation raised or
      reported to the user.
 */
module Wrappers {

  datatype Option<+T> = None | Some(value: T) {

    /** Returns the encapsulated value or `default` when absent. */
    function GetOr(default: T): T {
      match this
      case Some(v) => v
      case None => default
    }
  }

  datatype Result<+T, +E> = Ok(value: T) | Err(error: E) {

    predicate IsFailure() {
      Err?
    }
  }
}
